=== FILE: README.md ===
# innov8 market dashboard — a Dafny model of its data path

This project models the data path of the innov8 market dashboard.

- **The store.** A normalized relational store holds currencies, exchanges, ticker types, sectors, tickers, dates, daily price bars and forecast bars.
- **Synchronization.** The store is filled and kept up to date from an external market-data provider. Every symbol is attempted on its own, and a failure is only logged.
- **The snapshot.** An in-memory "main table" is the join of the price bars with their ticker's attributes.
- **Forecasts.** Five-business-day forecasts are post-processed with a bounded-drift clip and reconciled into consistent OHLC bars.
- **Views.** The dashboard callbacks read the snapshot and the store: the top-movers carousel, the price card, the 52-week line and gauge, the intra-sector correlation table, the sector and symbol dropdowns, the update button and the forecast stepper.

The modules are:

- `Common`: days and timestamps, absolute value and sums, and sequence helpers.
- `Sorting`: SQL `ORDER BY` on text, and descending sort by a numeric key.
- `ForecastClip`: the clip of `generate_forecast` as a recursive definition and as the loop of the source, plus the high/low reconciliation.
- `Store`: the tables, schema validity, price and forecast writes, the sync cursor, `add_new_ohlc` (current and legacy), `fill_ohlc`, `insert_ticker_info`, `get_forecasts` and `clear_forecasts`.
- `DataStore`: the main-table join, `load_main_table` with its refresh signal, the `DataStore` constructor, and forecast generation over a snapshot.
- `Updates`: `update_all.main`, the update-button callbacks and their session record of refreshed scopes.
- `SingleFile`: the single-file dashboard's global snapshot and its update callback, which runs on the legacy sync.
- `Carousel`, `PriceCard`, `Charts52w`, `IntraSector`, `Dropdowns`, `ForecastStepper`: one module per view callback.

The single-file dashboard (`src/innov8/single_file_dashboard.py`) repeats several component callbacks: `update_button_style` (308-317), `update_symbol_data` (616-636), `calculate_table_data` (205-229), `update_intra_sector_table` (676-688) and the 52-week gauge (758-760). These copies compute the same results (only font sizes and figure dimensions differ), so the component modules model them too. Only its `load_main_table` and `update_ticker_data` differ, and `SingleFile` models those. Its import at line 15 (`from innov8.db_ops import add_new_ohlc, con, cur`) names three objects that module does not define: `src/innov8/db_ops.py` binds only `script_directory` and `data` at module level (566-568). As written, the file therefore stops with an `ImportError` before any callback exists. `SingleFile` models the program the import evidently intends: `con` and `add_new_ohlc` are taken to be the module-level connection and `add_new_ohlc` of the legacy root `db_ops.py`, which has the same name, shape and 30-symbol handle object.

Timestamps are integer Unix seconds, and a day is `t / 86400`. Prices are `real`. The provider, the metadata lookup, the fitted forecasting model, the correlation function and the presence of the refresh-signal file are all parameters.

A Python exception that escapes a callback is a `None` result or an `Errored` reply. An exception that is caught and logged is a `Failed` outcome in a log.

The update button's record of refreshed scopes lives in a session `dcc.Store`, which keeps it as JSON. A `None` key written by a click therefore reads back as the string "null" (`Updates.StoredKeys`), and the button callback sees the record in that form.

Each table is a sequence in row-id order, and the date table is a set. Rows are keyed by symbol and timestamp instead of surrogate ids: the UNIQUE columns and the sub-selects make the two interchangeable. The main query has no `ORDER BY`, so SQL promises no row order for the snapshot. The model assumes the order SQLite's nested-loop join over `price` produces in practice: price-table (row-id) order. Several views read positions in that order: the price card's `tail(2)`, the gauge's `close[-252:]` and `iat[-1]`, and the intra-sector `groupby().last()`. For these views, "latest" means "last in snapshot order". Only the weekly resample sorts by date first, and `Charts52w.LastInWeek` models that sort.

Three behaviours of the code worth stating:

- **Forecast lookup boundary.** The lookup of the next forecast is inclusive: `date >= ?`, at `src/innov8/db_ops.py:445`.
- **Short history.** A history too short to fit a model makes `generate_forecast` raise. There is no per-symbol catch around the model fit (`src/innov8/db_ops.py:347-348`), and no batch regeneration exists in the code. `DataStore.GenerateForecast` returns `None` in that case and writes nothing.
- **Locking.** No lock guards the shared connection: it is opened with `check_same_thread=False` and used directly. Concurrency is therefore not modelled.

## Model

| member | source | states |
|---|---|---|
| Store.EmptyDbValid | src/innov8/db_ops.py:107-183 | The freshly created schema satisfies every uniqueness and reference constraint. |
| Store.InsertPrices | src/innov8/db_ops.py:529-559 | The price `executemany` succeeds exactly when the ticker sub-select resolves (or there are no rows), the bars' dates are distinct, and no (ticker, date) key already exists. On success the new rows are appended in order. |
| Store.WriteBars | src/innov8/db_ops.py:516-559 | One transaction commits when every price insert succeeds. It then adds every bar's date and every price row. On failure the whole store is unchanged and the failure is logged. |
| Store.WriteBarsValid | src/innov8/db_ops.py:516-559 | A committed write keeps the primary keys unique and every price resolving its ticker and date. |
| Store.LastStored | src/innov8/db_ops.py:497-506 | `max(date)` over the symbol's rows: absent exactly when the symbol has no rows, otherwise attained and an upper bound. |
| Store.CursorPastStored | src/innov8/db_ops.py:497-506 | The cursor, the day after the latest bar, is absent exactly when the symbol has no bars, and lies strictly after every stored bar of the symbol. |
| Store.AddNewOhlc | src/innov8/db_ops.py:493-562 | A sync succeeds only for a symbol with a provider handle. A failed sync leaves the store unchanged. Tickers and forecasts are never touched. Existing price rows are kept as a prefix, and every added row belongs to the synced symbol. |
| Store.AddNewOhlcValid | src/innov8/db_ops.py:493-562 | A sync keeps the store valid. |
| Store.SyncFromCursorCommits | tests/test_db_ops.py:79-108 | A registered symbol with a handle, whose provider returns distinct dates at or after the cursor, commits exactly those bars. |
| Store.LegacyHandles | db_ops.py:7-18 | The legacy handle object covers the first 30 stored symbols, in row order. |
| Store.LegacyAddNewOhlc | db_ops.py:22-90 | Without a handle the legacy sync fails and changes nothing. A provider error without `raise_errors` writes nothing yet reports success. |
| Store.LegacyOnlyFirstThirty | db_ops.py:18 | A symbol stored after the thirtieth ticker is never synced by the legacy path. |
| Store.SyncEach | src/innov8/update_all.py:7-10 | A best-effort batch logs one outcome per symbol, keeps earlier rows as a prefix, and adds rows only for symbols of the batch. |
| Store.SyncEachDoneHandled | src/innov8/db_ops.py:508 | In a batch, every symbol logged as synced has a provider handle. |
| Store.SyncEachValid | src/innov8/update_all.py:7-10 | A batch of syncs keeps the store valid. |
| Store.SyncEachSplitsState | src/innov8/update_all.py:9-10 | Running a batch in two parts reaches the same store as running it whole. |
| Store.SyncEachSplitsLog | src/innov8/update_all.py:9-10 | The log of a split batch is the two parts' logs one after the other. |
| Store.FillOne | src/innov8/db_ops.py:275-333 | A symbol without a provider handle fails. A download that fails writes nothing yet counts as a success, because the range request does not ask the provider to raise. A failed outcome leaves the store unchanged. |
| Store.FillEach | src/innov8/db_ops.py:264-333 | The initial download logs one outcome per symbol and only ever appends price rows. |
| Store.FillEachValid | src/innov8/db_ops.py:264-333 | The initial download keeps the store valid. |
| Store.FillOhlc | src/innov8/db_ops.py:264-274 | Every stored ticker, in row order, is attempted once. Tickers and forecasts are untouched. |
| Store.InsertOrIgnore | src/innov8/db_ops.py:193-222 | Insert-or-ignore into a UNIQUE name column: the value is present afterwards, nothing else is added, uniqueness is kept, and an existing value leaves the table as it was. |
| Store.InsertTicker | src/innov8/db_ops.py:188-262 | One symbol's transaction succeeds exactly when the metadata request succeeded and the symbol is new. It then appends exactly the ticker built from the metadata. On failure nothing changes, including the dimension tables. |
| Store.InsertTickerValid | src/innov8/db_ops.py:188-262 | Registering a ticker keeps the store valid. |
| Store.InsertTickerInfo | src/innov8/db_ops.py:185-262 | The batch logs one outcome per symbol, keeps existing tickers as a prefix, and adds exactly as many tickers as it logs successes. |
| Store.CountDoneAtMost | src/innov8/db_ops.py:187-262 | No batch reports more successes than it attempted. |
| Store.InsertTickerInfoValid | src/innov8/db_ops.py:185-262 | The registration batch keeps the store valid. |
| Store.InsertTickerInfoAllNew | tests/test_db_ops.py:44-56 | Distinct new symbols whose metadata resolves become exactly those tickers, in order. |
| Store.GetForecast | src/innov8/db_ops.py:434-450 | The lookup returns the symbol's earliest forecast dated at or after the cursor. It is `None` exactly when the symbol has no such forecast. |
| Store.ClearForecasts | src/innov8/db_ops.py:425-432 | The delete empties the forecast table and nothing else. |
| Store.ClearedFindsNothing | src/innov8/db_ops.py:425-450 | After clearing, no lookup finds a forecast. |
| Store.PersistOne | src/innov8/db_ops.py:399-423 | A forecast insert succeeds exactly when the ticker resolves and its (ticker, date) key is new. A failure changes nothing. |
| Store.PersistOneValid | src/innov8/db_ops.py:399-423 | A forecast insert keeps the store valid. |
| Store.PersistForecasts | src/innov8/db_ops.py:381-423 | One transaction per row: only the forecast table changes, and only by appending. It grows by the number of successes, every added row is the symbol's and one of the given rows. |
| Store.PersistForecastsValid | src/innov8/db_ops.py:381-423 | Persisting forecasts keeps the store valid. |
| DataStore.FindTicker | src/innov8/db_ops.py:42 | The join finds a ticker of the price row's symbol exactly when one exists. |
| DataStore.JoinRows | src/innov8/db_ops.py:28-48 | Every snapshot row joins a stored price row with its stored ticker. |
| DataStore.JoinRowsComplete | src/innov8/db_ops.py:41-47 | When every price row resolves its ticker, the snapshot has one row per price row, in order. |
| DataStore.BuildComplete | src/innov8/db_ops.py:28-48 | In a valid store the snapshot has one row per price row, with its symbol and its day. |
| DataStore.LoadMainTable | src/innov8/db_ops.py:453-474 | The snapshot is rebuilt when the signal file exists, when forced, or when none exists yet, and is kept otherwise. The signal is always consumed. |
| DataStore.LoadMainTableSettles | src/innov8/db_ops.py:453-474 | An unforced reload right after a load changes nothing. |
| DataStore.Init | src/innov8/db_ops.py:50-80 | The constructor always leaves a fresh snapshot. An existing store is kept, with its stored symbols as handles. A first run uses the scraped symbols and starts without forecasts. |
| DataStore.InitValid | src/innov8/db_ops.py:50-80 | Construction yields a valid store. |
| DataStore.FirstRunRegistersScraped | src/innov8/db_ops.py:69-75 | On a first run, distinct scraped symbols whose metadata resolves become exactly the stored tickers, in order. |
| DataStore.History | src/innov8/db_ops.py:342 | The symbol's snapshot rows are exactly the snapshot's rows of that symbol. |
| DataStore.HistoryAppend | src/innov8/db_ops.py:342 | A row appended to the snapshot is appended to its own symbol's history and to no other. |
| DataStore.Assemble | src/innov8/db_ops.py:381-396 | Each forecast bar has its date, the clipped open and close, and a high and low that cover the clipped high and low and are consistent. |
| DataStore.ForecastRows | src/innov8/db_ops.py:340-396 | Five bars, each consistent, with the clipped open and close of that horizon. |
| DataStore.StoreForecast | src/innov8/db_ops.py:381-423 | Persisting five consistent bars changes only the forecast table. It appends one row per successful insert, so at most five. Every appended row is the symbol's, consistent, and one of the five bars given. |
| DataStore.GenerateForecast | src/innov8/db_ops.py:335-423 | It fails (raises) exactly when there is no snapshot or the history has fewer than two rows. Otherwise it logs five outcomes, and one forecast row is appended per successful insert. Only forecasts change; every appended row is the symbol's, consistent, and one of the five computed bars (`DataStore.ForecastRows`) of its history. With at most five rows of history nothing is written. |
| DataStore.StoredForecastDrift | src/innov8/db_ops.py:357-423 | Every forecast row written for a symbol whose last five close moves are at most `b` is dated on some forecast day `k`, and its close lies within `(k + 1) * b` of the last close. |
| DataStore.StoredRowsDrift | src/innov8/db_ops.py:362-396 | Any rows drawn from the five computed bars of a history carry that drift bound on their close. |
| DataStore.RowOfDay | src/innov8/db_ops.py:381-384 | A computed bar is dated on forecast day `k` and carries the clipped close of horizon `k`. |
| DataStore.ForecastDriftBounded | src/innov8/db_ops.py:357-377 | If the last five daily moves of a field are at most `b`, the forecast at horizon `i` lies within `(i + 1) * b` of the field's last value. |
| DataStore.SeedBounded | src/innov8/db_ops.py:357 | The clip's seed window consists of the last five absolute day-to-day moves, so each lies between zero and any bound on those moves. |
| ForecastClip.Moves | src/innov8/db_ops.py:357 | `diff().abs()`: one absolute move per consecutive pair of values. |
| ForecastClip.Seed | src/innov8/db_ops.py:357-362 | A seed window exists exactly when the history has more than five values, and then it has five moves. |
| ForecastClip.SeedMoves | src/innov8/db_ops.py:357 | The seed window holds the last five absolute day-to-day moves, oldest first. |
| ForecastClip.Clamp | src/innov8/db_ops.py:369-371 | The clip stays within the bounds and leaves a value inside them unchanged. |
| ForecastClip.ClipAt | src/innov8/db_ops.py:365-377 | Horizon `i` of the clip is the raw prediction clamped around the previous clipped price, with the margin given by the rolling window then in force. |
| ForecastClip.BoundedDrift | src/innov8/db_ops.py:365-377 | With a non-negative seed, each step moves by at most the current margin, and that margin is non-negative. |
| ForecastClip.DriftAtMostSeedBound | src/innov8/db_ops.py:362-377 | If every seed move is at most `b`, every forecast step moves by at most `b`. |
| ForecastClip.CumulativeDrift | src/innov8/db_ops.py:362-377 | If every seed move is at most `b`, horizon `i` lies within `(i + 1) * b` of the last price. |
| ForecastClip.FlatSeedFlatForecast | src/innov8/db_ops.py:362-377 | A history whose last five moves are zero forecasts the last price at every horizon. |
| ForecastClip.ClipForecast | src/innov8/db_ops.py:360-377 | The source's loop over a ring of ten moves with a running sum computes the recursive clip. |
| ForecastClip.Reconcile | src/innov8/db_ops.py:385-396 | The reconciled bar keeps open and close, is consistent (high at least open, close and low; low at most open and close), and covers the raw high and low with values taken from the four inputs. |
| ForecastClip.ReconcileFixesConsistent | src/innov8/db_ops.py:385-396 | Reconciling a bar that is already consistent returns it unchanged. |
| ForecastClip.ReconcileIdempotent | src/innov8/db_ops.py:385-396 | Reconciling twice is the same as reconciling once. |
| Sorting.InsertStr | src/innov8/components/dropdowns.py:7-19 | Inserting into a sorted list keeps it sorted and adds exactly that element. |
| Sorting.SortStrings | src/innov8/components/dropdowns.py:7-19 | `ORDER BY` on text yields a sorted permutation. |
| Sorting.SortedHeadIsLeast | src/innov8/components/dropdowns.py:59 | The head of a sorted list is at or before every element. |
| Sorting.SortByKeyDesc | src/innov8/components/main_carousel.py:32 | Descending order by a key yields a permutation sorted by that key. |
| Sorting.TopByKey | src/innov8/components/main_carousel.py:32-33 | `ORDER BY … DESC LIMIT k`: `min(k, n)` elements, sorted descending, a sub-multiset, and no element left out beats one kept. |
| Carousel.LastBefore | src/innov8/components/main_carousel.py:26-31 | The symbol's latest date strictly before `t`: absent exactly when there is none, otherwise attained and maximal. |
| Carousel.CloseAt | src/innov8/components/main_carousel.py:23-25 | The close of the symbol's bar on that date, absent exactly when no such bar exists. |
| Carousel.PctSign | src/innov8/components/main_carousel.py:16 | Against a positive earlier close, the change is positive exactly when the price rose, and zero exactly when it stayed. |
| Carousel.GrowthOfDefined | src/innov8/components/main_carousel.py:15-31 | A symbol has a growth row exactly when it has bars on two different dates. |
| Carousel.GrowthOfMeaning | src/innov8/components/main_carousel.py:15-31 | With unique keys, the growth row compares the bar on the latest date with the bar on the latest earlier date. |
| Carousel.Candidates | src/innov8/components/main_carousel.py:7-14 | The query sees exactly the symbols that have price rows and a ticker, each once. |
| Carousel.GrowthRows | src/innov8/components/main_carousel.py:15-31 | The growth rows are exactly the defined growth rows of the candidates. |
| Carousel.TopMovers | src/innov8/components/main_carousel.py:6-33 | At most ten growth rows, in descending absolute change, with no row left out beating a row kept. |
| Carousel.Slides | src/innov8/components/main_carousel.py:54-71 | One slide per row, keeping symbol and change. A leading "+" and green appear exactly for a rise, red otherwise. |
| Carousel.UpdateMainCarousel | src/innov8/components/main_carousel.py:53-71 | The carousel renders exactly when every top row's change is defined. A NULL change fails the comparison. |
| Carousel.CarouselRenders | tests/test_callbacks.py:78-80 | Without zero earlier closes the carousel renders, with ten slides once ten symbols have two dates. |
| PriceCard.UpdateSymbolData | src/innov8/components/price_card.py:78-99 | The card fails exactly when the symbol has fewer than two rows. Otherwise it shows the close of the symbol's last row, and the name, currency, exchange and sector of the row before it. The change is the relative move from that earlier close and is undefined after a zero close. The card is green exactly when the change is positive (after a zero close: when the price is positive), and red otherwise. |
| PriceCard.RoseMeaning | src/innov8/components/price_card.py:85 | `cur / prev - 1 > 0` holds exactly when the price rose against a positive previous close, fell against a negative one, or is positive after a zero one. |
| PriceCard.ChangeMeaning | src/innov8/components/price_card.py:85 | The reported change times the previous price is the price difference. |
| PriceCard.OtherRowsIgnored | src/innov8/components/price_card.py:79-82 | Rows of other symbols do not affect the card. |
| PriceCard.LatestPairDecides | src/innov8/components/price_card.py:79-99 | The symbol's last two rows decide the card, whatever rows of other symbols lie between or after them. The card shows the later row's close and its change against the earlier close, and the earlier row's name, currency, exchange and sector. |
| Charts52w.GaugeWindow | src/innov8/components/charts_52w.py:79-80 | The gauge window is the closes of the last 252 rows, in order. |
| Charts52w.GaugeOf | src/innov8/components/charts_52w.py:79-81 | The current price is the latest close, and it lies between the window's low and high. |
| Charts52w.GaugeSpan | src/innov8/components/charts_52w.py:79-80 | The low and high bound every close of the last 252 rows and are attained by some of them. |
| Charts52w.WeekSpan | src/innov8/components/charts_52w.py:46-49 | A day lies in a Monday-to-Sunday week exactly when that week is the day's week. |
| Charts52w.LastInWeekMeaning | src/innov8/components/charts_52w.py:46-51 | A week's value is absent exactly when the week has no row. Otherwise it is the close of a row of that week with the latest day, and no later row of the week has that day, as the resample's stable date sort leaves it. |
| Charts52w.DateOrderAgrees | src/innov8/components/charts_52w.py:42-51 | On a history in date order, the week's value is the close of the week's last row in sequence. |
| Charts52w.DaysAttained | src/innov8/components/charts_52w.py:46-50 | The first and last days of the history are days of some row. |
| Charts52w.Weekly | src/innov8/components/charts_52w.py:45-51 | The resample covers every week from the first row's week to the last row's week, one point each, labelled by Monday. |
| Charts52w.LatestWeekHasClose | src/innov8/components/charts_52w.py:45-51 | The latest week always has a close. |
| Charts52w.WeeklyLineIsTail | src/innov8/components/charts_52w.py:45-53 | The weekly line is the last 52 points of the resample. |
| Charts52w.WeeklyLineShape | src/innov8/components/charts_52w.py:45-53 | Point `i` of the line is the week `n - 1 - i` weeks before the latest, with that week's last close. |
| Charts52w.Update52WeekCharts | src/innov8/components/charts_52w.py:40-90 | The charts fail exactly when the symbol has no rows. Otherwise the line has between 1 and 52 points. |
| Charts52w.NewRowIsCurrent | src/innov8/components/charts_52w.py:42-81 | A new row of the symbol becomes the gauge's current price, and its week has a close. That close is the new row's when no earlier row of the symbol is dated after it. |
| IntraSector.SectorRows | src/innov8/components/intra_sector.py:25-27 | The sector table holds exactly the snapshot rows of that sector. |
| IntraSector.LatestDayMeaning | src/innov8/components/intra_sector.py:31 | A symbol's latest day is absent exactly when it has no rows, and otherwise is attained and maximal. |
| IntraSector.EarliestLatestMeaning | src/innov8/components/intra_sector.py:31 | The minimum over symbols of their latest day exists for a non-empty list, and is attained and minimal. |
| IntraSector.EndDayDefined | src/innov8/components/intra_sector.py:31 | The end date exists exactly when the sector has rows. It is some symbol's latest day, and no symbol's latest day is earlier. |
| IntraSector.EndDayReachedByAll | src/innov8/components/intra_sector.py:31 | Every symbol of the sector has a row on or after the end date. |
| IntraSector.InWindow | src/innov8/components/intra_sector.py:33-37 | The window keeps exactly the rows dated from 90 days before the end date through the end date. |
| IntraSector.SectorWindow | src/innov8/components/intra_sector.py:25-37 | The window holds only rows of the sector, and exactly those within 90 days up to the end date. |
| IntraSector.LastClose | src/innov8/components/intra_sector.py:45 | `groupby().last()`: absent exactly when the symbol has no row. |
| IntraSector.LastCloseMeaning | src/innov8/components/intra_sector.py:45 | The value is the close of the symbol's last row in the window. |
| IntraSector.WindowSymbols | src/innov8/components/intra_sector.py:40-45 | The window's symbols, sorted and each once. |
| IntraSector.CorrMatrix | src/innov8/components/intra_sector.py:39-43 | The matrix has exactly the window's symbols as rows and columns, and each entry is the pair's correlation. |
| IntraSector.CalculateTableData | src/innov8/components/intra_sector.py:23-47 | The prices list each window symbol once, in order, with its last close. The matrix covers exactly those symbols. |
| IntraSector.JoinPrices | src/innov8/components/intra_sector.py:90-95 | The joined rows are exactly the priced symbols other than the selected one, with their price and correlation. |
| IntraSector.UpdateIntraSectorTable | src/innov8/components/intra_sector.py:88-100 | It fails exactly when the selected symbol is missing from the matrix or the prices. Otherwise the rows are sorted by descending absolute correlation and are a permutation of the join. |
| IntraSector.TableFromData | src/innov8/components/intra_sector.py:88-100 | For data covering exactly the priced symbols, the table lists every other priced symbol once, with its price and its correlation to the selected one. |
| IntraSector.TableOfMember | src/innov8/components/intra_sector.py:23-100 | A symbol gets a table exactly when it has a row in the window. That table lists every other window symbol once, with its last close and its correlation to the selected one. |
| Dropdowns.SectorOptions | src/innov8/components/dropdowns.py:7-11 | The sector options are the stored sectors, sorted. |
| Dropdowns.SectorSymbols | src/innov8/components/dropdowns.py:13-19 | The symbols of exactly the tickers in the sector. |
| Dropdowns.UpdateSymbolsDropdown | src/innov8/components/dropdowns.py:56-59 | It fails exactly when the sector has no ticker. Otherwise the options are the sector's symbols, sorted, and the value is the first option. |
| Dropdowns.DefaultSymbolIsLeast | tests/test_callbacks.py:20-24 | The default symbol is at or before every option. |
| Updates.UpdateAll | src/innov8/update_all.py:7-10 | One sync per distinct snapshot symbol. Only prices change, by appending rows of snapshot symbols, and the snapshot is not reloaded. |
| Updates.UpdateAllCoversSnapshot | src/innov8/update_all.py:9 | The batch lists every snapshot symbol exactly once. |
| Updates.UpdateAllValid | src/innov8/update_all.py:7-10 | Updating all keeps the store valid. |
| Updates.UpdateTickerData | src/innov8/components/update.py:66-87 | Without a click nothing changes. Otherwise the scope's key is recorded and the snapshot is reloaded, and the rows added belong to the chosen symbol or sector. |
| Updates.UpdateTickerDataValid | src/innov8/components/update.py:66-87 | A refresh keeps the store valid. |
| Updates.UpdateButtonStyle | src/innov8/components/update.py:100-114 | The caption, color and disabled flag always agree: "Up to date", "success", disabled or "Update", "info", enabled. |
| Updates.StoredKeys | src/innov8/components/update.py:51 | The record read back from the JSON session store has no `None` key: a `None` key reads as "null", every other key is kept. |
| Updates.ClickDisablesButton | src/innov8/components/update.py:66-114 | After a click whose scope has a key, the button fed from the session store shows the scope as up to date. After a click without a key (no symbol or no sector), the button looks as it did before the click, barring a sector literally named "null". |
| Updates.TickerClickWithoutSymbolStaysEnabled | src/innov8/components/update.py:75-76 | A ticker-scope click with no symbol leaves only "null" in the stored record, and the button stays enabled. |
| Updates.RefreshedMonotone | src/innov8/components/update.py:107-111 | Recording more keys never re-enables the button. |
| Updates.AllKeyCoversEverything | src/innov8/components/update.py:107-114 | An "All" key disables the button for every selection, and an empty record enables it. |
| Updates.ButtonStyleExamples | tests/test_callbacks.py:27-67 | The repository's five button-style cases. |
| Updates.TickerScopeWithoutSymbol | tests/test_callbacks.py:70-72 | A click in ticker scope without a symbol records only the missing symbol and leaves the store alone. |
| SingleFile.Start | src/innov8/single_file_dashboard.py:42-59 | The handles are the legacy first-30 handles, and the global table is the snapshot of the store. |
| SingleFile.LoadMainTable | src/innov8/single_file_dashboard.py:42-56 | The global table is always rebuilt from the store. |
| SingleFile.LegacyEach | src/innov8/single_file_dashboard.py:286-291 | A loop of legacy syncs never touches tickers or forecasts, and with no handled symbol it changes nothing. |
| SingleFile.UpdateTickerData | src/innov8/single_file_dashboard.py:277-295 | It prevents the update exactly when never clicked. Otherwise it records the scope's key and reloads the table. |
| SingleFile.TickerBeyondThirtyNeverRefreshes | src/innov8/single_file_dashboard.py:277-295 | A ticker stored past the thirtieth is recorded as up to date though nothing was written. |
| ForecastStepper.StepAsWritten | src/innov8/components/forcast.py:38-64 | When another input fired, the series is kept and the button re-enabled. The press fails on an empty series. It also fails when the last bar's time is not a `{day, month, year}` mapping, which is the case for any bar an earlier press appended. An extension appends one forecast of the symbol dated from the day after the last bar, with a `datetime` as its time. |
| ForecastStepper.StepCorrected | src/innov8/components/forcast.py:38-64 | The same, with two differences. The appended bar's time is a `{day, month, year}` mapping, and the button is disabled exactly when the symbol has no forecast after the appended bar's day. |
| ForecastStepper.AppendsEarliestLater | src/innov8/components/forcast.py:42-60 | Both versions append the same bar, up to the form of its time: the earliest forecast after the last bar's day. |
| ForecastStepper.AgreeOnConsecutiveDays | src/innov8/components/forcast.py:62 | When the appended bar is dated the very next day, the two versions agree on the button and on every bar, up to the form of the appended bar's time. |
| ForecastStepper.CorrectedNextPressExtends | src/innov8/components/forcast.py:42-64 | With both corrections (the appended time written as a `{day, month, year}` mapping, and the lookup from the appended bar's day), a button left enabled always extends on the next press. |
| ForecastStepper.AsWrittenPressAfterExtensionFails | src/innov8/components/forcast.py:42-58 | As written, every press after a successful extension fails, whether or not another forecast exists. |
| ForecastStepper.AsWrittenStaysEnabledPastLastBar | src/innov8/components/forcast.py:62-64 | A series ending on day 1 with one forecast on day 4: the as-written press appends it and leaves the button enabled, while the corrected press disables it. |
| ForecastStepper.AsWrittenSecondPressFails | src/innov8/components/forcast.py:42-62 | A series ending on day 1 with forecasts on days 2 and 3: as written, the second press fails, while the corrected presses append both and then disable the button. |

## Left out

- Prophet fitting, its business-day calendar and `predict` are not modelled. The fitted run (five dates and raw `yhat` values per field) is a `DataStore.ModelRun` input.
- yfinance history and metadata requests, S&P 500 scraping (`scrape_symbols`) and its file fallback are not modelled. They are the `provider`, `meta` and `scraped` parameters.
- The SQL engine itself is not modelled. Only the statements' effects are: rows are sequences in row-id order, and id columns are replaced by the values they stand for.
- Floating point is not modelled: prices are `real`. IEEE rounding, NaN (the margin over a short history), `.round(2)`, `.round(3)` and all string formatting are left out.
- Pearson correlation is the `correlate` parameter. The pivot's `ValueError` on duplicate (date, symbol) keys is not modelled.
- The snapshot's row order is an assumption: price-table order, as SQLite's join yields it. SQL does not promise it. The model does not require that each symbol's rows are in date order, and it does not prove that the writes keep them so, because the provider's bars are unconstrained. The positional views (`PriceCard`, the gauge, `IntraSector`) therefore read "latest" as "last in snapshot order", exactly as the code's positional lookups do.
- The W-MON resample is modelled on day numbers. Weeks run from day `4 + 7k`, which is a Monday. Pandas calendar details are left out.
- Time zones: `tz_localize(None)` and UTC date construction become plain day arithmetic on Unix seconds.
- The refresh-signal file is modelled as a boolean in the state. File-system I/O is not.
- Concurrency, connection sharing and the Dash callback machinery are not modelled. Neither are layout, Plotly figures, themes, the spinner and the client-side callbacks.
- `price_chart.py` is not part of this model. The series the chart is loaded with is taken to carry its bar times as `{day, month, year}` mappings (`ForecastStepper.DayParts`), the form `forcast.py:42-46` reads. A bar the callback appends carries a `datetime`, which reaches the next call as a string. Both forms are `ForecastStepper.Instant`, since the read fails on either.
- Tie order of `ORDER BY … DESC` for equal keys is not modelled. The contracts state only the order by key and the multiset.
- The sector dropdown's default value is the constant `Dropdowns.DefaultSector` ("Technology"); no contract is stated about it.
- Scope values other than "Ticker" and "Sector" are all treated as the "All" scope, as the `else` branch does.
- `tests/test_callbacks.py:9` imports `corrs` and `tests/test_callbacks.py:132` calls `update_intra_sector_table` with three arguments. Neither matches the code, so nothing is derived from them. The undefined `ticker` at `src/innov8/single_file_dashboard.py:524-544` belongs to the price chart, which is not modelled.
- DataStore.GenerateForecast: it does not state which inserts succeed; that is left to the outcome log, whose `Done` count equals the number of rows written. Each written row is one of `DataStore.ForecastRows`. That function states the date, the clipped open and close, and consistency. High and low are stated only as covering the other three fields.
- Store.AddNewOhlc: its contract does not spell out when a sync commits. That is stated by `Store.WriteBars` and `Store.SyncFromCursorCommits`.
- Charts52w.Update52WeekCharts: the contract states the failure case and the line length. The line's contents are stated by `Charts52w.WeeklyLineShape` and the gauge by `Charts52w.GaugeSpan`.

## Findings

| source | as written | input that shows it | evidently intended | confidence | as-written member | corrected member |
|---|---|---|---|---|---|---|
| src/innov8/components/forcast.py:62 | The "no more forecasts" check looks from two days after the series' last bar, not from the day after the bar just appended. | A series ending on day 1 and one forecast for the symbol dated day 4. The press appends day 4 but leaves the button enabled, though no forecast follows. | Disable the button when no forecast exists after the appended bar's day. | not executed | ForecastStepper.StepAsWritten, ForecastStepper.AsWrittenStaysEnabledPastLastBar | ForecastStepper.StepCorrected, ForecastStepper.CorrectedNextPressExtends |
| src/innov8/components/forcast.py:58 | The appended bar's time is a `datetime`. The next press reads the last bar's time as a `{day, month, year}` mapping (lines 42-46), and on that value the subscript raises `TypeError`. | A series ending on day 1 and forecasts for the symbol on days 2 and 3. The first press appends day 2 and leaves the button enabled. The second press raises at line 45, so day 3 is never shown. | Write the appended bar's time in the form the callback reads back, so presses can follow one another. | not executed | ForecastStepper.StepAsWritten, ForecastStepper.AsWrittenPressAfterExtensionFails, ForecastStepper.AsWrittenSecondPressFails | ForecastStepper.StepCorrected, ForecastStepper.CorrectedNextPressExtends |

=== FILE: carousel.dfy ===
/** The top-movers carousel: for every stored symbol with at least two
    bars, the percentage change of the latest close against the close of
    the latest earlier date; the ten largest by absolute change become
    slides, a rise in green with a leading "+", anything else in red. */
module Carousel {
  import opened Common
  import opened Store
  import opened Sorting

  /** One result row of the growth query; `None` is SQL NULL, which the
      division yields when the earlier close is zero. */
  datatype Growth = Growth(symbol: Symbol, pct: Option<real>)

  datatype Slide = Slide(symbol: Symbol, change: real, plus: bool, color: string)

  const SlideCount: nat := 10

  /** `MAX(date)` over the symbol's rows dated strictly before `t`. */
  function LastBefore(rows: seq<PriceRow>, sym: Symbol, t: int): (r: Option<int>)
    ensures r.None? <==> forall i :: 0 <= i < |rows| && rows[i].symbol == sym ==> rows[i].bar.time >= t
    ensures r.Some? ==> r.value < t
    ensures r.Some? ==> exists i :: 0 <= i < |rows| && rows[i].symbol == sym && rows[i].bar.time == r.value
    ensures r.Some? ==> forall i :: 0 <= i < |rows| && rows[i].symbol == sym && rows[i].bar.time < t ==>
      rows[i].bar.time <= r.value
    decreases |rows|
  {
    if |rows| == 0 then None
    else
      var rest := LastBefore(rows[1..], sym, t);
      assert forall i :: 1 <= i < |rows| ==> rows[i] == rows[1..][i - 1];
      if rows[0].symbol != sym || rows[0].bar.time >= t then rest
      else match rest
        case None => Some(rows[0].bar.time)
        case Some(u) => Some(if rows[0].bar.time > u then rows[0].bar.time else u)
  }

  /** The close stored for the symbol on date `t`. */
  function CloseAt(rows: seq<PriceRow>, sym: Symbol, t: int): (r: Option<real>)
    ensures r.None? <==> forall i :: 0 <= i < |rows| ==> Key(rows[i]) != (sym, t)
    ensures r.Some? ==> exists i :: 0 <= i < |rows| && Key(rows[i]) == (sym, t) && rows[i].bar.close == r.value
    decreases |rows|
  {
    if |rows| == 0 then None
    else if Key(rows[0]) == (sym, t) then Some(rows[0].bar.close)
    else
      var rest := CloseAt(rows[1..], sym, t);
      assert forall i :: 1 <= i < |rows| ==> rows[i] == rows[1..][i - 1];
      rest
  }

  /** `100 * (c1 - c2) / c2`, NULL on a zero divisor. */
  function Pct(c1: real, c2: real): Option<real>
  {
    if c2 == 0.0 then None else Some(100.0 * (c1 - c2) / c2)
  }

  /** Against a positive earlier close the change is positive exactly when
      the price rose, and zero exactly when it stayed. */
  lemma PctSign(c1: real, c2: real)
    requires c2 > 0.0
    ensures Pct(c1, c2).Some?
    ensures Pct(c1, c2).value > 0.0 <==> c1 > c2
    ensures Pct(c1, c2).value == 0.0 <==> c1 == c2
  {
    var q := (c1 - c2) / c2;
    assert q * c2 == c1 - c2;
    assert Pct(c1, c2).value == 100.0 * q;
  }

  /** The growth row of one symbol, if it has a latest date and an earlier
      one. */
  function GrowthOf(db: Db, sym: Symbol): (g: Option<Growth>)
    ensures g.Some? ==> g.value.symbol == sym
  {
    match LastStored(db.prices, sym)
    case None => None
    case Some(today) =>
      match LastBefore(db.prices, sym, today)
      case None => None
      case Some(prev) =>
        var c1 := CloseAt(db.prices, sym, today).value;
        var c2 := CloseAt(db.prices, sym, prev).value;
        Some(Growth(sym, Pct(c1, c2)))
  }

  /** With unique keys, the close found is the close of every row with
      that key. */
  lemma CloseAtUnique(rows: seq<PriceRow>, sym: Symbol, t: int)
    requires UniqueKeys(rows) && CloseAt(rows, sym, t).Some?
    ensures forall i :: 0 <= i < |rows| && Key(rows[i]) == (sym, t) ==> rows[i].bar.close == CloseAt(rows, sym, t).value
  {
    var i0 :| 0 <= i0 < |rows| && Key(rows[i0]) == (sym, t) && rows[i0].bar.close == CloseAt(rows, sym, t).value;
    forall i | 0 <= i < |rows| && Key(rows[i]) == (sym, t)
      ensures rows[i].bar.close == CloseAt(rows, sym, t).value
    {
      assert Key(rows[i]) == Key(rows[i0]);
    }
  }

  /** A symbol has a growth row exactly when it has bars on two different
      dates. */
  lemma GrowthOfDefined(db: Db, sym: Symbol)
    ensures GrowthOf(db, sym).Some? <==> exists i, j :: (0 <= i < |db.prices| && 0 <= j < |db.prices|
      && db.prices[i].symbol == sym && db.prices[j].symbol == sym && db.prices[i].bar.time != db.prices[j].bar.time)
  {
    var last := LastStored(db.prices, sym);
    if last.Some? {
      var before := LastBefore(db.prices, sym, last.value);
      if before.None? {
        forall i, j | 0 <= i < |db.prices| && 0 <= j < |db.prices|
          && db.prices[i].symbol == sym && db.prices[j].symbol == sym
          ensures db.prices[i].bar.time == db.prices[j].bar.time
        {
        }
      } else {
        var j :| 0 <= j < |db.prices| && db.prices[j].symbol == sym && db.prices[j].bar.time == before.value;
        assert CloseAt(db.prices, sym, before.value).Some? by {
          assert Key(db.prices[j]) == (sym, before.value);
        }
        var i :| 0 <= i < |db.prices| && db.prices[i].symbol == sym && db.prices[i].bar.time == last.value;
        assert CloseAt(db.prices, sym, last.value).Some? by {
          assert Key(db.prices[i]) == (sym, last.value);
        }
      }
    }
  }

  /** With unique (symbol, date) keys, the growth row compares the
      symbol's bar on its latest date with its bar on the latest earlier
      date. */
  lemma GrowthOfMeaning(db: Db, sym: Symbol)
    requires UniqueKeys(db.prices) && GrowthOf(db, sym).Some?
    ensures LastStored(db.prices, sym).Some?
    ensures LastBefore(db.prices, sym, LastStored(db.prices, sym).value).Some?
    ensures forall i, j :: 0 <= i < |db.prices| && 0 <= j < |db.prices| ==>
      (Key(db.prices[i]) == (sym, LastStored(db.prices, sym).value)
       && Key(db.prices[j]) == (sym, LastBefore(db.prices, sym, LastStored(db.prices, sym).value).value)
       ==> GrowthOf(db, sym).value.pct == Pct(db.prices[i].bar.close, db.prices[j].bar.close))
  {
    var today := LastStored(db.prices, sym).value;
    var prev := LastBefore(db.prices, sym, today).value;
    CloseAtUnique(db.prices, sym, today);
    CloseAtUnique(db.prices, sym, prev);
  }

  /** The symbols the query sees: those of the price rows that join a
      ticker, in order of first appearance. */
  function Candidates(db: Db): (s: seq<Symbol>)
    ensures NoDuplicates(s)
    ensures forall x :: x in s <==> x in TickerSymbols(db) && exists r :: r in db.prices && r.symbol == x
  {
    var joined := seq(|db.prices|, i requires 0 <= i < |db.prices| => db.prices[i].symbol);
    var d := Distinct(joined);
    assert forall x :: x in d <==> exists r :: r in db.prices && r.symbol == x by {
      forall x
        ensures x in d <==> exists r :: r in db.prices && r.symbol == x
      {
        if exists r :: r in db.prices && r.symbol == x {
          var r :| r in db.prices && r.symbol == x;
          var k :| 0 <= k < |db.prices| && db.prices[k] == r;
          assert joined[k] == x;
        }
      }
    }
    FilterRegistered(d, TickerSymbols(db))
  }

  function FilterRegistered(s: seq<Symbol>, registered: seq<Symbol>): (r: seq<Symbol>)
    requires NoDuplicates(s)
    ensures NoDuplicates(r)
    ensures forall x :: x in r <==> x in s && x in registered
    decreases |s|
  {
    if |s| == 0 then []
    else
      NoDuplicatesTail(s);
      var rest := FilterRegistered(s[1..], registered);
      assert forall x :: x in s <==> x == s[0] || x in s[1..];
      if s[0] in registered then
        assert forall i :: 0 <= i < |rest| ==> rest[i] != s[0];
        [s[0]] + rest
      else rest
  }

  /** The growth rows of the given symbols, in their order. */
  function GrowthRows(db: Db, symbols: seq<Symbol>): (rows: seq<Growth>)
    ensures forall g :: g in rows ==> g.symbol in symbols && GrowthOf(db, g.symbol) == Some(g)
    ensures forall s :: s in symbols && GrowthOf(db, s).Some? ==> GrowthOf(db, s).value in rows
    decreases |symbols|
  {
    if |symbols| == 0 then []
    else
      var rest := GrowthRows(db, symbols[1..]);
      assert forall x :: x in symbols <==> x == symbols[0] || x in symbols[1..];
      match GrowthOf(db, symbols[0])
      case None => rest
      case Some(g) => [g] + rest
  }

  /** `ORDER BY ABS(growth_percentage) DESC`: NULL sorts below every
      number. */
  function SortKey(g: Growth): real
  {
    match g.pct
    case None => -1.0
    case Some(p) => Abs(p)
  }

  /** The query's result: at most ten rows, in descending order of
      absolute change, chosen so that no row left out beats a row kept. */
  function TopMovers(db: Db): (top: seq<Growth>)
    ensures var all := GrowthRows(db, Candidates(db));
      && |top| == (if |all| < SlideCount then |all| else SlideCount)
      && SortedDesc(top, SortKey)
      && multiset(top) <= multiset(all)
      && forall g :: g in multiset(all) - multiset(top) ==> forall t :: t in top ==> SortKey(t) >= SortKey(g)
  {
    TopByKey(GrowthRows(db, Candidates(db)), SortKey, SlideCount)
  }

  /** One slide per row, for rows whose change is defined. */
  function Slides(top: seq<Growth>): (r: seq<Slide>)
    requires forall g :: g in top ==> g.pct.Some?
    ensures |r| == |top|
    ensures forall i :: 0 <= i < |r| ==>
      r[i].symbol == top[i].symbol && Some(r[i].change) == top[i].pct
      && (r[i].plus <==> r[i].change > 0.0)
      && (r[i].color == "green" <==> r[i].plus)
      && (r[i].color == "green" || r[i].color == "red")
  {
    seq(|top|, i requires 0 <= i < |top| =>
      var p := top[i].pct.value;
      Slide(top[i].symbol, p, p > 0.0, if p > 0.0 then "green" else "red"))
  }

  /** `update_main_carousel`: one slide per top row; a NULL change fails
      the `change > 0` comparison with a TypeError (`None`). */
  function UpdateMainCarousel(db: Db): (r: Option<seq<Slide>>)
    ensures r.Some? <==> forall g :: g in TopMovers(db) ==> g.pct.Some?
    ensures r.Some? ==> r.value == Slides(TopMovers(db))
  {
    var top := TopMovers(db);
    if forall g :: g in top ==> g.pct.Some? then Some(Slides(top)) else None
  }

  /** When no symbol's previous close is zero the carousel always renders,
      with ten slides as soon as ten symbols have two or more bars. */
  lemma CarouselRenders(db: Db)
    requires forall s :: s in Candidates(db) && GrowthOf(db, s).Some? ==> GrowthOf(db, s).value.pct.Some?
    ensures UpdateMainCarousel(db).Some?
    ensures |GrowthRows(db, Candidates(db))| >= SlideCount ==> |UpdateMainCarousel(db).value| == SlideCount
  {
    var all := GrowthRows(db, Candidates(db));
    forall g | g in TopMovers(db)
      ensures g.pct.Some?
    {
      assert g in multiset(all);
    }
  }
}

=== FILE: charts52w.dfy ===
/** The 52-week panel of a symbol: a weekly closing-price line (weeks
    start on Monday, each week shows its last close, the latest 52 weeks
    are kept) and a gauge placing the latest close between the lowest and
    the highest of the last 252 closes. */
module Charts52w {
  import opened Common
  import opened Store
  import opened DataStore

  /** Trading rows the gauge spans, about one year. */
  const GaugeRows: nat := 252
  /** Weeks the weekly line keeps. */
  const ChartWeeks: nat := 52

  datatype Gauge = Gauge(low: real, high: real, current: real)

  /** A point of the weekly line: the Monday that labels the week and the
      week's last close, `None` for a week without rows. */
  datatype WeeklyPoint = WeeklyPoint(monday: int, close: Option<real>)

  function Lowest(s: seq<real>): (m: real)
    requires |s| > 0
    ensures m in s && forall x :: x in s ==> m <= x
  {
    if |s| == 1 then s[0]
    else
      var rest := Lowest(s[1..]);
      assert forall x :: x in s ==> x == s[0] || x in s[1..];
      if s[0] <= rest then s[0] else rest
  }

  function Highest(s: seq<real>): (m: real)
    requires |s| > 0
    ensures m in s && forall x :: x in s ==> x <= m
  {
    if |s| == 1 then s[0]
    else
      var rest := Highest(s[1..]);
      assert forall x :: x in s ==> x == s[0] || x in s[1..];
      if s[0] >= rest then s[0] else rest
  }

  /** The closes the gauge spans: the last 252 of the history. */
  function GaugeWindow(h: seq<SnapRow>): (w: seq<real>)
    ensures |w| == if |h| < GaugeRows then |h| else GaugeRows
    ensures forall i :: 0 <= i < |w| ==> w[i] == h[|h| - |w| + i].close
  {
    var n := if |h| < GaugeRows then |h| else GaugeRows;
    seq(n, i requires 0 <= i < n => h[|h| - n + i].close)
  }

  /** The gauge of a non-empty history. */
  function GaugeOf(h: seq<SnapRow>): (g: Gauge)
    requires |h| > 0
    ensures g.low <= g.current <= g.high
    ensures g.current == h[|h| - 1].close
  {
    var w := GaugeWindow(h);
    var cur := h[|h| - 1].close;
    assert w[|w| - 1] == cur;
    assert cur in w;
    var lo := Lowest(w);
    var hi := Highest(w);
    assert lo <= cur;
    Gauge(lo, hi, cur)
  }

  /** The gauge's low and high are the least and the greatest of the last
      252 closes: every one of them lies between, and both are attained. */
  lemma GaugeSpan(h: seq<SnapRow>)
    requires |h| > 0
    ensures var g := GaugeOf(h);
      && (forall i :: 0 <= i < |h| && |h| - GaugeRows <= i ==> g.low <= h[i].close <= g.high)
      && (exists i :: 0 <= i < |h| && |h| - GaugeRows <= i && h[i].close == g.low)
      && (exists i :: 0 <= i < |h| && |h| - GaugeRows <= i && h[i].close == g.high)
  {
    var w := GaugeWindow(h);
    WindowCloses(h);
    assert GaugeOf(h).low == Lowest(w) && GaugeOf(h).high == Highest(w);
  }

  /** The gauge window holds exactly the closes of the last 252 rows. */
  lemma WindowCloses(h: seq<SnapRow>)
    ensures forall i :: 0 <= i < |h| && |h| - GaugeRows <= i ==> h[i].close in GaugeWindow(h)
    ensures forall x :: x in GaugeWindow(h) ==> exists i :: 0 <= i < |h| && |h| - GaugeRows <= i && h[i].close == x
  {
    var w := GaugeWindow(h);
    forall i | 0 <= i < |h| && |h| - GaugeRows <= i
      ensures h[i].close in w
    {
      assert w[i - (|h| - |w|)] == h[i].close;
    }
    forall x | x in w
      ensures exists i :: 0 <= i < |h| && |h| - GaugeRows <= i && h[i].close == x
    {
      var k :| 0 <= k < |w| && w[k] == x;
      assert h[|h| - |w| + k].close == x;
    }
  }

  /** The number of the Monday-to-Sunday week holding `day`; day 4 of the
      Unix epoch (5 January 1970) is a Monday. */
  function WeekOf(day: int): int
  {
    (day - 4) / 7
  }

  /** The Monday that starts `week`. */
  function MondayOf(week: int): int
  {
    7 * week + 4
  }

  /** The `W-MON`, closed-left bin of `week`: its Monday and the six days
      after it. */
  predicate InWeek(day: int, week: int)
  {
    MondayOf(week) <= day < MondayOf(week) + 7
  }

  /** Every day lies in the bin of its week number, and in no other. */
  lemma WeekSpan(day: int, week: int)
    ensures InWeek(day, week) <==> week == WeekOf(day)
  {
  }

  lemma WeekOfMonotone(a: int, b: int)
    requires a <= b
    ensures WeekOf(a) <= WeekOf(b)
  {
  }

  /** The row the resample reports for `week`: the resample sorts the
      rows by date with a stable sort, so the bin's last row is the one
      with the latest day, and among rows of that day the later one. */
  function LatestInWeek(h: seq<SnapRow>, week: int): Option<SnapRow>
    decreases |h|
  {
    if |h| == 0 then None
    else
      var best := LatestInWeek(h[..|h| - 1], week);
      var x := h[|h| - 1];
      if !InWeek(x.day, week) then best
      else if best.None? || best.value.day <= x.day then Some(x)
      else best
  }

  /** The week's last close (`resample(...)["close"].last()`). */
  function LastInWeek(h: seq<SnapRow>, week: int): Option<real>
  {
    match LatestInWeek(h, week)
    case None => None
    case Some(r) => Some(r.close)
  }

  /** A week has a close exactly when some row falls in it; the close is
      that of a row of the week with the latest day, and no later row of
      the week shares that day. */
  lemma LastInWeekMeaning(h: seq<SnapRow>, week: int)
    ensures var c := LastInWeek(h, week);
      && (c.None? <==> forall i :: 0 <= i < |h| ==> !InWeek(h[i].day, week))
      && (c.Some? ==> exists i :: (0 <= i < |h| && InWeek(h[i].day, week) && h[i].close == c.value
          && (forall j :: 0 <= j < |h| && InWeek(h[j].day, week) ==> h[j].day <= h[i].day)
          && (forall j :: i < j < |h| && InWeek(h[j].day, week) ==> h[j].day < h[i].day)))
  {
    LastInWeekEmpty(h, week);
    if LatestInWeek(h, week).Some? {
      LatestInWeekIsLatest(h, week);
      var i :| LatestAt(h, week, i) && h[i] == LatestInWeek(h, week).value;
      assert h[i].close == LastInWeek(h, week).value;
    }
  }

  lemma {:induction false} LastInWeekEmpty(h: seq<SnapRow>, week: int)
    ensures LatestInWeek(h, week).None? <==> forall i :: 0 <= i < |h| ==> !InWeek(h[i].day, week)
    decreases |h|
  {
    if |h| > 0 {
      LastInWeekEmpty(h[..|h| - 1], week);
      assert forall i :: 0 <= i < |h| - 1 ==> h[..|h| - 1][i] == h[i];
    }
  }

  /** Row `i` of the history lies in `week`, no row of the week has a
      later day, and no later row of the week shares its day. */
  predicate LatestAt(h: seq<SnapRow>, week: int, i: int)
  {
    && 0 <= i < |h| && InWeek(h[i].day, week)
    && (forall j :: 0 <= j < |h| && InWeek(h[j].day, week) ==> h[j].day <= h[i].day)
    && (forall j :: i < j < |h| && InWeek(h[j].day, week) ==> h[j].day < h[i].day)
  }

  lemma {:induction false} LatestInWeekIsLatest(h: seq<SnapRow>, week: int)
    requires LatestInWeek(h, week).Some?
    ensures exists i :: LatestAt(h, week, i) && h[i] == LatestInWeek(h, week).value
    decreases |h|
  {
    var n := |h| - 1;
    var init := h[..n];
    var x := h[n];
    assert h == init + [x];
    var best := LatestInWeek(init, week);
    if best.None? {
      LastInWeekEmpty(init, week);
      LatestNewRow(init, x, week);
    } else {
      LatestInWeekIsLatest(init, week);
      var i :| LatestAt(init, week, i) && init[i] == best.value;
      if InWeek(x.day, week) && best.value.day <= x.day {
        LatestNewRow(init, x, week);
      } else {
        LatestKeptRow(init, x, week, i);
        assert h[i] == init[i];
      }
    }
  }

  /** A row of the week dated no earlier than every row of the week before
      it becomes the week's latest. */
  lemma LatestNewRow(init: seq<SnapRow>, x: SnapRow, week: int)
    requires InWeek(x.day, week)
    requires forall j :: 0 <= j < |init| && InWeek(init[j].day, week) ==> init[j].day <= x.day
    ensures LatestAt(init + [x], week, |init|)
  {
    var h := init + [x];
    forall j | 0 <= j < |h| && InWeek(h[j].day, week)
      ensures h[j].day <= h[|init|].day
    {
      if j < |init| { assert h[j] == init[j]; }
    }
  }

  /** A row outside the week, or dated before the week's latest, leaves
      the latest where it was. */
  lemma LatestKeptRow(init: seq<SnapRow>, x: SnapRow, week: int, i: int)
    requires LatestAt(init, week, i)
    requires InWeek(x.day, week) ==> x.day < init[i].day
    ensures LatestAt(init + [x], week, i)
  {
    var h := init + [x];
    forall j | 0 <= j < |h| && InWeek(h[j].day, week)
      ensures h[j].day <= h[i].day
    {
      if j < |init| { assert h[j] == init[j]; }
    }
    forall j | i < j < |h| && InWeek(h[j].day, week)
      ensures h[j].day < h[i].day
    {
      if j < |init| { assert h[j] == init[j]; }
    }
  }

  /** The close of the last row, in sequence, that falls in `week`: the
      positional reading, which ignores dates within the bin. */
  function LastInOrder(h: seq<SnapRow>, week: int): Option<real>
    decreases |h|
  {
    if |h| == 0 then None
    else if InWeek(h[|h| - 1].day, week) then Some(h[|h| - 1].close)
    else LastInOrder(h[..|h| - 1], week)
  }

  /** On a history in date order the date-sorted reading and the
      positional one agree. */
  lemma {:induction false} DateOrderAgrees(h: seq<SnapRow>, week: int)
    requires forall i, j :: 0 <= i < j < |h| ==> h[i].day <= h[j].day
    ensures LastInWeek(h, week) == LastInOrder(h, week)
    decreases |h|
  {
    if |h| > 0 {
      var n := |h| - 1;
      var init := h[..n];
      assert forall j :: 0 <= j < n ==> init[j] == h[j];
      DateOrderAgrees(init, week);
      var best := LatestInWeek(init, week);
      if InWeek(h[n].day, week) && best.Some? {
        LatestInWeekIsLatest(init, week);
        var i :| LatestAt(init, week, i) && init[i] == best.value;
        assert best.value.day <= h[n].day;
      }
    }
  }

  /** The earliest day of the history. */
  function FirstDay(h: seq<SnapRow>): (d: int)
    requires |h| > 0
    ensures forall i :: 0 <= i < |h| ==> d <= h[i].day
  {
    if |h| == 1 then h[0].day
    else
      var rest := FirstDay(h[1..]);
      assert forall i :: 1 <= i < |h| ==> h[i] == h[1..][i - 1];
      if h[0].day <= rest then h[0].day else rest
  }

  /** The latest day of the history. */
  function LastDay(h: seq<SnapRow>): (d: int)
    requires |h| > 0
    ensures forall i :: 0 <= i < |h| ==> h[i].day <= d
  {
    if |h| == 1 then h[0].day
    else
      var rest := LastDay(h[1..]);
      assert forall i :: 1 <= i < |h| ==> h[i] == h[1..][i - 1];
      if h[0].day >= rest then h[0].day else rest
  }

  /** Both ends of the history's date range are days of actual rows. */
  lemma {:induction false} DaysAttained(h: seq<SnapRow>)
    requires |h| > 0
    ensures exists i :: 0 <= i < |h| && h[i].day == FirstDay(h)
    ensures exists i :: 0 <= i < |h| && h[i].day == LastDay(h)
  {
    if |h| > 1 {
      DaysAttained(h[1..]);
      var i :| 0 <= i < |h[1..]| && h[1..][i].day == FirstDay(h[1..]);
      var j :| 0 <= j < |h[1..]| && h[1..][j].day == LastDay(h[1..]);
      assert h[i + 1] == h[1..][i] && h[j + 1] == h[1..][j];
      if h[0].day <= FirstDay(h[1..]) {
        assert h[0].day == FirstDay(h);
      } else {
        assert h[i + 1].day == FirstDay(h);
      }
      if h[0].day >= LastDay(h[1..]) {
        assert h[0].day == LastDay(h);
      } else {
        assert h[j + 1].day == LastDay(h);
      }
    } else {
      assert h[0].day == FirstDay(h) && h[0].day == LastDay(h);
    }
  }

  /** The point of one week. */
  function PointOf(h: seq<SnapRow>, week: int): WeeklyPoint
  {
    WeeklyPoint(MondayOf(week), LastInWeek(h, week))
  }

  /** The weekly resample: one point per week from the earliest row's
      week to the latest row's week, empty weeks included. */
  function Weekly(h: seq<SnapRow>): (r: seq<WeeklyPoint>)
    requires |h| > 0
    ensures |r| == WeekOf(LastDay(h)) - WeekOf(FirstDay(h)) + 1
    ensures forall i :: 0 <= i < |r| ==> r[i] == PointOf(h, WeekOf(FirstDay(h)) + i)
  {
    var first := WeekOf(FirstDay(h));
    var last := WeekOf(LastDay(h));
    WeekOfMonotone(FirstDay(h), LastDay(h));
    var r := WeeksFrom(h, first, last - first + 1);
    assert forall i :: 0 <= i < |r| ==> r[i] == PointOf(h, first + i);
    r
  }

  /** The weekly line: the points of the latest 52 weeks of the resample,
      ending with the week of the latest row, which always has a close. */
  function WeeklyLine(h: seq<SnapRow>): (line: seq<WeeklyPoint>)
    requires |h| > 0
    ensures 0 < |line| <= ChartWeeks
    ensures line[|line| - 1].close.Some?
  {
    var last := WeekOf(LastDay(h));
    var n := LineWeeks(h);
    LatestWeekHasClose(h);
    var line := WeeksFrom(h, last - (n - 1), n);
    assert line[n - 1] == PointOf(h, last);
    line
  }

  /** How many weeks the line shows: those from the earliest row's week
      to the latest row's week, at most 52. */
  function LineWeeks(h: seq<SnapRow>): (n: nat)
    requires |h| > 0
    ensures 0 < n <= ChartWeeks
    ensures n == WeekOf(LastDay(h)) - WeekOf(FirstDay(h)) + 1 || n == ChartWeeks
  {
    WeekOfMonotone(FirstDay(h), LastDay(h));
    var count := WeekOf(LastDay(h)) - WeekOf(FirstDay(h)) + 1;
    if count < ChartWeeks then count else ChartWeeks
  }

  lemma LatestWeekHasClose(h: seq<SnapRow>)
    requires |h| > 0
    ensures LastInWeek(h, WeekOf(LastDay(h))).Some?
  {
    DaysAttained(h);
    var k :| 0 <= k < |h| && h[k].day == LastDay(h);
    WeekSpan(h[k].day, WeekOf(LastDay(h)));
    LastInWeekMeaning(h, WeekOf(LastDay(h)));
  }

  /** The points of the `n` consecutive weeks starting with week `first`. */
  function WeeksFrom(h: seq<SnapRow>, first: int, n: nat): (r: seq<WeeklyPoint>)
    ensures |r| == n
    ensures forall i :: 0 <= i < n ==> r[i] == PointOf(h, first + i)
  {
    seq(n, i => PointOf(h, first + i))
  }

  /** The line is exactly the last 52 points of the full weekly resample. */
  lemma WeeklyLineIsTail(h: seq<SnapRow>)
    requires |h| > 0
    ensures WeeklyLine(h) == TakeLast(Weekly(h), ChartWeeks)
  {
    var all := Weekly(h);
    var line := WeeklyLine(h);
    var n := |line|;
    var first := WeekOf(FirstDay(h));
    var last := WeekOf(LastDay(h));
    assert |all| - n + first == last - (n - 1);
    var tail := all[|all| - n..];
    forall i | 0 <= i < n
      ensures line[i] == tail[i]
    {
      assert tail[i] == all[|all| - n + i];
    }
    assert line == tail;
  }

  /** The weekly line covers consecutive weeks ending with the week of the
      latest row; each point is labelled with its week's Monday and shows
      that week's last close. */
  lemma WeeklyLineShape(h: seq<SnapRow>)
    requires |h| > 0
    ensures var line := WeeklyLine(h);
      forall i :: 0 <= i < |line| ==>
           line[i].monday == MondayOf(WeekOf(LastDay(h)) - (|line| - 1) + i)
           && line[i].close == LastInWeek(h, WeekOf(LastDay(h)) - (|line| - 1) + i)
  {
    var last := WeekOf(LastDay(h));
    var n := LineWeeks(h);
    var line := WeeksFrom(h, last - (n - 1), n);
    assert WeeklyLine(h) == line;
    forall i | 0 <= i < n
      ensures line[i].monday == MondayOf(last - (n - 1) + i) && line[i].close == LastInWeek(h, last - (n - 1) + i)
    {
      assert line[i] == PointOf(h, last - (n - 1) + i);
    }
  }

  /** `update_52_week_charts`: the weekly line and the gauge; an empty
      history fails on the latest-close lookup (`None`). */
  function Update52WeekCharts(snap: seq<SnapRow>, symbol: Symbol): (r: Option<(seq<WeeklyPoint>, Gauge)>)
    ensures r.None? <==> |History(snap, symbol)| == 0
    ensures r.Some? ==> 0 < |r.value.0| <= ChartWeeks
  {
    var h := History(snap, symbol);
    if |h| == 0 then None
    else
      Some((WeeklyLine(h), GaugeOf(h)))
  }

  /** A new row of the symbol becomes the gauge's current price, its week
      has a close, and when no earlier row of the symbol is dated after it
      that close is the new row's. */
  lemma NewRowIsCurrent(snap: seq<SnapRow>, x: SnapRow, symbol: Symbol)
    requires x.symbol == symbol
    ensures var r := Update52WeekCharts(snap + [x], symbol);
      r.Some? && r.value.1.current == x.close
      && LastInWeek(History(snap + [x], symbol), WeekOf(x.day)).Some?
    ensures (forall r :: r in History(snap, symbol) ==> r.day <= x.day) ==>
      LastInWeek(History(snap + [x], symbol), WeekOf(x.day)) == Some(x.close)
  {
    HistoryAppend(snap, x, symbol);
    AppendedRowsWeek(History(snap, symbol), x);
  }

  /** A row appended to a history gives its week a value, its own when no
      earlier row is dated after it. */
  lemma AppendedRowsWeek(h: seq<SnapRow>, x: SnapRow)
    ensures LatestInWeek(h + [x], WeekOf(x.day)).Some?
    ensures (forall r :: r in h ==> r.day <= x.day) ==> LatestInWeek(h + [x], WeekOf(x.day)) == Some(x)
  {
    var week := WeekOf(x.day);
    WeekSpan(x.day, week);
    assert (h + [x])[..|h|] == h && (h + [x])[|h|] == x;
    var best := LatestInWeek(h, week);
    if best.Some? {
      LatestInWeekIsLatest(h, week);
      var i :| LatestAt(h, week, i) && h[i] == best.value;
      assert best.value in h;
    }
  }
}

=== FILE: common.dfy ===
/** Small shared vocabulary: optional values, real arithmetic helpers,
    Unix-time days, and sequence utilities (suffixes, distinct elements). */
module Common {

  datatype Option<+T> = None | Some(value: T)

  /** Seconds in one calendar day; SQLite's DATE(x, 'unixepoch') and
      Python's timedelta(days=1) both work in whole days of this length. */
  const SecondsPerDay: int := 86400

  /** The calendar day (days since 1970-01-01, UTC) holding Unix time `t`.
      Dafny's division is Euclidean, which for a positive divisor is the
      floor division SQLite uses for timestamps before 1970 as well. */
  function DayOf(t: int): (d: int)
    ensures d * SecondsPerDay <= t < (d + 1) * SecondsPerDay
  {
    t / SecondsPerDay
  }

  /** Unix time of UTC midnight starting day `d`. */
  function Midnight(d: int): (t: int)
    ensures DayOf(t) == d
  {
    d * SecondsPerDay
  }

  function Abs(x: real): (r: real)
    ensures r >= 0.0
    ensures r == x || r == -x
  {
    if x < 0.0 then -x else x
  }

  function Max(a: real, b: real): (r: real)
    ensures r >= a && r >= b
    ensures r == a || r == b
  {
    if a >= b then a else b
  }

  function Min(a: real, b: real): (r: real)
    ensures r <= a && r <= b
    ensures r == a || r == b
  {
    if a <= b then a else b
  }

  function Sum(s: seq<real>): real
  {
    if |s| == 0 then 0.0 else s[0] + Sum(s[1..])
  }

  /** Sum distributes over concatenation. */
  lemma {:induction false} SumAppend(a: seq<real>, b: seq<real>)
    ensures Sum(a + b) == Sum(a) + Sum(b)
  {
    if |a| == 0 {
      assert a + b == b;
    } else {
      assert (a + b)[1..] == a[1..] + b;
      SumAppend(a[1..], b);
    }
  }

  /** A sum of non-negative terms is non-negative. */
  lemma {:induction false} SumNonNegative(s: seq<real>)
    requires forall i :: 0 <= i < |s| ==> s[i] >= 0.0
    ensures Sum(s) >= 0.0
  {
    if |s| > 0 {
      SumNonNegative(s[1..]);
    }
  }

  /** A sum of `|s|` terms each at most `b` is at most `|s| * b`. */
  lemma {:induction false} SumAtMost(s: seq<real>, b: real)
    requires forall i :: 0 <= i < |s| ==> s[i] <= b
    ensures Sum(s) <= (|s| as real) * b
  {
    if |s| > 0 {
      SumAtMost(s[1..], b);
    }
  }

  /** The last `n` elements of `s` (all of them when there are fewer),
      as Python's `s[-n:]` and pandas' `.tail(n)` select them. */
  function TakeLast<T>(s: seq<T>, n: nat): (r: seq<T>)
    ensures |r| == if |s| < n then |s| else n
    ensures |r| <= n
    ensures r == s[|s| - |r|..]
  {
    if |s| <= n then s else s[|s| - n..]
  }

  /** The first `n` elements of `s` (all of them when there are fewer),
      as Python's `s[:n]` and SQL's `LIMIT n` keep them. */
  function TakeFirst<T>(s: seq<T>, n: nat): (r: seq<T>)
    ensures |r| == if |s| < n then |s| else n
    ensures r == s[..|r|]
  {
    if |s| <= n then s else s[..n]
  }

  predicate NoDuplicates<T(==)>(s: seq<T>)
  {
    forall i, j :: 0 <= i < j < |s| ==> s[i] != s[j]
  }

  /** Removing the head keeps a duplicate-free sequence duplicate-free,
      and the head does not reappear. */
  lemma NoDuplicatesTail<T>(s: seq<T>)
    requires NoDuplicates(s) && |s| > 0
    ensures NoDuplicates(s[1..]) && s[0] !in s[1..]
  {
    assert forall i :: 0 <= i < |s| - 1 ==> s[1..][i] == s[i + 1];
  }

  /** A duplicate-free sequence holds every value at most once. */
  lemma {:induction false} CountAtMostOne<T>(s: seq<T>)
    requires NoDuplicates(s)
    ensures forall x :: multiset(s)[x] <= 1
    decreases |s|
  {
    if |s| > 0 {
      assert s == [s[0]] + s[1..];
      NoDuplicatesTail(s);
      CountAtMostOne(s[1..]);
    }
  }

  /** A repeated value is counted at least twice. */
  lemma DuplicateCounts<T>(s: seq<T>, i: nat, j: nat)
    requires i < j < |s| && s[i] == s[j]
    ensures multiset(s)[s[i]] >= 2
  {
    assert s == s[..i] + [s[i]] + s[i + 1..j] + [s[j]] + s[j + 1..];
  }

  /** Reordering keeps a sequence duplicate-free. */
  lemma NoDuplicatesPermutation<T>(a: seq<T>, b: seq<T>)
    requires NoDuplicates(a) && multiset(a) == multiset(b)
    ensures NoDuplicates(b)
  {
    forall i, j | 0 <= i < j < |b|
      ensures b[i] != b[j]
    {
      if b[i] == b[j] {
        DuplicateCounts(b, i, j);
        CountAtMostOne(a);
      }
    }
  }

  /** The distinct elements of `s` in order of first appearance, as
      pandas' `Series.unique()` lists them. */
  function Distinct<T(==,!new)>(s: seq<T>): (r: seq<T>)
    ensures NoDuplicates(r)
    ensures forall x :: x in r <==> x in s
  {
    DistinctAfter(s, [])
  }

  /** Appends to `seen` the elements of `s` not yet in it, in order. */
  function DistinctAfter<T(==,!new)>(s: seq<T>, seen: seq<T>): (r: seq<T>)
    requires NoDuplicates(seen)
    ensures NoDuplicates(r)
    ensures forall x :: x in r <==> x in s || x in seen
    ensures |seen| <= |r| && r[..|seen|] == seen
    decreases |s|
  {
    if |s| == 0 then seen
    else if s[0] in seen then DistinctAfter(s[1..], seen)
    else
      assert forall x :: x in s <==> x == s[0] || x in s[1..];
      DistinctAfter(s[1..], seen + [s[0]])
  }

  /** The first element of a non-empty sequence is its first distinct one. */
  lemma DistinctHead<T(!new)>(s: seq<T>)
    requires |s| > 0
    ensures |Distinct(s)| > 0 && Distinct(s)[0] == s[0]
  {
    var r := DistinctAfter(s[1..], [s[0]]);
    assert r[..1] == [s[0]];
  }
}

=== FILE: datastore.dfy ===
/** The `DataStore` object: the store, the provider handles it was built
    with, its in-memory snapshot of the main join (`main_table`) and the
    on-disk update signal file, with construction, reloading and forecast
    generation. */
module DataStore {
  import opened Common
  import opened Store
  import ForecastClip

  /** One row of the main query: a price bar joined with its ticker and
      the ticker's dimensions; the date is truncated to a calendar day. */
  datatype SnapRow = SnapRow(symbol: Symbol, name: string, sector: string, day: int,
                             open: real, high: real, low: real, close: real, volume: int,
                             exchange: string, kind: string, currency: string)

  datatype State = State(db: Db, handles: seq<Symbol>, snapshot: Option<seq<SnapRow>>, signal: bool)

  /** The ticker row with the given symbol, if any. */
  function FindTicker(tickers: seq<Ticker>, sym: Symbol): (r: Option<Ticker>)
    ensures r.Some? ==> r.value in tickers && r.value.symbol == sym
    ensures r.None? <==> forall t :: t in tickers ==> t.symbol != sym
    decreases |tickers|
  {
    if |tickers| == 0 then None
    else if tickers[0].symbol == sym then Some(tickers[0])
    else
      assert forall t :: t in tickers <==> t == tickers[0] || t in tickers[1..];
      FindTicker(tickers[1..], sym)
  }

  function Join(p: PriceRow, t: Ticker): SnapRow
  {
    SnapRow(p.symbol, t.name, t.sector, DayOf(p.bar.time), p.bar.open, p.bar.high, p.bar.low,
            p.bar.close, p.bar.volume, t.exchange, t.kind, t.currency)
  }

  /** The inner join of the price rows with their tickers. The query has
      no ORDER BY, so SQL fixes no order; the model assumes price-row
      order, the order SQLite's nested-loop join over `price` yields. */
  function JoinRows(tickers: seq<Ticker>, prices: seq<PriceRow>): (rows: seq<SnapRow>)
    ensures |rows| <= |prices|
    ensures forall r :: r in rows ==>
      exists p, t :: p in prices && t in tickers && t.symbol == p.symbol && r == Join(p, t)
    decreases |prices|
  {
    if |prices| == 0 then []
    else
      var rest := JoinRows(tickers, prices[1..]);
      assert forall p :: p in prices[1..] ==> p in prices;
      match FindTicker(tickers, prices[0].symbol)
      case None => rest
      case Some(t) => [Join(prices[0], t)] + rest
  }

  /** When every price row has a ticker, the join keeps every row, in
      order, each joined with its symbol's ticker. */
  lemma {:induction false} JoinRowsComplete(tickers: seq<Ticker>, prices: seq<PriceRow>)
    requires forall p :: p in prices ==> FindTicker(tickers, p.symbol).Some?
    ensures |JoinRows(tickers, prices)| == |prices|
    ensures forall i :: 0 <= i < |prices| ==>
      JoinRows(tickers, prices)[i] == Join(prices[i], FindTicker(tickers, prices[i].symbol).value)
    decreases |prices|
  {
    if |prices| > 0 {
      assert forall p :: p in prices[1..] ==> p in prices;
      JoinRowsComplete(tickers, prices[1..]);
      assert prices[0] in prices;
      var rows := JoinRows(tickers, prices);
      var rest := JoinRows(tickers, prices[1..]);
      assert rows == [Join(prices[0], FindTicker(tickers, prices[0].symbol).value)] + rest;
      forall i | 0 < i < |prices|
        ensures rows[i] == Join(prices[i], FindTicker(tickers, prices[i].symbol).value)
      {
        assert rows[i] == rest[i - 1] && prices[i] == prices[1..][i - 1];
      }
    }
  }

  /** `pd.read_sql_query(main_query, ...)`. */
  function Build(db: Db): seq<SnapRow>
  {
    JoinRows(db.tickers, db.prices)
  }

  /** On a valid store the join loses no price row: the snapshot has one
      row per stored bar, in order, carrying that bar's day and values. */
  lemma BuildComplete(db: Db)
    requires Valid(db)
    ensures |Build(db)| == |db.prices|
    ensures forall i :: 0 <= i < |db.prices| ==>
      Build(db)[i].symbol == db.prices[i].symbol && Build(db)[i].day == DayOf(db.prices[i].bar.time)
      && Build(db)[i].close == db.prices[i].bar.close
  {
    forall p | p in db.prices
      ensures FindTicker(db.tickers, p.symbol).Some?
    {
      var k :| 0 <= k < |db.tickers| && TickerSymbols(db)[k] == p.symbol;
      assert db.tickers[k] in db.tickers;
    }
    JoinRowsComplete(db.tickers, db.prices);
  }

  /** The snapshot reflects the store exactly. */
  ghost predicate Fresh(st: State)
  {
    st.snapshot == Some(Build(st.db))
  }

  /** `load_main_table(force_update)`: rebuild the snapshot when the signal
      file exists, when forced, or when there is none yet; the signal file
      is deleted whenever it exists. */
  function LoadMainTable(st: State, force: bool): (r: State)
    ensures !r.signal
    ensures r.db == st.db && r.handles == st.handles
    ensures st.signal || force || st.snapshot.None? ==> Fresh(r)
    ensures !st.signal && !force && st.snapshot.Some? ==> r.snapshot == st.snapshot
  {
    if st.signal || force || st.snapshot.None? then
      st.(snapshot := Some(Build(st.db)), signal := false)
    else st.(signal := false)
  }

  /** Reloading without force right after a load changes nothing: the
      signal is consumed and a snapshot exists. */
  lemma LoadMainTableSettles(st: State, force: bool)
    ensures LoadMainTable(LoadMainTable(st, force), false) == LoadMainTable(st, force)
  {
  }

  /** `DataStore.__init__`. `stored` is the database file's content, `None`
      when it has no price table: then every table is recreated, the
      scraped symbols become the handles, and ticker information and the
      initial price range are downloaded. Otherwise the handles are the
      stored ticker symbols. Either way the snapshot is loaded. */
  function Init(stored: Option<Db>, signal: bool, scraped: seq<Symbol>,
                meta: Symbol -> Option<Meta>, provider: (Symbol, Request) -> Fetch): (st: State)
    ensures Fresh(st) && !st.signal
    ensures stored.Some? ==> st.db == stored.value && st.handles == TickerSymbols(stored.value)
    ensures stored.None? ==> st.handles == scraped && st.db.forecasts == []
  {
    match stored
    case Some(db) =>
      LoadMainTable(State(db, TickerSymbols(db), None, signal), true)
    case None =>
      var withTickers := InsertTickerInfo(EmptyDb, scraped, meta).0;
      var filled := FillOhlc(withTickers, scraped, provider).0;
      LoadMainTable(State(filled, scraped, None, signal), true)
  }

  /** Construction keeps the store valid, and a first run builds a valid
      store from nothing. */
  lemma InitValid(stored: Option<Db>, signal: bool, scraped: seq<Symbol>,
                  meta: Symbol -> Option<Meta>, provider: (Symbol, Request) -> Fetch)
    requires stored.Some? ==> Valid(stored.value)
    ensures Valid(Init(stored, signal, scraped, meta, provider).db)
  {
    if stored.None? {
      EmptyDbValid();
      InsertTickerInfoValid(EmptyDb, scraped, meta);
      var withTickers := InsertTickerInfo(EmptyDb, scraped, meta).0;
      FillEachValid(withTickers, scraped, TickerSymbols(withTickers), provider);
    }
  }

  /** First run with distinct symbols whose metadata all resolve: the
      ticker table lists exactly the scraped symbols, in order. */
  lemma FirstRunRegistersScraped(signal: bool, scraped: seq<Symbol>,
                                 meta: Symbol -> Option<Meta>, provider: (Symbol, Request) -> Fetch)
    requires NoDuplicates(scraped)
    requires forall s :: s in scraped ==> meta(s).Some? && meta(s).value.symbol == s
    ensures TickerSymbols(Init(None, signal, scraped, meta, provider).db) == scraped
  {
    InsertTickerInfoAllNew(EmptyDb, scraped, meta);
    assert TickerSymbols(EmptyDb) + scraped == scraped;
  }

  // ---------------------------------------------------------------------
  // Forecast generation
  // ---------------------------------------------------------------------

  datatype Field = Open | High | Low | Close

  function FieldOf(r: SnapRow, f: Field): real
  {
    match f
    case Open => r.open
    case High => r.high
    case Low => r.low
    case Close => r.close
  }

  /** The snapshot rows of one symbol, in snapshot order
      (`df.loc[df["symbol"] == symbol]`). */
  function History(rows: seq<SnapRow>, sym: Symbol): (h: seq<SnapRow>)
    ensures |h| <= |rows|
    ensures forall r :: r in h ==> r in rows && r.symbol == sym
    ensures forall r :: r in rows && r.symbol == sym ==> r in h
    decreases |rows|
  {
    if |rows| == 0 then []
    else
      var rest := History(rows[1..], sym);
      assert forall r :: r in rows <==> r == rows[0] || r in rows[1..];
      if rows[0].symbol == sym then [rows[0]] + rest else rest
  }

  /** The symbol column of the snapshot, row by row. */
  function SymbolColumn(snap: seq<SnapRow>): (s: seq<Symbol>)
    ensures |s| == |snap|
    ensures forall i :: 0 <= i < |snap| ==> s[i] == snap[i].symbol
  {
    seq(|snap|, i requires 0 <= i < |snap| => snap[i].symbol)
  }

  /** `main_table.symbol.unique()`. */
  function SnapshotSymbols(snap: seq<SnapRow>): seq<Symbol>
  {
    Distinct(SymbolColumn(snap))
  }

  /** Filtering commutes with appending a row: a new row of the symbol
      becomes the last row of its history. */
  lemma {:induction false} HistoryAppend(rows: seq<SnapRow>, r: SnapRow, sym: Symbol)
    ensures History(rows + [r], sym) == History(rows, sym) + (if r.symbol == sym then [r] else [])
    decreases |rows|
  {
    if |rows| == 0 {
      assert rows + [r] == [r];
    } else {
      assert (rows + [r])[0] == rows[0] && (rows + [r])[1..] == rows[1..] + [r];
      HistoryAppend(rows[1..], r, sym);
    }
  }

  /** Filtering distributes over concatenation. */
  lemma {:induction false} HistoryConcat(xs: seq<SnapRow>, ys: seq<SnapRow>, sym: Symbol)
    ensures History(xs + ys, sym) == History(xs, sym) + History(ys, sym)
    decreases |ys|
  {
    if |ys| == 0 {
      assert xs + ys == xs;
    } else {
      var init := ys[..|ys| - 1];
      var y := ys[|ys| - 1];
      assert ys == init + [y];
      assert xs + ys == (xs + init) + [y];
      HistoryConcat(xs, init, sym);
      HistoryAppend(xs + init, y, sym);
      HistoryAppend(init, y, sym);
    }
  }

  /** Rows of other symbols leave nothing in the history. */
  lemma HistoryOfOthers(rows: seq<SnapRow>, sym: Symbol)
    requires forall i :: 0 <= i < |rows| ==> rows[i].symbol != sym
    ensures History(rows, sym) == []
  {
  }

  function Column(h: seq<SnapRow>, f: Field): (c: seq<real>)
    ensures |c| == |h|
    ensures forall i :: 0 <= i < |h| ==> c[i] == FieldOf(h[i], f)
  {
    seq(|h|, i requires 0 <= i < |h| => FieldOf(h[i], f))
  }

  /** What the fitted model predicts for the five business days after the
      history: their timestamps and the raw `yhat` of each price field. */
  datatype ModelRun = ModelRun(dates: seq<int>, open: seq<real>, high: seq<real>,
                               low: seq<real>, close: seq<real>)

  predicate WellFormed(run: ModelRun)
  {
    |run.dates| == ForecastClip.Periods && |run.open| == ForecastClip.Periods
    && |run.high| == ForecastClip.Periods && |run.low| == ForecastClip.Periods
    && |run.close| == ForecastClip.Periods
  }

  function Raw(run: ModelRun, f: Field): seq<real>
  {
    match f
    case Open => run.open
    case High => run.high
    case Low => run.low
    case Close => run.close
  }

  /** One field's clipped forecast: seeded with the last five absolute
      day-to-day moves of that field and anchored at its last value. */
  function ClipField(h: seq<SnapRow>, f: Field, run: ModelRun): (out: seq<real>)
    requires |h| > ForecastClip.Periods && WellFormed(run)
    ensures |out| == ForecastClip.Periods
  {
    RawLength(run, f);
    ForecastClip.Clip(ForecastClip.Seed(Column(h, f)).value, FieldOf(h[|h| - 1], f), Raw(run, f))
  }

  /** Day `i` of the forecast: its date, the clipped open and close, and
      high and low widened to cover all four clipped values. */
  function Assemble(dates: seq<int>, o: seq<real>, hi: seq<real>, lo: seq<real>, c: seq<real>)
    : (rows: seq<(int, ForecastClip.Ohlc)>)
    requires |o| == |dates| && |hi| == |dates| && |lo| == |dates| && |c| == |dates|
    ensures |rows| == |dates|
    ensures forall i :: 0 <= i < |rows| ==>
      rows[i].0 == dates[i] && ForecastClip.Consistent(rows[i].1)
      && rows[i].1.open == o[i] && rows[i].1.close == c[i]
      && rows[i].1.high >= hi[i] && rows[i].1.low <= lo[i]
  {
    seq(|dates|, i requires 0 <= i < |dates| => (dates[i], ForecastClip.Reconcile(o[i], hi[i], lo[i], c[i])))
  }

  /** The five rows to store. */
  function ForecastRows(h: seq<SnapRow>, run: ModelRun): (rows: seq<(int, ForecastClip.Ohlc)>)
    requires |h| > ForecastClip.Periods && WellFormed(run)
    ensures |rows| == ForecastClip.Periods
    ensures forall i :: 0 <= i < |rows| ==>
      rows[i].0 == run.dates[i] && ForecastClip.Consistent(rows[i].1)
      && rows[i].1.open == ClipField(h, Open, run)[i] && rows[i].1.close == ClipField(h, Close, run)[i]
  {
    var o := ClipField(h, Open, run);
    var c := ClipField(h, Close, run);
    var rows := Assemble(run.dates, o, ClipField(h, High, run), ClipField(h, Low, run), c);
    assert forall i :: 0 <= i < |rows| ==> rows[i].1.open == o[i] && rows[i].1.close == c[i];
    rows
  }

  /** The insert loop of `generate_forecast`, for rows already known to
      be consistent. */
  function StoreForecast(db: Db, sym: Symbol, rows: seq<(int, ForecastClip.Ohlc)>): (r: (Db, seq<Outcome>))
    requires |rows| == ForecastClip.Periods
    requires forall k :: 0 <= k < |rows| ==> ForecastClip.Consistent(rows[k].1)
    ensures |r.1| == ForecastClip.Periods
    ensures r.0 == db.(forecasts := r.0.forecasts)
    ensures |db.forecasts| <= |r.0.forecasts| <= |db.forecasts| + ForecastClip.Periods
    ensures r.0.forecasts[..|db.forecasts|] == db.forecasts
    ensures |r.0.forecasts| == |db.forecasts| + CountDone(r.1)
    ensures forall i :: |db.forecasts| <= i < |r.0.forecasts| ==>
      r.0.forecasts[i].symbol == sym && ForecastClip.Consistent(r.0.forecasts[i].ohlc)
      && (r.0.forecasts[i].time, r.0.forecasts[i].ohlc) in rows
  {
    var persisted := PersistForecasts(db, sym, rows);
    CountDoneAtMost(persisted.1);
    forall i | |db.forecasts| <= i < |persisted.0.forecasts|
      ensures ForecastClip.Consistent(persisted.0.forecasts[i].ohlc)
    {
      var k :| 0 <= k < |rows| && rows[k] == (persisted.0.forecasts[i].time, persisted.0.forecasts[i].ohlc);
    }
    persisted
  }

  /** `generate_forecast`. `None` is the exception that escapes when the
      model cannot be fitted (no snapshot, or fewer than two history
      rows). With at most five rows the moving window contains the
      undefined first difference, every clipped value is NaN and every
      insert fails its NOT NULL constraint. Otherwise the five rows are
      inserted one transaction each. */
  function GenerateForecast(st: State, sym: Symbol, run: ModelRun): (r: (State, Option<seq<Outcome>>))
    requires WellFormed(run)
    ensures r.1.None? <==> st.snapshot.None? || |History(st.snapshot.value, sym)| < 2
    ensures r.1.Some? ==> |r.1.value| == ForecastClip.Periods
    ensures r.0 == st.(db := r.0.db)
    ensures r.0.db == st.db.(forecasts := r.0.db.forecasts)
    ensures |st.db.forecasts| <= |r.0.db.forecasts| <= |st.db.forecasts| + ForecastClip.Periods
    ensures r.0.db.forecasts[..|st.db.forecasts|] == st.db.forecasts
    ensures st.snapshot.Some? && |History(st.snapshot.value, sym)| <= ForecastClip.Periods ==> r.0 == st
    ensures forall i :: |st.db.forecasts| <= i < |r.0.db.forecasts| ==>
      r.0.db.forecasts[i].symbol == sym && ForecastClip.Consistent(r.0.db.forecasts[i].ohlc)
    ensures r.1.Some? ==> |r.0.db.forecasts| == |st.db.forecasts| + CountDone(r.1.value)
    ensures st.snapshot.Some? && |History(st.snapshot.value, sym)| > ForecastClip.Periods ==>
      forall i :: |st.db.forecasts| <= i < |r.0.db.forecasts| ==>
        (r.0.db.forecasts[i].time, r.0.db.forecasts[i].ohlc) in ForecastRows(History(st.snapshot.value, sym), run)
  {
    match st.snapshot
    case None => (st, None)
    case Some(snap) =>
      var h := History(snap, sym);
      if |h| < 2 then (st, None)
      else if |h| <= ForecastClip.Periods then
        var log := seq(ForecastClip.Periods, _ => Failed(Rejected));
        CountDoneNone(log);
        (st, Some(log))
      else
        var persisted := StoreForecast(st.db, sym, ForecastRows(h, run));
        (st.(db := persisted.0), Some(persisted.1))
  }

  /** Each of the last `Periods` day-to-day moves of the close is at most `b`. */
  predicate CloseMovesWithin(h: seq<SnapRow>, b: real)
  {
    forall k :: 0 < k < |h| && |h| - ForecastClip.Periods <= k ==> Abs(h[k].close - h[k - 1].close) <= b
  }

  /** `t` is the date of some forecast day `k`, and `d` is at most `k + 1`
      times the bound `b`. */
  predicate WithinDayBound(dates: seq<int>, t: int, d: real, b: real)
  {
    exists k :: 0 <= k < ForecastClip.Periods && k < |dates| && t == dates[k] && d <= ForecastClip.Scaled(k + 1, b)
  }

  /** Every row of `out` from index `from` on has a date and a close within
      the drift bound of its forecast day, measured from the last close
      of `h`. */
  predicate RowsWithinDayBound(h: seq<SnapRow>, run: ModelRun, b: real, from: nat, out: seq<ForecastRow>)
    requires |h| > 0
  {
    forall i :: from <= i < |out| ==>
      WithinDayBound(run.dates, out[i].time, Abs(out[i].ohlc.close - h[|h| - 1].close), b)
  }

  /** Every forecast row `generate_forecast` stores is one of the five
      computed bars: its close lies within `k + 1` times the largest of
      the last five daily close moves of the symbol's last close, where
      `k` is the forecast day its date belongs to. */
  lemma StoredForecastDrift(st: State, sym: Symbol, run: ModelRun, b: real)
    requires WellFormed(run) && st.snapshot.Some?
    requires |History(st.snapshot.value, sym)| > ForecastClip.Periods
    requires CloseMovesWithin(History(st.snapshot.value, sym), b)
    ensures RowsWithinDayBound(History(st.snapshot.value, sym), run, b, |st.db.forecasts|,
                               GenerateForecast(st, sym, run).0.db.forecasts)
  {
    StoredRowsDrift(History(st.snapshot.value, sym), run, b, |st.db.forecasts|,
                    GenerateForecast(st, sym, run).0.db.forecasts);
  }

  lemma StoredRowsDrift(h: seq<SnapRow>, run: ModelRun, b: real, from: nat, out: seq<ForecastRow>)
    requires |h| > ForecastClip.Periods && WellFormed(run)
    requires CloseMovesWithin(h, b)
    requires forall i :: from <= i < |out| ==> (out[i].time, out[i].ohlc) in ForecastRows(h, run)
    ensures RowsWithinDayBound(h, run, b, from, out)
  {
    forall i | from <= i < |out|
      ensures WithinDayBound(run.dates, out[i].time, Abs(out[i].ohlc.close - h[|h| - 1].close), b)
    {
      RowDrift(h, run, b, out[i].time, out[i].ohlc);
    }
  }

  /** The drift bound of one of the five computed bars. */
  lemma RowDrift(h: seq<SnapRow>, run: ModelRun, b: real, t: int, o: ForecastClip.Ohlc)
    requires |h| > ForecastClip.Periods && WellFormed(run)
    requires CloseMovesWithin(h, b)
    requires (t, o) in ForecastRows(h, run)
    ensures WithinDayBound(run.dates, t, Abs(o.close - h[|h| - 1].close), b)
  {
    RowOfDay(h, run, t, o);
    var k :| 0 <= k < ForecastClip.Periods && t == run.dates[k] && o.close == ClipField(h, Close, run)[k];
    CloseDrift(h, run, b, k, o.close);
    DriftWitness(run.dates, Abs(o.close - h[|h| - 1].close), t, b, k);
  }

  lemma DriftWitness(dates: seq<int>, d: real, t: int, b: real, k: nat)
    requires k < ForecastClip.Periods <= |dates| && t == dates[k] && d <= ForecastClip.Scaled(k + 1, b)
    ensures WithinDayBound(dates, t, d, b)
  {
  }

  /** A computed bar is the bar of one forecast day. */
  lemma RowOfDay(h: seq<SnapRow>, run: ModelRun, t: int, o: ForecastClip.Ohlc)
    requires |h| > ForecastClip.Periods && WellFormed(run)
    requires (t, o) in ForecastRows(h, run)
    ensures exists k :: 0 <= k < ForecastClip.Periods && t == run.dates[k] && o.close == ClipField(h, Close, run)[k]
  {
    var rows := ForecastRows(h, run);
    var k :| 0 <= k < |rows| && rows[k] == (t, o);
  }

  lemma CloseDrift(h: seq<SnapRow>, run: ModelRun, b: real, k: nat, c: real)
    requires |h| > ForecastClip.Periods && WellFormed(run) && k < ForecastClip.Periods
    requires CloseMovesWithin(h, b)
    requires c == ClipField(h, Close, run)[k]
    ensures Abs(c - h[|h| - 1].close) <= ForecastClip.Scaled(k + 1, b)
  {
    CloseMoves(h, b);
    ForecastDriftBounded(h, run, Close, b, k);
  }

  lemma CloseMoves(h: seq<SnapRow>, b: real)
    requires |h| > ForecastClip.Periods
    requires CloseMovesWithin(h, b)
    ensures forall k :: |h| - ForecastClip.Periods <= k < |h| ==> Abs(FieldOf(h[k], Close) - FieldOf(h[k - 1], Close)) <= b
  {
  }

  /** A clipped forecast value stays within `i + 1` times the largest of
      the last five daily moves of that field of the symbol's last value,
      on forecast day `i`. */
  lemma ForecastDriftBounded(h: seq<SnapRow>, run: ModelRun, f: Field, b: real, i: nat)
    requires |h| > ForecastClip.Periods && WellFormed(run) && i < ForecastClip.Periods
    requires forall k :: |h| - ForecastClip.Periods <= k < |h| ==> Abs(FieldOf(h[k], f) - FieldOf(h[k - 1], f)) <= b
    ensures Abs(ClipField(h, f, run)[i] - FieldOf(h[|h| - 1], f)) <= ForecastClip.Scaled(i + 1, b)
  {
    SeedBounded(h, f, b);
    ClipDrift(h, run, f, b, i);
  }

  lemma ClipDrift(h: seq<SnapRow>, run: ModelRun, f: Field, b: real, i: nat)
    requires |h| > ForecastClip.Periods && WellFormed(run) && i < ForecastClip.Periods
    requires forall k :: 0 <= k < ForecastClip.Periods ==> 0.0 <= ForecastClip.Seed(Column(h, f)).value[k] <= b
    ensures Abs(ClipField(h, f, run)[i] - FieldOf(h[|h| - 1], f)) <= ForecastClip.Scaled(i + 1, b)
  {
    RawLength(run, f);
    DriftOfClip(ClipField(h, f, run), ForecastClip.Seed(Column(h, f)).value, FieldOf(h[|h| - 1], f),
                Raw(run, f), b, i);
  }

  /** The cumulative drift bound, read off a clip computed elsewhere. */
  lemma DriftOfClip(out: seq<real>, window: seq<real>, last: real, raw: seq<real>, b: real, i: nat)
    requires |window| == ForecastClip.Periods && i < |raw|
    requires forall k :: 0 <= k < ForecastClip.Periods ==> 0.0 <= window[k] <= b
    requires out == ForecastClip.Clip(window, last, raw)
    ensures Abs(out[i] - last) <= ForecastClip.Scaled(i + 1, b)
  {
    ForecastClip.CumulativeDrift(window, last, raw, b, i);
  }

  /** A well-formed run has five raw values for every field. */
  lemma RawLength(run: ModelRun, f: Field)
    requires WellFormed(run)
    ensures |Raw(run, f)| == ForecastClip.Periods
  {
  }

  lemma SeedBounded(h: seq<SnapRow>, f: Field, b: real)
    requires |h| > ForecastClip.Periods
    requires forall k :: |h| - ForecastClip.Periods <= k < |h| ==> Abs(FieldOf(h[k], f) - FieldOf(h[k - 1], f)) <= b
    ensures forall k :: 0 <= k < ForecastClip.Periods ==> 0.0 <= ForecastClip.Seed(Column(h, f)).value[k] <= b
  {
    var col := Column(h, f);
    var seed := ForecastClip.Seed(col).value;
    ForecastClip.SeedMoves(col);
    forall k | 0 <= k < ForecastClip.Periods
      ensures 0.0 <= seed[k] <= b
    {
      var j := |h| - ForecastClip.Periods + k;
      assert seed[k] == Abs(col[j] - col[j - 1]);
      assert col[j] == FieldOf(h[j], f) && col[j - 1] == FieldOf(h[j - 1], f);
    }
  }
}

=== FILE: dropdowns.dfy ===
/** The two selectors: economic sectors in name order, and the symbols of
    the chosen sector in symbol order with the first one preselected. */
module Dropdowns {
  import opened Common
  import opened Store
  import opened Sorting

  /** The sector preselected when the page loads. */
  const DefaultSector: string := "Technology"

  /** `dropdown_1`'s options: every sector name, ascending. */
  function SectorOptions(db: Db): (r: seq<string>)
    ensures StrSorted(r)
    ensures multiset(r) == multiset(db.sectors)
  {
    SortStrings(db.sectors)
  }

  /** The symbols of the tickers in `sector`, in ticker-row order. */
  function SectorSymbols(tickers: seq<Ticker>, sector: string): (r: seq<Symbol>)
    ensures |r| <= |tickers|
    ensures forall x :: x in r <==> exists t :: t in tickers && t.symbol == x && t.sector == sector
    decreases |tickers|
  {
    if |tickers| == 0 then []
    else
      var rest := SectorSymbols(tickers[1..], sector);
      assert forall t :: t in tickers <==> t == tickers[0] || t in tickers[1..];
      if tickers[0].sector == sector then [tickers[0].symbol] + rest else rest
  }

  /** `update_symbols_dropdown`: the sector's symbols ascending, with the
      first as the selected value; an empty sector fails on `options[0]`
      with an IndexError (`None`). */
  function UpdateSymbolsDropdown(db: Db, sector: string): (r: Option<(seq<Symbol>, Symbol)>)
    ensures r.None? <==> forall t :: t in db.tickers ==> t.sector != sector
    ensures r.Some? ==> StrSorted(r.value.0)
    ensures r.Some? ==> multiset(r.value.0) == multiset(SectorSymbols(db.tickers, sector))
    ensures r.Some? ==> forall x :: x in r.value.0 <==> exists t :: t in db.tickers && t.symbol == x && t.sector == sector
    ensures r.Some? ==> |r.value.0| > 0 && r.value.1 == r.value.0[0]
  {
    var options := SortStrings(SectorSymbols(db.tickers, sector));
    assert forall x :: x in options <==> x in SectorSymbols(db.tickers, sector) by {
      forall x
        ensures x in options <==> x in SectorSymbols(db.tickers, sector)
      {
        assert x in options <==> x in multiset(options);
        assert x in SectorSymbols(db.tickers, sector) <==> x in multiset(SectorSymbols(db.tickers, sector));
      }
    }
    if |options| == 0 then
      assert |multiset(SectorSymbols(db.tickers, sector))| == 0;
      assert forall t :: t in db.tickers ==> t.sector != sector by {
        forall t | t in db.tickers
          ensures t.sector != sector
        {
          assert t.symbol !in SectorSymbols(db.tickers, sector);
        }
      }
      None
    else
      assert options[0] in SectorSymbols(db.tickers, sector);
      Some((options, options[0]))
  }

  /** The preselected symbol is the smallest of the sector's symbols. */
  lemma DefaultSymbolIsLeast(db: Db, sector: string)
    requires UpdateSymbolsDropdown(db, sector).Some?
    ensures var (options, value) := UpdateSymbolsDropdown(db, sector).value;
      forall t :: t in db.tickers && t.sector == sector ==> StrLe(value, t.symbol)
  {
    var (options, value) := UpdateSymbolsDropdown(db, sector).value;
    SortedHeadIsLeast(options);
  }
}

=== FILE: forecast_clip.dfy ===
/** Post-processing of the forecasting model's raw output
    (`DataStore.generate_forecast`): every field's raw predictions are
    clipped to a band around the previous price whose half-width is the
    mean of the last `Periods` absolute moves, the window sliding from
    historical moves into forecast moves; afterwards high and low are
    reconciled with open and close. Prices are reals, so the running sum
    of the source's loop is exact here. */
module ForecastClip {
  import opened Common

  /** Forecast horizon in business days, also the width of the window of
      moves that sets the clip margin. */
  const Periods: nat := 5

  /** Mean of a window of `Periods` moves (the literal keeps the division
      linear for the solver). */
  function Mean(w: seq<real>): real
    requires |w| == Periods
  {
    Sum(w) / 5.0
  }

  /** Absolute moves between consecutive values, `diff().abs()` without
      its leading NaN. */
  function Moves(h: seq<real>): (m: seq<real>)
    ensures |m| == if |h| == 0 then 0 else |h| - 1
    ensures forall k :: 0 <= k < |m| ==> m[k] == Abs(h[k + 1] - h[k])
    decreases |h|
  {
    if |h| < 2 then [] else [Abs(h[1] - h[0])] + Moves(h[1..])
  }

  /** The seed window `diff().abs().tail(Periods)` of a history. With at
      most `Periods` values the tail still holds the NaN `diff()` puts
      first, and the margins and every forecast become NaN: `None`. */
  function Seed(h: seq<real>): (w: Option<seq<real>>)
    ensures w.Some? <==> |h| > Periods
    ensures w.Some? ==> |w.value| == Periods
  {
    if |h| <= Periods then None else var m := Moves(h); Some(m[|m| - Periods..])
  }

  /** The seed holds the last `Periods` absolute moves, oldest first. */
  lemma SeedMoves(h: seq<real>)
    requires |h| > Periods
    ensures forall k :: 0 <= k < Periods ==>
      Seed(h).value[k] == Abs(h[|h| - Periods + k] - h[|h| - Periods + k - 1])
  {
    var m := Moves(h);
    assert forall k :: 0 <= k < Periods ==> Seed(h).value[k] == m[|h| - 1 - Periods + k];
  }

  /** numpy's `clip(x, lo, hi)`, i.e. `min(max(x, lo), hi)`. */
  function Clamp(x: real, lo: real, hi: real): (r: real)
    ensures lo <= hi ==> lo <= r <= hi
    ensures lo <= x <= hi ==> r == x
    ensures x < lo <= hi ==> r == lo
    ensures lo <= hi < x ==> r == hi
  {
    Min(Max(x, lo), hi)
  }

  /** Reference definition of the clip, one horizon at a time: the margin
      is the mean of the current window, the prediction is clipped into
      `[last - margin, last + margin]`, and the realised move replaces
      the oldest move of the window. */
  function Clip(window: seq<real>, last: real, raw: seq<real>): (out: seq<real>)
    requires |window| == Periods
    ensures |out| == |raw|
    decreases |raw|
  {
    if |raw| == 0 then []
    else
      var margin := Mean(window);
      var p := Clamp(raw[0], last - margin, last + margin);
      [p] + Clip(window[1..] + [Abs(p - last)], p, raw[1..])
  }

  /** The price each forecast `out[i]` is clipped around. */
  function Prev(last: real, out: seq<real>, i: nat): real
    requires i < |out|
  {
    if i == 0 then last else out[i - 1]
  }

  /** The realised moves of a forecast path starting at `last`. */
  function Steps(last: real, out: seq<real>): (m: seq<real>)
    ensures |m| == |out|
  {
    seq(|out|, i requires 0 <= i < |out| => Abs(out[i] - Prev(last, out, i)))
  }

  /** The margin in force at horizon `i`: the mean of the `Periods` moves
      before it, seed moves first, then the forecast's own moves. */
  function MarginAt(window: seq<real>, last: real, out: seq<real>, i: nat): real
    requires |window| == Periods && i < |out|
  {
    Mean((window + Steps(last, out))[i..i + Periods])
  }

  lemma StepsCons(last: real, p: real, rest: seq<real>)
    ensures Steps(last, [p] + rest) == [Abs(p - last)] + Steps(p, rest)
  {
    var out := [p] + rest;
    forall i | 1 <= i < |out|
      ensures Steps(last, out)[i] == Steps(p, rest)[i - 1]
    {
      assert Prev(last, out, i) == Prev(p, rest, i - 1);
    }
  }

  /** Dropping the oldest move and appending the newest shifts every later
      window by one position. */
  lemma WindowShift(window: seq<real>, d: real, rest: seq<real>, i: nat)
    requires |window| == Periods && 1 <= i && i - 1 + Periods <= |window[1..] + [d] + rest|
    ensures (window + ([d] + rest))[i..i + Periods] == (window[1..] + [d] + rest)[i - 1..i - 1 + Periods]
  {
    assert window + ([d] + rest) == [window[0]] + (window[1..] + [d] + rest);
  }

  /** Closed form of one horizon of the clip: the raw prediction clipped
      around the previous price by the mean of the `Periods` moves before
      it. */
  lemma {:induction false} ClipAt(window: seq<real>, last: real, raw: seq<real>, i: nat)
    requires |window| == Periods && i < |raw|
    ensures Clip(window, last, raw)[i] == Clamp(raw[i],
      Prev(last, Clip(window, last, raw), i) - MarginAt(window, last, Clip(window, last, raw), i),
      Prev(last, Clip(window, last, raw), i) + MarginAt(window, last, Clip(window, last, raw), i))
    decreases i
  {
    var out := Clip(window, last, raw);
    var p := out[0];
    var d := Abs(p - last);
    var w' := window[1..] + [d];
    var out' := Clip(w', p, raw[1..]);
    assert out == [p] + out';
    StepsCons(last, p, out');
    if i == 0 {
      assert (window + Steps(last, out))[0..Periods] == window;
    } else {
      ClipAt(w', p, raw[1..], i - 1);
      WindowShift(window, d, Steps(p, out'), i);
      assert w' + Steps(p, out') == window[1..] + [d] + Steps(p, out');
      assert MarginAt(window, last, out, i) == MarginAt(w', p, out', i - 1);
      assert Prev(last, out, i) == Prev(p, out', i - 1);
    }
  }

  /** The margin is the mean of non-negative moves, so it is never
      negative and the clip band is never empty. */
  lemma MarginNonNegative(window: seq<real>, last: real, out: seq<real>, i: nat)
    requires |window| == Periods && i < |out|
    requires forall k :: 0 <= k < Periods ==> window[k] >= 0.0
    ensures MarginAt(window, last, out, i) >= 0.0
  {
    var all := window + Steps(last, out);
    forall k | 0 <= k < |all|
      ensures all[k] >= 0.0
    {
      if k >= Periods {
        assert all[k] == Steps(last, out)[k - Periods];
      }
    }
    SumNonNegative(all[i..i + Periods]);
  }

  lemma ClampWithin(x: real, c: real, m: real)
    requires m >= 0.0
    ensures Abs(Clamp(x, c - m, c + m) - c) <= m
  {
  }

  /** Bounded drift at horizon `i`: with a non-negative seed window, the
      forecast moves from the previous price by at most the margin then in
      force, and that margin is non-negative. */
  lemma BoundedDrift(window: seq<real>, last: real, raw: seq<real>, i: nat)
    requires |window| == Periods && i < |raw|
    requires forall k :: 0 <= k < Periods ==> window[k] >= 0.0
    ensures MarginAt(window, last, Clip(window, last, raw), i) >= 0.0
    ensures Abs(Clip(window, last, raw)[i] - Prev(last, Clip(window, last, raw), i))
      <= MarginAt(window, last, Clip(window, last, raw), i)
  {
    var out := Clip(window, last, raw);
    ClipAt(window, last, raw, i);
    MarginNonNegative(window, last, out, i);
    ClampWithin(raw[i], Prev(last, out, i), MarginAt(window, last, out, i));
  }

  /** If every seed move is at most `b`, so is every forecast move: a new
      move is at most the window's mean, hence at most its maximum. */
  lemma {:induction false} DriftAtMostSeedBound(window: seq<real>, last: real, raw: seq<real>, b: real, i: nat)
    requires |window| == Periods && i < |raw|
    requires forall k :: 0 <= k < Periods ==> 0.0 <= window[k] <= b
    ensures Abs(Clip(window, last, raw)[i] - Prev(last, Clip(window, last, raw), i)) <= b
    decreases i
  {
    var out := Clip(window, last, raw);
    var margin := Mean(window);
    SumAtMost(window, b);
    SumNonNegative(window);
    var p := out[0];
    assert Abs(p - last) <= margin <= b;
    if i > 0 {
      var w' := window[1..] + [Abs(p - last)];
      var out' := Clip(w', p, raw[1..]);
      assert out == [p] + out';
      DriftAtMostSeedBound(w', p, raw[1..], b, i - 1);
      assert out[i] == out'[i - 1] && Prev(last, out, i) == Prev(p, out', i - 1);
    }
  }

  /** `n` copies of `b` added up. */
  function Scaled(n: nat, b: real): real
  {
    if n == 0 then 0.0 else Scaled(n - 1, b) + b
  }

  lemma {:induction false} ScaledIsProduct(n: nat, b: real)
    ensures Scaled(n, b) == (n as real) * b
  {
    if n > 0 {
      ScaledIsProduct(n - 1, b);
    }
  }

  /** A path whose every step moves at most `b` lies within `i + 1`
      times `b` of its start after `i + 1` steps. */
  lemma {:induction false} PathDrift(last: real, out: seq<real>, b: real, i: nat)
    requires i < |out|
    requires forall k :: 0 <= k <= i ==> Abs(out[k] - Prev(last, out, k)) <= b
    ensures Abs(out[i] - last) <= Scaled(i + 1, b)
    decreases i
  {
    assert Abs(out[i] - Prev(last, out, i)) <= b;
    if i > 0 {
      PathDrift(last, out, b, i - 1);
      assert Prev(last, out, i) == out[i - 1];
    }
  }

  /** Hence the distance from the last observed price grows at most
      linearly: horizon `i` lies within `(i + 1) * b` of it
      (`ScaledIsProduct`). */
  lemma CumulativeDrift(window: seq<real>, last: real, raw: seq<real>, b: real, i: nat)
    requires |window| == Periods && i < |raw|
    requires forall k :: 0 <= k < Periods ==> 0.0 <= window[k] <= b
    ensures Abs(Clip(window, last, raw)[i] - last) <= Scaled(i + 1, b)
  {
    var out := Clip(window, last, raw);
    forall k | 0 <= k <= i
      ensures Abs(out[k] - Prev(last, out, k)) <= b
    {
      DriftAtMostSeedBound(window, last, raw, b, k);
    }
    PathDrift(last, out, b, i);
  }

  /** A history whose last `Periods` moves are all zero yields a flat
      forecast: every horizon equals the last observed price. */
  lemma {:induction false} FlatSeedFlatForecast(window: seq<real>, last: real, raw: seq<real>, i: nat)
    requires |window| == Periods && i < |raw|
    requires forall k :: 0 <= k < Periods ==> window[k] == 0.0
    ensures Clip(window, last, raw)[i] == last
    decreases i
  {
    SumAtMost(window, 0.0);
    SumNonNegative(window);
    var w' := window[1..] + [0.0];
    assert Clip(window, last, raw) == [last] + Clip(w', last, raw[1..]);
    if i > 0 {
      FlatSeedFlatForecast(w', last, raw[1..], i - 1);
    }
  }

  /** Sliding the ring buffer by one: the next window drops the oldest
      move and appends the new one, and its sum changes accordingly. */
  lemma WindowSlide(ring: seq<real>, i: nat, v: real)
    requires i < Periods && |ring| == 2 * Periods
    ensures ring[i + Periods := v][i + 1..i + 1 + Periods] == ring[i..i + Periods][1..] + [v]
    ensures Sum(ring[i + Periods := v][i + 1..i + 1 + Periods]) == Sum(ring[i..i + Periods]) - ring[i] + v
  {
    var window := ring[i..i + Periods];
    assert ring[i + Periods := v][i + 1..i + 1 + Periods] == window[1..] + [v];
    assert window == [ring[i]] + window[1..];
    SumAppend(window[1..], [v]);
  }

  /** One step of `Clip`, named so that callers need not unfold it. */
  lemma ClipUnfold(window: seq<real>, last: real, raw: seq<real>)
    requires |window| == Periods && |raw| > 0
    ensures var p := Clamp(raw[0], last - Mean(window), last + Mean(window));
      Clip(window, last, raw) == [p] + Clip(window[1..] + [Abs(p - last)], p, raw[1..])
  {
  }

  /** One iteration of the loop below keeps its invariant: the prices
      produced so far followed by the clip of what remains are the whole
      clip. */
  lemma ClipStep(done: seq<real>, ring: seq<real>, i: nat, last: real, raw: seq<real>, whole: seq<real>,
                  price: real, ring': seq<real>, done': seq<real>)
    requires i < Periods && |ring| == 2 * Periods && |raw| == Periods
    requires done + Clip(ring[i..i + Periods], last, raw[i..]) == whole
    requires price == Clamp(raw[i], last - Mean(ring[i..i + Periods]), last + Mean(ring[i..i + Periods]))
    requires ring' == ring[i + Periods := Abs(price - last)] && done' == done + [price]
    ensures done' + Clip(ring'[i + 1..i + 1 + Periods], price, raw[i + 1..]) == whole
    ensures Sum(ring'[i + 1..i + 1 + Periods]) == Sum(ring[i..i + Periods]) - ring[i] + Abs(price - last)
  {
    var window := ring[i..i + Periods];
    WindowSlide(ring, i, Abs(price - last));
    ClipUnfold(window, last, raw[i..]);
    assert raw[i..][1..] == raw[i + 1..];
    var rest := Clip(window[1..] + [Abs(price - last)], price, raw[i + 1..]);
    assert (done + [price]) + rest == done + ([price] + rest);
  }

  /** The loop of the source: a ring of `2 * Periods` moves seeded by
      `np.resize` (the seed twice), and a running sum `s` updated by
      subtracting the move leaving the window and adding the one entering
      it. It computes the reference clip. */
  method ClipForecast(seed: seq<real>, last0: real, raw: seq<real>) returns (out: seq<real>)
    requires |seed| == Periods && |raw| == Periods
    ensures out == Clip(seed, last0, raw)
  {
    var ring := seed + seed;
    var s := Sum(seed);
    var last := last0;
    out := [];
    var i := 0;
    ghost var whole := Clip(seed, last0, raw);
    assert ring[0..Periods] == seed && raw[0..] == raw;
    while i < Periods
      invariant 0 <= i <= Periods && |ring| == 2 * Periods && |out| == i
      invariant s == Sum(ring[i..i + Periods])
      invariant out + Clip(ring[i..i + Periods], last, raw[i..]) == whole
    {
      var margin := s / 5.0;
      var price := Clamp(raw[i], last - margin, last + margin);
      var ring' := ring[i + Periods := Abs(price - last)];
      var out' := out + [price];
      ClipStep(out, ring, i, last, raw, whole, price, ring', out');
      s := s - ring[i] + Abs(price - last);
      ring, out, last, i := ring', out', price, i + 1;
    }
    assert out + [] == out;
  }

  /** One forecast bar after reconciliation. */
  datatype Ohlc = Ohlc(open: real, high: real, low: real, close: real)

  ghost predicate Consistent(b: Ohlc)
  {
    b.high >= b.open && b.high >= b.close && b.low <= b.open && b.low <= b.close && b.high >= b.low
  }

  /** `high = max(h, o, c, l)`, `low = min(l, o, c, h)`: open and close are
      kept, high and low are widened to contain them and each other. */
  function Reconcile(o: real, h: real, l: real, c: real): (r: Ohlc)
    ensures r.open == o && r.close == c
    ensures Consistent(r)
    ensures r.high >= h && r.high >= l && r.low <= l && r.low <= h
    ensures r.high in {h, o, c, l} && r.low in {l, o, c, h}
  {
    Ohlc(o, Max(Max(Max(h, o), c), l), Min(Min(Min(l, o), c), h), c)
  }

  /** Reconciliation changes nothing in a bar that is already consistent,
      so applying it twice is applying it once. */
  lemma ReconcileFixesConsistent(b: Ohlc)
    requires Consistent(b)
    ensures Reconcile(b.open, b.high, b.low, b.close) == b
  {
  }

  lemma ReconcileIdempotent(o: real, h: real, l: real, c: real)
    ensures var r := Reconcile(o, h, l, c);
      Reconcile(r.open, r.high, r.low, r.close) == r
  {
    ReconcileFixesConsistent(Reconcile(o, h, l, c));
  }
}

=== FILE: forecast_stepper.dfy ===
/** The forecast button of the price chart: each press appends to the
    chart's first series the stored forecast bar that follows its last
    bar, and reports whether the button should now be disabled because no
    further forecast bar exists. The code as written looks the next bar up
    from the day after the old last bar instead of the day after the bar
    it just appended, and it appends the bar with a time the next press
    cannot read; `StepAsWritten` models that, `StepCorrected` the evident
    intent. */
module ForecastStepper {
  import opened Common
  import opened Store
  import ForecastClip

  /** The time of a bar on the chart. The chart is loaded with
      `{day, month, year}` mappings, which the callback reads back; a bar
      the callback appends carries a `datetime` instead (a string once
      the chart hands it back), which that read cannot subscript. */
  datatype BarTime = DayParts(day: int) | Instant(day: int)

  /** A bar of the chart's first series: its UTC day and its prices. */
  datatype Candle = Candle(time: BarTime, ohlc: ForecastClip.Ohlc)

  /** What a press yields: the series kept and the button re-enabled
      (another input fired, `(no_update, False)`), the extended series
      with the button's new state, or a failure that leaves the chart as
      it was: an empty series, a last bar whose time is not a
      `{day, month, year}` mapping (TypeError), or no forecast bar to
      append, where the callback returns nothing. */
  datatype Reply = Untouched | Extended(series: seq<Candle>, disabled: bool) | Errored

  /** The bar a forecast row becomes as written: its time a `datetime`. */
  function CandleOf(f: ForecastRow): Candle
  {
    Candle(Instant(DayOf(f.time)), f.ohlc)
  }

  /** The bar a forecast row becomes when its time is written in the form
      the callback reads back. */
  function CandleAsParts(f: ForecastRow): Candle
  {
    Candle(DayParts(DayOf(f.time)), f.ohlc)
  }

  /** Two bars of the same day with the same prices, whatever the form of
      their time. */
  predicate SameBar(a: Candle, b: Candle)
  {
    a.time.day == b.time.day && a.ohlc == b.ohlc
  }

  /** The press as written: the last bar's time must be a mapping, the
      appended bar's time is a `datetime`, and the next bar is looked up
      from two days after the series' old last day. */
  function StepAsWritten(triggered: bool, series: seq<Candle>, sym: Symbol, rows: seq<ForecastRow>): (r: Reply)
    ensures !triggered ==> r == Untouched
    ensures triggered && |series| == 0 ==> r == Errored
    ensures triggered && |series| > 0 && series[|series| - 1].time.Instant? ==> r == Errored
    ensures r.Extended? ==> |series| > 0 && |r.series| == |series| + 1 && r.series[..|series|] == series
    ensures r.Extended? ==> r.series[|series|].time.Instant?
    ensures r.Extended? ==> exists f :: (f in rows && f.symbol == sym && r.series[|series|] == CandleOf(f)
      && f.time >= Midnight(series[|series| - 1].time.day + 1))
  {
    if !triggered then Untouched
    else if |series| == 0 then Errored
    else if series[|series| - 1].time.Instant? then Errored
    else
      var last := series[|series| - 1].time.day;
      match GetForecast(rows, sym, Midnight(last + 1))
      case None => Errored
      case Some(f) =>
        assert (series + [CandleOf(f)])[..|series|] == series;
        Extended(series + [CandleOf(f)], GetForecast(rows, sym, Midnight(last + 2)).None?)
  }

  /** The press as intended: the appended bar's time is written as a
      `{day, month, year}` mapping, and the next bar is looked up from the
      day after the bar just appended, so the button is disabled exactly
      when no forecast follows the new last bar. */
  function StepCorrected(triggered: bool, series: seq<Candle>, sym: Symbol, rows: seq<ForecastRow>): (r: Reply)
    ensures !triggered ==> r == Untouched
    ensures triggered && |series| == 0 ==> r == Errored
    ensures triggered && |series| > 0 && series[|series| - 1].time.Instant? ==> r == Errored
    ensures r.Extended? ==> |series| > 0 && |r.series| == |series| + 1 && r.series[..|series|] == series
    ensures r.Extended? ==> r.series[|series|].time.DayParts?
    ensures r.Extended? ==> (r.disabled <==> forall f :: f in rows && f.symbol == sym ==>
      f.time < Midnight(r.series[|series|].time.day + 1))
  {
    if !triggered then Untouched
    else if |series| == 0 then Errored
    else if series[|series| - 1].time.Instant? then Errored
    else
      var last := series[|series| - 1].time.day;
      match GetForecast(rows, sym, Midnight(last + 1))
      case None => Errored
      case Some(f) =>
        assert (series + [CandleAsParts(f)])[..|series|] == series;
        Extended(series + [CandleAsParts(f)], GetForecast(rows, sym, Midnight(DayOf(f.time) + 1)).None?)
  }

  /** Both versions append the same bar, up to the form of its time: the
      symbol's earliest forecast after the series' last day, so bars are
      appended in date order and none is skipped. */
  lemma AppendsEarliestLater(triggered: bool, series: seq<Candle>, sym: Symbol, rows: seq<ForecastRow>)
    requires StepCorrected(triggered, series, sym, rows).Extended?
    ensures StepAsWritten(triggered, series, sym, rows).Extended?
    ensures var a := StepAsWritten(triggered, series, sym, rows).series;
      var c := StepCorrected(triggered, series, sym, rows).series;
      a[..|series|] == c[..|series|] && SameBar(a[|series|], c[|series|])
    ensures var s := StepCorrected(triggered, series, sym, rows).series;
      var last := series[|series| - 1].time.day;
      && s[|series|].time.day > last
      && forall f :: f in rows && f.symbol == sym && f.time >= Midnight(last + 1) ==>
           s[|series|].time.day <= DayOf(f.time)
  {
    var last := series[|series| - 1].time.day;
    var g := GetForecast(rows, sym, Midnight(last + 1)).value;
    forall f | f in rows && f.symbol == sym && f.time >= Midnight(last + 1)
      ensures DayOf(g.time) <= DayOf(f.time)
    {
      DayOfMonotone(g.time, f.time);
    }
    DayOfMonotone(Midnight(last + 1), g.time);
  }

  lemma DayOfMonotone(a: int, b: int)
    requires a <= b
    ensures DayOf(a) <= DayOf(b)
  {
  }

  /** When the appended bar falls on the day right after the old last bar
      the two versions agree on the button and on every bar, up to the
      form of the appended bar's time. */
  lemma AgreeOnConsecutiveDays(series: seq<Candle>, sym: Symbol, rows: seq<ForecastRow>)
    requires StepCorrected(true, series, sym, rows).Extended?
    requires var s := StepCorrected(true, series, sym, rows).series;
      s[|series|].time.day == series[|series| - 1].time.day + 1
    ensures var a := StepAsWritten(true, series, sym, rows);
      var c := StepCorrected(true, series, sym, rows);
      && a.Extended? && a.disabled == c.disabled
      && a.series[..|series|] == c.series[..|series|] && SameBar(a.series[|series|], c.series[|series|])
  {
  }

  /** With both corrections an enabled button always has a bar to add: a
      press that leaves the button enabled is followed by a press that
      extends the series again. This needs the appended bar's time in the
      form the next press reads. */
  lemma CorrectedNextPressExtends(series: seq<Candle>, sym: Symbol, rows: seq<ForecastRow>)
    requires StepCorrected(true, series, sym, rows) .Extended?
    requires !StepCorrected(true, series, sym, rows).disabled
    ensures StepCorrected(true, StepCorrected(true, series, sym, rows).series, sym, rows).Extended?
  {
    var s := StepCorrected(true, series, sym, rows).series;
    assert s[|s| - 1] == s[|series|];
  }

  /** As written, no press after an extension succeeds: the appended bar's
      time cannot be read back, whether or not another forecast exists. */
  lemma AsWrittenPressAfterExtensionFails(series: seq<Candle>, sym: Symbol, rows: seq<ForecastRow>)
    requires StepAsWritten(true, series, sym, rows).Extended?
    ensures StepAsWritten(true, StepAsWritten(true, series, sym, rows).series, sym, rows) == Errored
  {
    var s := StepAsWritten(true, series, sym, rows).series;
    assert s[|s| - 1] == s[|series|];
  }

  const Flat: ForecastClip.Ohlc := ForecastClip.Ohlc(1.0, 1.0, 1.0, 1.0)

  /** As written, the button stays enabled over a weekend gap: the series
      ends on day 1 (a Friday), the one forecast bar is dated day 4 (the
      Monday). The first press appends it but looks for a further bar
      from day 3, finds the Monday bar again and leaves the button
      enabled; the corrected press disables it. */
  lemma AsWrittenStaysEnabledPastLastBar()
    ensures var series := [Candle(DayParts(1), Flat)];
      var rows := [ForecastRow("AAPL", Midnight(4), Flat)];
      && StepAsWritten(true, series, "AAPL", rows) == Extended(series + [Candle(Instant(4), Flat)], false)
      && StepCorrected(true, series, "AAPL", rows) == Extended(series + [Candle(DayParts(4), Flat)], true)
  {
    var rows := [ForecastRow("AAPL", Midnight(4), Flat)];
    assert GetForecast(rows, "AAPL", Midnight(2)) == Some(rows[0]);
    assert GetForecast(rows, "AAPL", Midnight(3)) == Some(rows[0]);
    assert GetForecast(rows, "AAPL", Midnight(5)).None?;
  }

  /** As written, the second press fails although a forecast remains: the
      series ends on day 1 and the symbol has forecasts on days 2 and 3.
      The first press appends day 2 and leaves the button enabled; the
      second cannot read day 2 back. The corrected presses append day 2,
      then day 3, and disable the button. */
  lemma AsWrittenSecondPressFails()
    ensures var series := [Candle(DayParts(1), Flat)];
      var rows := [ForecastRow("AAPL", Midnight(2), Flat), ForecastRow("AAPL", Midnight(3), Flat)];
      var first := StepAsWritten(true, series, "AAPL", rows);
      var fixed := StepCorrected(true, series, "AAPL", rows);
      && first == Extended(series + [Candle(Instant(2), Flat)], false)
      && StepAsWritten(true, first.series, "AAPL", rows) == Errored
      && fixed == Extended(series + [Candle(DayParts(2), Flat)], false)
      && StepCorrected(true, fixed.series, "AAPL", rows)
         == Extended(series + [Candle(DayParts(2), Flat), Candle(DayParts(3), Flat)], true)
  {
    var rows := [ForecastRow("AAPL", Midnight(2), Flat), ForecastRow("AAPL", Midnight(3), Flat)];
    assert GetForecast(rows, "AAPL", Midnight(2)) == Some(rows[0]);
    assert GetForecast(rows, "AAPL", Midnight(3)) == Some(rows[1]);
    assert GetForecast(rows, "AAPL", Midnight(4)).None?;
  }
}

=== FILE: intra_sector.dfy ===
/** The intra-sector table: for the selected sector, a 90-day window of
    closes ending at the earliest of the members' latest dates, the
    pairwise correlations over that window and each member's last close
    in it; for the selected symbol, the other members with their price
    and their correlation to it, strongest correlation first. */
module IntraSector {
  import opened Common
  import opened Store
  import opened DataStore
  import opened Sorting

  /** Length of the correlation window in days. */
  const WindowDays: int := 90

  /** The snapshot rows of the sector, in order. */
  function SectorRows(snap: seq<SnapRow>, sector: string): (r: seq<SnapRow>)
    ensures forall x :: x in r <==> x in snap && x.sector == sector
    decreases |snap|
  {
    if |snap| == 0 then []
    else
      var rest := SectorRows(snap[1..], sector);
      assert forall x :: x in snap <==> x == snap[0] || x in snap[1..];
      if snap[0].sector == sector then [snap[0]] + rest else rest
  }

  /** The latest day among the symbol's rows. */
  function LatestDay(rows: seq<SnapRow>, sym: Symbol): Option<int>
    decreases |rows|
  {
    if |rows| == 0 then None
    else MaxOpt(if rows[0].symbol == sym then Some(rows[0].day) else None, LatestDay(rows[1..], sym))
  }

  function MaxOpt(a: Option<int>, b: Option<int>): Option<int>
  {
    if a.None? then b else if b.None? then a else Some(if a.value >= b.value then a.value else b.value)
  }

  function MinOpt(a: Option<int>, b: Option<int>): Option<int>
  {
    if a.None? then b else if b.None? then a else Some(if a.value <= b.value then a.value else b.value)
  }

  /** A symbol has a latest day exactly when it has rows; that day is the
      day of one of them, and no row of the symbol is later. */
  lemma {:induction false} LatestDayMeaning(rows: seq<SnapRow>, sym: Symbol)
    ensures LatestDay(rows, sym).None? <==> forall i :: 0 <= i < |rows| ==> rows[i].symbol != sym
    ensures LatestDay(rows, sym).Some? ==>
      var d := LatestDay(rows, sym).value;
      && (exists i :: 0 <= i < |rows| && rows[i].symbol == sym && rows[i].day == d)
      && forall i :: 0 <= i < |rows| && rows[i].symbol == sym ==> rows[i].day <= d
    decreases |rows|
  {
    if |rows| > 0 {
      var tail := rows[1..];
      assert forall i :: 1 <= i < |rows| ==> tail[i - 1] == rows[i];
      LatestDayMeaning(tail, sym);
      if LatestDay(tail, sym).Some? {
        var u := LatestDay(tail, sym).value;
        var j :| 0 <= j < |tail| && tail[j].symbol == sym && tail[j].day == u;
        assert rows[j + 1] == tail[j];
      }
    }
  }

  /** The smallest latest day over the symbols of the probed rows. */
  function EarliestLatest(rows: seq<SnapRow>, probe: seq<SnapRow>): Option<int>
    decreases |probe|
  {
    if |probe| == 0 then None
    else MinOpt(LatestDay(rows, probe[0].symbol), EarliestLatest(rows, probe[1..]))
  }

  /** Over probes whose symbols all have rows, the result is the least of
      their latest days, and it is one of them. */
  lemma {:induction false} EarliestLatestMeaning(rows: seq<SnapRow>, probe: seq<SnapRow>)
    requires forall i :: 0 <= i < |probe| ==> LatestDay(rows, probe[i].symbol).Some?
    ensures EarliestLatest(rows, probe).Some? <==> |probe| > 0
    ensures EarliestLatest(rows, probe).Some? ==>
      var e := EarliestLatest(rows, probe).value;
      && (exists i :: 0 <= i < |probe| && LatestDay(rows, probe[i].symbol) == Some(e))
      && forall i :: 0 <= i < |probe| ==> e <= LatestDay(rows, probe[i].symbol).value
    decreases |probe|
  {
    if |probe| > 0 {
      var tail := probe[1..];
      assert forall i :: 1 <= i < |probe| ==> tail[i - 1] == probe[i];
      EarliestLatestMeaning(rows, tail);
      if EarliestLatest(rows, tail).Some? {
        var e := EarliestLatest(rows, tail).value;
        var j :| 0 <= j < |tail| && LatestDay(rows, tail[j].symbol) == Some(e);
        assert probe[j + 1] == tail[j];
      }
    }
  }

  /** `groupby("symbol").date.max().min()`: the end of the window; an
      empty sector has none (NaT). */
  function EndDay(rows: seq<SnapRow>): Option<int>
  {
    EarliestLatest(rows, rows)
  }

  /** The window has an end exactly when the sector has rows. */
  lemma EndDayDefined(rows: seq<SnapRow>)
    ensures EndDay(rows).Some? <==> |rows| > 0
    ensures EndDay(rows).Some? ==> exists k :: 0 <= k < |rows| && LatestDay(rows, rows[k].symbol) == EndDay(rows)
    ensures EndDay(rows).Some? ==> forall i :: 0 <= i < |rows| ==>
      LatestDay(rows, rows[i].symbol).Some? && EndDay(rows).value <= LatestDay(rows, rows[i].symbol).value
  {
    forall i | 0 <= i < |rows|
      ensures LatestDay(rows, rows[i].symbol).Some?
    {
      LatestDayMeaning(rows, rows[i].symbol);
    }
    EarliestLatestMeaning(rows, rows);
  }

  /** No member's rows stop before the end of the window. */
  lemma EndDayReachedByAll(rows: seq<SnapRow>, i: nat)
    requires i < |rows|
    ensures EndDay(rows).Some?
    ensures exists j :: 0 <= j < |rows| && rows[j].symbol == rows[i].symbol && EndDay(rows).value <= rows[j].day
  {
    EndDayDefined(rows);
    LatestDayMeaning(rows, rows[i].symbol);
  }

  /** The end of the window is the latest day of some member. */
  lemma EndDayIsSomeLatest(rows: seq<SnapRow>)
    requires |rows| > 0
    ensures EndDay(rows).Some?
    ensures exists m :: (0 <= m < |rows| && rows[m].day == EndDay(rows).value
      && forall j :: 0 <= j < |rows| && rows[j].symbol == rows[m].symbol ==> rows[j].day <= EndDay(rows).value)
  {
    EndDayDefined(rows);
    var e := EndDay(rows).value;
    var k :| 0 <= k < |rows| && LatestDay(rows, rows[k].symbol) == Some(e);
    LatestDayMeaning(rows, rows[k].symbol);
    var m :| 0 <= m < |rows| && rows[m].symbol == rows[k].symbol && rows[m].day == e;
    assert forall j :: 0 <= j < |rows| && rows[j].symbol == rows[m].symbol ==> rows[j].day <= e;
  }

  /** The rows dated within the 90 days up to `end`, both ends included. */
  function InWindow(rows: seq<SnapRow>, end: int): (r: seq<SnapRow>)
    ensures forall x :: x in r <==> x in rows && end - WindowDays <= x.day <= end
    decreases |rows|
  {
    if |rows| == 0 then []
    else
      var rest := InWindow(rows[1..], end);
      assert forall x :: x in rows <==> x == rows[0] || x in rows[1..];
      if end - WindowDays <= rows[0].day <= end then [rows[0]] + rest else rest
  }

  /** The sector's rows inside its correlation window. */
  function SectorWindow(snap: seq<SnapRow>, sector: string): (w: seq<SnapRow>)
    ensures forall x :: x in w ==> x in snap && x.sector == sector
    ensures var end := EndDay(SectorRows(snap, sector));
      forall x :: x in w <==> (x in snap && x.sector == sector && end.Some?
                               && end.value - WindowDays <= x.day <= end.value)
  {
    var rows := SectorRows(snap, sector);
    match EndDay(rows)
    case None => []
    case Some(e) => InWindow(rows, e)
  }

  /** The close of the symbol's last row, in order (`groupby.last`). */
  function LastClose(rows: seq<SnapRow>, sym: Symbol): (c: Option<real>)
    ensures c.None? <==> forall i :: 0 <= i < |rows| ==> rows[i].symbol != sym
    decreases |rows|
  {
    if |rows| == 0 then None
    else if rows[|rows| - 1].symbol == sym then Some(rows[|rows| - 1].close)
    else
      assert forall i :: 0 <= i < |rows| - 1 ==> rows[..|rows| - 1][i] == rows[i];
      LastClose(rows[..|rows| - 1], sym)
  }

  /** The close found is that of the symbol's last row. */
  lemma {:induction false} LastCloseMeaning(rows: seq<SnapRow>, sym: Symbol)
    requires LastClose(rows, sym).Some?
    ensures exists i :: (0 <= i < |rows| && rows[i].symbol == sym && rows[i].close == LastClose(rows, sym).value
      && forall j :: i < j < |rows| ==> rows[j].symbol != sym)
    decreases |rows|
  {
    if rows[|rows| - 1].symbol != sym {
      var front := rows[..|rows| - 1];
      LastCloseMeaning(front, sym);
      var i :| 0 <= i < |front| && front[i].symbol == sym && front[i].close == LastClose(front, sym).value
        && forall j :: i < j < |front| ==> front[j].symbol != sym;
      assert rows[i] == front[i];
      assert forall j :: i < j < |rows| ==> rows[j].symbol != sym by {
        forall j | i < j < |rows|
          ensures rows[j].symbol != sym
        {
          if j < |front| { assert rows[j] == front[j]; }
        }
      }
    }
  }

  function PriceSymbols(prices: seq<(Symbol, real)>): (s: seq<Symbol>)
    ensures |s| == |prices|
    ensures forall i :: 0 <= i < |prices| ==> s[i] == prices[i].0
  {
    seq(|prices|, i requires 0 <= i < |prices| => prices[i].0)
  }

  /** The last close of each listed symbol. */
  function PricesOf(window: seq<SnapRow>, syms: seq<Symbol>): (p: seq<(Symbol, real)>)
    requires forall s :: s in syms ==> LastClose(window, s).Some?
    ensures PriceSymbols(p) == syms
    ensures forall k :: 0 <= k < |p| ==> Some(p[k].1) == LastClose(window, p[k].0)
  {
    seq(|syms|, i requires 0 <= i < |syms| => (syms[i], LastClose(window, syms[i]).value))
  }

  /** What the first callback hands to the second: the correlation matrix
      (`None` where the correlation is undefined) and the prices. */
  datatype SectorData = SectorData(corr: map<Symbol, map<Symbol, Option<real>>>, prices: seq<(Symbol, real)>)

  /** The symbols of the window, ascending as `groupby` and `pivot` order
      them. */
  function WindowSymbols(window: seq<SnapRow>): (s: seq<Symbol>)
    ensures StrSorted(s) && NoDuplicates(s)
    ensures forall x :: x in s <==> exists r :: r in window && r.symbol == x
  {
    var d := SnapshotSymbols(window);
    var s := SortStrings(d);
    NoDuplicatesPermutation(d, s);
    assert forall x :: x in s <==> x in d by {
      forall x
        ensures x in s <==> x in d
      {
        assert x in s <==> x in multiset(s);
        assert x in d <==> x in multiset(d);
      }
    }
    assert forall x :: x in d <==> exists r :: r in window && r.symbol == x by {
      forall x
        ensures x in d <==> exists r :: r in window && r.symbol == x
      {
        if exists r :: r in window && r.symbol == x {
          var r :| r in window && r.symbol == x;
          var k :| 0 <= k < |window| && window[k] == r;
          assert SymbolColumn(window)[k] == x;
        }
      }
    }
    s
  }

  /** The correlation matrix over `syms`. */
  function CorrMatrix(window: seq<SnapRow>, syms: seq<Symbol>,
                      correlate: (seq<SnapRow>, Symbol, Symbol) -> Option<real>): (m: map<Symbol, map<Symbol, Option<real>>>)
    ensures forall a :: a in m <==> a in syms
    ensures forall a :: a in m ==> forall b :: b in m[a] <==> b in syms
    ensures forall a, b :: a in m && b in m[a] ==> m[a][b] == correlate(window, a, b)
  {
    map a | a in syms :: map b | b in syms :: correlate(window, a, b)
  }

  /** `calculate_table_data`. The correlation of two closing-price series
      is computed by `correlate`, which stands for pandas' `corr`. */
  function CalculateTableData(snap: seq<SnapRow>, sector: string,
                              correlate: (seq<SnapRow>, Symbol, Symbol) -> Option<real>): (d: SectorData)
    ensures PriceSymbols(d.prices) == WindowSymbols(SectorWindow(snap, sector))
    ensures forall k :: 0 <= k < |d.prices| ==> Some(d.prices[k].1) == LastClose(SectorWindow(snap, sector), d.prices[k].0)
    ensures d.corr == CorrMatrix(SectorWindow(snap, sector), PriceSymbols(d.prices), correlate)
  {
    var window := SectorWindow(snap, sector);
    var syms := WindowSymbols(window);
    assert forall s :: s in syms ==> LastClose(window, s).Some? by {
      forall s | s in syms
        ensures LastClose(window, s).Some?
      {
        var r :| r in window && r.symbol == s;
        var k :| 0 <= k < |window| && window[k] == r;
      }
    }
    SectorData(CorrMatrix(window, syms, correlate), PricesOf(window, syms))
  }

  /** One row of the displayed table. */
  datatype TableRow = TableRow(symbol: Symbol, price: real, corr: Option<real>)

  /** `sort_values(key=abs, ascending=False)`: NaN sorts after every
      number. */
  function CorrKey(t: TableRow): real
  {
    match t.corr
    case None => -1.0
    case Some(c) => Abs(c)
  }

  /** The correlation joined to a symbol's price, NaN when absent. */
  function CorrIn(col: map<Symbol, Option<real>>, s: Symbol): Option<real>
  {
    if s in col then col[s] else None
  }

  /** The table row a price entry becomes once joined with the column. */
  function RowOf(entry: (Symbol, real), col: map<Symbol, Option<real>>): TableRow
  {
    TableRow(entry.0, entry.1, CorrIn(col, entry.0))
  }

  /** `t` is the joined row of some price entry other than the selected
      symbol's. */
  ghost predicate JoinedFrom(prices: seq<(Symbol, real)>, symbol: Symbol, col: map<Symbol, Option<real>>, t: TableRow)
  {
    exists k :: 0 <= k < |prices| && prices[k].0 != symbol && t == RowOf(prices[k], col)
  }

  lemma JoinedFromCons(prices: seq<(Symbol, real)>, symbol: Symbol, col: map<Symbol, Option<real>>, t: TableRow)
    requires |prices| > 0
    ensures JoinedFrom(prices, symbol, col, t) <==>
      (prices[0].0 != symbol && t == RowOf(prices[0], col)) || JoinedFrom(prices[1..], symbol, col, t)
  {
    if JoinedFrom(prices, symbol, col, t) {
      var k :| 0 <= k < |prices| && prices[k].0 != symbol && t == RowOf(prices[k], col);
      if k > 0 { assert prices[1..][k - 1] == prices[k]; }
    }
    if JoinedFrom(prices[1..], symbol, col, t) {
      var k :| 0 <= k < |prices[1..]| && prices[1..][k].0 != symbol && t == RowOf(prices[1..][k], col);
      assert prices[k + 1] == prices[1..][k];
    }
  }

  /** `filt_prices.join(filt_corr)`: the prices without the selected
      symbol, each with its correlation, in price order. */
  function JoinPrices(prices: seq<(Symbol, real)>, symbol: Symbol, col: map<Symbol, Option<real>>): (r: seq<TableRow>)
    ensures forall t :: t in r <==> JoinedFrom(prices, symbol, col, t)
    ensures |r| == |prices| - multiset(PriceSymbols(prices))[symbol]
    decreases |prices|
  {
    if |prices| == 0 then []
    else
      var rest := JoinPrices(prices[1..], symbol, col);
      assert PriceSymbols(prices) == [prices[0].0] + PriceSymbols(prices[1..]);
      assert forall t :: JoinedFrom(prices, symbol, col, t) <==>
        (prices[0].0 != symbol && t == RowOf(prices[0], col)) || t in rest by {
        forall t
          ensures JoinedFrom(prices, symbol, col, t) <==>
            (prices[0].0 != symbol && t == RowOf(prices[0], col)) || t in rest
        {
          JoinedFromCons(prices, symbol, col, t);
        }
      }
      if prices[0].0 == symbol then rest
      else [RowOf(prices[0], col)] + rest
  }

  /** `update_intra_sector_table`: `None` for the KeyError raised when the
      symbol has no correlation column, is missing from that column, or
      has no price; otherwise the joined rows by descending absolute
      correlation. */
  function UpdateIntraSectorTable(symbol: Symbol, d: SectorData): (r: Option<seq<TableRow>>)
    ensures r.None? <==> symbol !in d.corr || symbol !in d.corr[symbol] || symbol !in PriceSymbols(d.prices)
    ensures r.Some? ==> SortedDesc(r.value, CorrKey)
    ensures r.Some? ==> multiset(r.value) == multiset(JoinPrices(d.prices, symbol, d.corr[symbol]))
  {
    if symbol !in d.corr || symbol !in d.corr[symbol] || symbol !in PriceSymbols(d.prices) then None
    else Some(SortByKeyDesc(JoinPrices(d.prices, symbol, d.corr[symbol]), CorrKey))
  }

  /** For data whose matrix covers exactly the priced symbols, the table
      of a priced symbol lists every other priced symbol once, with its
      price and its correlation to the selected symbol. */
  lemma TableFromData(symbol: Symbol, d: SectorData, window: seq<SnapRow>,
                      correlate: (seq<SnapRow>, Symbol, Symbol) -> Option<real>)
    requires NoDuplicates(PriceSymbols(d.prices))
    requires forall a :: a in d.corr <==> a in PriceSymbols(d.prices)
    requires forall a :: a in d.corr ==> forall b :: b in d.corr[a] <==> b in PriceSymbols(d.prices)
    requires forall a, b :: a in d.corr && b in d.corr[a] ==> d.corr[a][b] == correlate(window, a, b)
    ensures var r := UpdateIntraSectorTable(symbol, d);
      && (r.Some? <==> symbol in PriceSymbols(d.prices))
      && (r.Some? ==> |r.value| == |d.prices| - 1)
      && (r.Some? ==> forall t :: t in r.value ==>
            t.symbol != symbol && t.corr == correlate(window, symbol, t.symbol)
            && exists k :: 0 <= k < |d.prices| && d.prices[k] == (t.symbol, t.price))
  {
    var r := UpdateIntraSectorTable(symbol, d);
    if r.Some? {
      var col := d.corr[symbol];
      var rows := JoinPrices(d.prices, symbol, col);
      CountAtMostOne(PriceSymbols(d.prices));
      assert symbol in multiset(PriceSymbols(d.prices));
      forall t | t in r.value
        ensures t.symbol != symbol && t.corr == correlate(window, symbol, t.symbol)
          && exists k :: 0 <= k < |d.prices| && d.prices[k] == (t.symbol, t.price)
      {
        assert t in multiset(rows);
        assert t in rows;
        var k :| 0 <= k < |d.prices| && d.prices[k].0 != symbol
          && t == TableRow(d.prices[k].0, d.prices[k].1, CorrIn(col, d.prices[k].0));
        assert PriceSymbols(d.prices)[k] == t.symbol;
        assert t.symbol in col;
        assert d.prices[k] == (t.symbol, t.price);
      }
      assert |r.value| == |multiset(r.value)| == |multiset(rows)|;
    }
  }

  /** The table of a member of the sector lists every other member once,
      with its last close in the window and its correlation to the
      selected symbol; a symbol with no row in the window has no table. */
  lemma TableOfMember(snap: seq<SnapRow>, sector: string,
                      correlate: (seq<SnapRow>, Symbol, Symbol) -> Option<real>, symbol: Symbol)
    ensures var window := SectorWindow(snap, sector);
      var d := CalculateTableData(snap, sector, correlate);
      var r := UpdateIntraSectorTable(symbol, d);
      && (r.Some? <==> exists x :: x in window && x.symbol == symbol)
      && (r.Some? ==> |r.value| == |d.prices| - 1)
      && (r.Some? ==> forall t :: t in r.value ==>
            t.symbol != symbol && t.corr == correlate(window, symbol, t.symbol)
            && Some(t.price) == LastClose(window, t.symbol))
  {
    var window := SectorWindow(snap, sector);
    var d := CalculateTableData(snap, sector, correlate);
    var syms := PriceSymbols(d.prices);
    assert d.corr == CorrMatrix(window, syms, correlate);
    TableFromData(symbol, d, window, correlate);
    var r := UpdateIntraSectorTable(symbol, d);
    if r.Some? {
      forall t | t in r.value
        ensures Some(t.price) == LastClose(window, t.symbol)
      {
        var k :| 0 <= k < |d.prices| && d.prices[k] == (t.symbol, t.price);
      }
    }
  }
}

=== FILE: price_card.dfy ===
/** The price card: the selected symbol's latest close, its change
    against the close before it, coloured by direction, with the name,
    currency, exchange and sector read from the earlier of the two rows. */
module PriceCard {
  import opened Common
  import opened Store
  import opened DataStore

  datatype Card = Card(symbol: Symbol, name: string, price: real, currency: string,
                       change: Option<real>, up: bool, color: string,
                       exchange: string, sector: string)

  /** `current / previous - 1`; a zero previous close yields an infinite
      or undefined float, modelled as `None`. */
  function Change(cur: real, prev: real): Option<real>
  {
    if prev == 0.0 then None else Some(cur / prev - 1.0)
  }

  /** `change > 0` as floating point evaluates it: after a zero previous
      close the quotient is +inf for a positive price and -inf or NaN
      otherwise. */
  predicate Rose(cur: real, prev: real)
  {
    if prev == 0.0 then cur > 0.0 else cur / prev - 1.0 > 0.0
  }

  /** `update_symbol_data`: the last two snapshot rows of the symbol; with
      fewer than two the positional lookups fail (`None`). */
  function UpdateSymbolData(snap: seq<SnapRow>, symbol: Symbol): (r: Option<Card>)
    ensures r.None? <==> |History(snap, symbol)| < 2
    ensures r.Some? ==> r.value.symbol == symbol
    ensures r.Some? ==> (r.value.color == "green" <==> r.value.up)
    ensures r.Some? ==> (r.value.color == "green" || r.value.color == "red")
    ensures r.Some? ==>
      var h := History(snap, symbol);
      var prev := h[|h| - 2];
      && r.value.price == h[|h| - 1].close
      && r.value.name == prev.name && r.value.currency == prev.currency
      && r.value.exchange == prev.exchange && r.value.sector == prev.sector
      && (r.value.change.None? <==> prev.close == 0.0)
      && (r.value.change.Some? ==> r.value.change.value * prev.close == r.value.price - prev.close)
      && (r.value.up <==> if r.value.change.Some? then r.value.change.value > 0.0 else r.value.price > 0.0)
  {
    var h := History(snap, symbol);
    if |h| < 2 then None
    else
      var prev := h[|h| - 2];
      var cur := h[|h| - 1];
      var up := Rose(cur.close, prev.close);
      assert prev.close != 0.0 ==> (cur.close / prev.close) * prev.close == cur.close;
      Some(Card(symbol, prev.name, cur.close, prev.currency, Change(cur.close, prev.close), up,
                if up then "green" else "red", prev.exchange, prev.sector))
  }

  /** The card rises exactly when the price moved away from zero past the
      previous close: up against a positive close, down against a
      negative one, or above zero after a zero close. */
  lemma RoseMeaning(cur: real, prev: real)
    ensures Rose(cur, prev) <==> (prev > 0.0 && cur > prev) || (prev < 0.0 && cur < prev) || (prev == 0.0 && cur > 0.0)
  {
    if prev != 0.0 {
      var d := cur / prev - 1.0;
      assert d * prev == cur - prev;
      assert Rose(cur, prev) <==> d > 0.0;
      SignOfProduct(d, prev);
    }
  }

  lemma SignOfProduct(d: real, p: real)
    requires p != 0.0
    ensures d > 0.0 <==> (p > 0.0 && d * p > 0.0) || (p < 0.0 && d * p < 0.0)
  {
  }

  /** The defined change is the relative move of the price. */
  lemma ChangeMeaning(cur: real, prev: real)
    requires prev != 0.0
    ensures Change(cur, prev).Some?
    ensures Change(cur, prev).value * prev == cur - prev
  {
    assert (cur / prev) * prev == cur;
  }

  /** Rows of other symbols never affect the card. */
  lemma OtherRowsIgnored(snap: seq<SnapRow>, x: SnapRow, symbol: Symbol)
    requires x.symbol != symbol
    ensures UpdateSymbolData(snap + [x], symbol) == UpdateSymbolData(snap, symbol)
  {
    HistoryAppend(snap, x, symbol);
  }

  /** The symbol's last two rows decide the card, wherever they sit: the
      price from the later one, the descriptive fields from the earlier
      one, whatever rows of other symbols lie between and after them. */
  lemma LatestPairDecides(pre: seq<SnapRow>, a: SnapRow, mid: seq<SnapRow>, b: SnapRow,
                          post: seq<SnapRow>, symbol: Symbol)
    requires a.symbol == symbol && b.symbol == symbol
    requires forall i :: 0 <= i < |mid| ==> mid[i].symbol != symbol
    requires forall i :: 0 <= i < |post| ==> post[i].symbol != symbol
    ensures var r := UpdateSymbolData(pre + [a] + mid + [b] + post, symbol);
      && r.Some?
      && r.value.price == b.close && r.value.change == Change(b.close, a.close)
      && r.value.name == a.name && r.value.currency == a.currency
      && r.value.exchange == a.exchange && r.value.sector == a.sector
      && (r.value.up <==> Rose(b.close, a.close))
  {
    var s1 := pre + [a];
    var s2 := s1 + mid;
    var s3 := s2 + [b];
    assert pre + [a] + mid + [b] + post == s3 + post;
    HistoryOfOthers(mid, symbol);
    HistoryOfOthers(post, symbol);
    HistoryAppend(pre, a, symbol);
    assert History(s1, symbol) == History(pre, symbol) + [a];
    HistoryConcat(s1, mid, symbol);
    assert History(s2, symbol) == History(s1, symbol);
    HistoryAppend(s2, b, symbol);
    assert History(s3, symbol) == History(pre, symbol) + [a] + [b];
    HistoryConcat(s3, post, symbol);
    var h := History(s3 + post, symbol);
    assert h == History(pre, symbol) + [a] + [b];
    assert h[|h| - 2] == a && h[|h| - 1] == b;
  }
}

=== FILE: singlefile.dfy ===
/** The single-file dashboard's own data path: a module-global snapshot
    that every load rebuilds, and an update callback that drives the
    module-level legacy `add_new_ohlc` (handles for the first 30 stored
    symbols only, provider errors swallowed as empty downloads). Its
    other callbacks are the same code as the component versions and share
    their model. */
module SingleFile {
  import opened Common
  import opened Store
  import opened DataStore
  import Updates

  datatype Globals = Globals(db: Db, handles: seq<Symbol>, mainTable: seq<SnapRow>)

  /** Module import: the handle object is built from the first 30 ticker
      rows, then the main table is loaded. */
  function Start(db: Db): (g: Globals)
    ensures g.handles == LegacyHandles(db) && g.mainTable == Build(db) && g.db == db
  {
    Globals(db, LegacyHandles(db), Build(db))
  }

  /** `load_main_table` here has no condition: it always re-reads. */
  function LoadMainTable(g: Globals): (r: Globals)
    ensures r.mainTable == Build(g.db)
    ensures r.db == g.db && r.handles == g.handles
  {
    g.(mainTable := Build(g.db))
  }

  /** A sequential batch of legacy syncs. */
  function LegacyEach(db: Db, handles: seq<Symbol>, symbols: seq<Symbol>,
                      provider: (Symbol, Request) -> Fetch): (r: Db)
    ensures r.tickers == db.tickers && r.forecasts == db.forecasts
    ensures (forall s :: s in symbols ==> s !in handles) ==> r == db
    decreases |symbols|
  {
    if |symbols| == 0 then db
    else LegacyEach(LegacyAddNewOhlc(db, handles, symbols[0], provider).0, handles, symbols[1..], provider)
  }

  /** `update_ticker_data` of the single-file app: `None` is the
      PreventUpdate raised when the button was never clicked. */
  function UpdateTickerData(g: Globals, button: Option<int>, scope: string, symbol: Option<Symbol>,
                            sectorSymbols: seq<Symbol>, sector: Option<string>,
                            upToDate: set<Option<string>>, provider: (Symbol, Request) -> Fetch)
    : (r: Option<(Globals, set<Option<string>>)>)
    ensures r.None? <==> button.None?
    ensures r.Some? ==> r.value.1 == upToDate + {Updates.ScopeKey(scope, symbol, sector)}
    ensures r.Some? ==> r.value.0.mainTable == Build(r.value.0.db) && r.value.0.handles == g.handles
    ensures r.Some? ==> r.value.0.db.tickers == g.db.tickers && r.value.0.db.forecasts == g.db.forecasts
  {
    if button.None? then None
    else
      var db' :=
        if scope == "Ticker" then
          match symbol
          case None => g.db
          case Some(s) => LegacyAddNewOhlc(g.db, g.handles, s, provider).0
        else if scope == "Sector" then LegacyEach(g.db, g.handles, sectorSymbols, provider)
        else LegacyEach(g.db, g.handles, SnapshotSymbols(g.mainTable), provider);
      Some((LoadMainTable(g.(db := db')), upToDate + {Updates.ScopeKey(scope, symbol, sector)}))
  }

  /** With more than 30 stored tickers, refreshing a symbol stored past
      the thirtieth leaves the store as it was, though the callback still
      records it as up to date. */
  lemma TickerBeyondThirtyNeverRefreshes(db: Db, sym: Symbol, upToDate: set<Option<string>>,
                                         provider: (Symbol, Request) -> Fetch)
    requires NoDuplicates(TickerSymbols(db))
    requires exists k :: 30 <= k < |db.tickers| && db.tickers[k].symbol == sym
    ensures var r := UpdateTickerData(Start(db), Some(1), "Ticker", Some(sym), [], None, upToDate, provider);
      r.Some? && r.value.0.db == db && Some(sym) in r.value.1
  {
    LegacyOnlyFirstThirty(db, sym, provider);
  }
}

=== FILE: sorting.dfy ===
/** The two orderings the dashboard relies on: SQL's `ORDER BY` on text
    (byte-wise, i.e. lexicographic on characters) and descending order of
    a real-valued key (`ORDER BY ABS(x) DESC`, pandas' `sort_values(...,
    ascending=False)`). Both are written as insertion sorts whose
    contracts state sortedness and permutation. */
module Sorting {

  /** Lexicographic order on strings, as SQLite's BINARY collation compares
      text: a proper prefix sorts first. */
  predicate StrLe(a: string, b: string)
  {
    |a| == 0 || (|b| > 0 && (a[0] < b[0] || (a[0] == b[0] && StrLe(a[1..], b[1..]))))
  }

  lemma {:induction false} StrLeTotal(a: string, b: string)
    ensures StrLe(a, b) || StrLe(b, a)
  {
    if |a| > 0 && |b| > 0 && a[0] == b[0] {
      StrLeTotal(a[1..], b[1..]);
    }
  }

  lemma {:induction false} StrLeTransitive(a: string, b: string, c: string)
    requires StrLe(a, b) && StrLe(b, c)
    ensures StrLe(a, c)
  {
    if |a| > 0 && a[0] == b[0] && b[0] == c[0] {
      StrLeTransitive(a[1..], b[1..], c[1..]);
    }
  }

  lemma {:induction false} StrLeAntisymmetric(a: string, b: string)
    requires StrLe(a, b) && StrLe(b, a)
    ensures a == b
  {
    if |a| > 0 {
      StrLeAntisymmetric(a[1..], b[1..]);
      assert a == [a[0]] + a[1..];
      assert b == [b[0]] + b[1..];
    }
  }

  ghost predicate StrSorted(s: seq<string>)
  {
    forall i, j :: 0 <= i < j < |s| ==> StrLe(s[i], s[j])
  }

  /** Prepending an element that precedes every element keeps a sequence
      ascending. */
  lemma ConsSorted(h: string, t: seq<string>)
    requires StrSorted(t)
    requires forall y :: y in t ==> StrLe(h, y)
    ensures StrSorted([h] + t)
  {
    forall i, j | 0 <= i < j < |[h] + t|
      ensures StrLe(([h] + t)[i], ([h] + t)[j])
    {
      if i > 0 {
        assert ([h] + t)[i] == t[i - 1] && ([h] + t)[j] == t[j - 1];
      } else {
        assert ([h] + t)[j] == t[j - 1];
        assert t[j - 1] in t;
      }
    }
  }

  /** What precedes the head of an ascending sequence precedes all of it. */
  lemma BeforeHeadBeforeAll(x: string, s: seq<string>)
    requires StrSorted(s) && |s| > 0 && StrLe(x, s[0])
    ensures forall y :: y in s ==> StrLe(x, y)
  {
    forall y | y in s
      ensures StrLe(x, y)
    {
      var j :| 0 <= j < |s| && s[j] == y;
      if j > 0 { StrLeTransitive(x, s[0], s[j]); }
    }
  }

  lemma HeadBeforeTail(s: seq<string>)
    requires StrSorted(s) && |s| > 0
    ensures forall y :: y in s[1..] ==> StrLe(s[0], y)
  {
    forall y | y in s[1..]
      ensures StrLe(s[0], y)
    {
      var j :| 0 <= j < |s[1..]| && s[1..][j] == y;
      assert s[j + 1] == y;
    }
  }

  /** Inserts `x` into the ascending sequence `s` before the first element
      it does not follow. */
  function InsertStr(x: string, s: seq<string>): (r: seq<string>)
    requires StrSorted(s)
    ensures StrSorted(r)
    ensures multiset(r) == multiset(s) + multiset{x}
  {
    if |s| == 0 then [x]
    else if StrLe(x, s[0]) then
      BeforeHeadBeforeAll(x, s);
      ConsSorted(x, s);
      [x] + s
    else
      var rest := InsertStr(x, s[1..]);
      StrLeTotal(x, s[0]);
      assert s == [s[0]] + s[1..];
      HeadBeforeTail(s);
      assert forall y :: y in rest ==> StrLe(s[0], y) by {
        forall y | y in rest
          ensures StrLe(s[0], y)
        {
          assert y in multiset(rest);
          assert y == x || y in s[1..];
        }
      }
      ConsSorted(s[0], rest);
      [s[0]] + rest
  }

  /** `s` in ascending lexicographic order. */
  function SortStrings(s: seq<string>): (r: seq<string>)
    ensures StrSorted(r)
    ensures multiset(r) == multiset(s)
  {
    if |s| == 0 then []
    else
      assert s == [s[0]] + s[1..];
      InsertStr(s[0], SortStrings(s[1..]))
  }

  /** The first element of an ascending sequence precedes every element. */
  lemma SortedHeadIsLeast(s: seq<string>)
    requires StrSorted(s) && |s| > 0
    ensures forall x :: x in s ==> StrLe(s[0], x)
  {
    forall x | x in s
      ensures StrLe(s[0], x)
    {
      var j :| 0 <= j < |s| && s[j] == x;
      if j == 0 { StrLeTotal(x, x); }
    }
  }

  ghost predicate SortedDesc<T>(s: seq<T>, key: T -> real)
  {
    forall i, j :: 0 <= i < j < |s| ==> key(s[i]) >= key(s[j])
  }

  /** Prepending an element whose key is at least every key of a
      descending sequence keeps it descending. */
  lemma ConsDesc<T>(h: T, t: seq<T>, key: T -> real)
    requires SortedDesc(t, key)
    requires forall y :: y in t ==> key(h) >= key(y)
    ensures SortedDesc([h] + t, key)
  {
    forall i, j | 0 <= i < j < |[h] + t|
      ensures key(([h] + t)[i]) >= key(([h] + t)[j])
    {
      assert ([h] + t)[j] == t[j - 1];
      if i > 0 {
        assert ([h] + t)[i] == t[i - 1];
      } else {
        assert t[j - 1] in t;
      }
    }
  }

  /** Inserts `x` into `s`, which is descending by `key`, in front of the
      first element whose key is not larger than its own. */
  function InsertDesc<T>(x: T, s: seq<T>, key: T -> real): (r: seq<T>)
    requires SortedDesc(s, key)
    ensures SortedDesc(r, key)
    ensures multiset(r) == multiset(s) + multiset{x}
  {
    if |s| == 0 then [x]
    else if key(x) >= key(s[0]) then
      assert forall y :: y in s ==> key(x) >= key(y) by {
        forall y | y in s
          ensures key(x) >= key(y)
        {
          var j :| 0 <= j < |s| && s[j] == y;
          assert j == 0 || key(s[0]) >= key(s[j]);
        }
      }
      ConsDesc(x, s, key);
      [x] + s
    else
      var rest := InsertDesc(x, s[1..], key);
      assert s == [s[0]] + s[1..];
      assert forall y :: y in rest ==> key(s[0]) >= key(y) by {
        forall y | y in rest
          ensures key(s[0]) >= key(y)
        {
          assert y in multiset(rest);
          if y != x {
            assert y in s[1..];
            var j :| 0 <= j < |s[1..]| && s[1..][j] == y;
            assert s[j + 1] == y;
          }
        }
      }
      ConsDesc(s[0], rest, key);
      [s[0]] + rest
  }

  /** `s` reordered so that `key` is non-increasing; the order among equal
      keys is whatever insertion produces, as the source leaves ties
      unspecified. */
  function SortByKeyDesc<T>(s: seq<T>, key: T -> real): (r: seq<T>)
    ensures SortedDesc(r, key)
    ensures multiset(r) == multiset(s)
  {
    if |s| == 0 then []
    else
      assert s == [s[0]] + s[1..];
      InsertDesc(s[0], SortByKeyDesc(s[1..], key), key)
  }

  /** A prefix of a descending sequence is descending, is drawn from it,
      and no element outside the prefix beats one inside. */
  lemma DescPrefix<T>(sorted: seq<T>, n: nat, key: T -> real)
    requires SortedDesc(sorted, key) && n <= |sorted|
    ensures SortedDesc(sorted[..n], key)
    ensures multiset(sorted[..n]) <= multiset(sorted)
    ensures forall x :: x in multiset(sorted) - multiset(sorted[..n]) ==>
      forall t :: t in sorted[..n] ==> key(t) >= key(x)
  {
    var top := sorted[..n];
    var rest := sorted[n..];
    assert sorted == top + rest;
    assert multiset(sorted) == multiset(top) + multiset(rest);
    forall x | x in multiset(sorted) - multiset(top)
      ensures forall t :: t in top ==> key(t) >= key(x)
    {
      assert x in rest;
      var j :| 0 <= j < |rest| && rest[j] == x;
      forall t | t in top
        ensures key(t) >= key(x)
      {
        var i :| 0 <= i < |top| && top[i] == t;
        assert sorted[i] == t && sorted[n + j] == x;
      }
    }
  }

  /** The first `k` elements of `s` by descending `key`: as many as there
      are (up to `k`), in descending order, drawn from `s`, and none of
      the elements left out has a larger key than one kept. */
  function TopByKey<T>(s: seq<T>, key: T -> real, k: nat): (top: seq<T>)
    ensures |top| == if |s| < k then |s| else k
    ensures SortedDesc(top, key)
    ensures multiset(top) <= multiset(s)
    ensures forall x :: x in multiset(s) - multiset(top) ==> forall t :: t in top ==> key(t) >= key(x)
  {
    var sorted := SortByKeyDesc(s, key);
    assert |multiset(sorted)| == |sorted| && |multiset(s)| == |s|;
    var n := if |sorted| <= k then |sorted| else k;
    DescPrefix(sorted, n, key);
    sorted[..n]
  }
}

=== FILE: store.dfy ===
/** The relational store of `DataStore` as a value: dimension tables,
    tickers, the shared date table, price bars keyed by (symbol, date)
    and forecasts keyed by (symbol, date). Tables are sequences in row
    order; surrogate ids are replaced by the unique values they stand for
    (symbol, timestamp, dimension name), which the source's sub-selects
    resolve one-to-one. Providers are function parameters. */
module Store {
  import opened Common
  import ForecastClip

  type Symbol = string

  /** One OHLC bar with its Unix timestamp in seconds. */
  datatype Bar = Bar(time: int, open: real, high: real, low: real, close: real, volume: int)

  datatype PriceRow = PriceRow(symbol: Symbol, bar: Bar)

  datatype Ticker = Ticker(symbol: Symbol, name: string, currency: string, exchange: string,
                           kind: string, sector: string)

  datatype ForecastRow = ForecastRow(symbol: Symbol, time: int, ohlc: ForecastClip.Ohlc)

  datatype Db = Db(currencies: seq<string>, exchanges: seq<string>, kinds: seq<string>,
                   sectors: seq<string>, tickers: seq<Ticker>, dates: set<int>,
                   prices: seq<PriceRow>, forecasts: seq<ForecastRow>)

  /** The store right after `create_tables`: every table dropped and
      recreated empty. */
  const EmptyDb: Db := Db([], [], [], [], [], {}, [], [])

  /** Why one symbol's operation was logged as failed. */
  datatype Failure =
    | NoHandle       // the provider handle object has no entry for the symbol (KeyError)
    | FetchFailed    // the provider raised
    | Rejected       // a constraint failed and the transaction was rolled back
    | FitFailed      // the forecasting model could not be fitted

  datatype Outcome = Done | Failed(why: Failure)

  datatype Request = Since(cursor: Option<int>) | Between(firstDay: int, lastDay: int)

  datatype Fetch = Fetched(bars: seq<Bar>) | FetchError

  /** Ticker metadata as the provider reports it (`info`); `None` stands
      for a failed request or a missing field. */
  datatype Meta = Meta(symbol: Symbol, shortName: string, currency: string, exchange: string,
                       quoteType: string, sector: string)

  /** Start and end day of the initial history download (2022-07-01 and
      2023-07-01, as days since 1970-01-01). */
  const FillStartDay: int := 19174
  const FillEndDay: int := 19539

  function TickerSymbols(db: Db): (s: seq<Symbol>)
    ensures |s| == |db.tickers|
    ensures forall i :: 0 <= i < |s| ==> s[i] == db.tickers[i].symbol
  {
    seq(|db.tickers|, i requires 0 <= i < |db.tickers| => db.tickers[i].symbol)
  }

  function Key(r: PriceRow): (Symbol, int)
  {
    (r.symbol, r.bar.time)
  }

  function Keys(rows: seq<PriceRow>): set<(Symbol, int)>
  {
    set i | 0 <= i < |rows| :: Key(rows[i])
  }

  ghost predicate UniqueKeys(rows: seq<PriceRow>)
  {
    forall i, j :: 0 <= i < j < |rows| ==> Key(rows[i]) != Key(rows[j])
  }

  ghost predicate UniqueForecastKeys(rows: seq<ForecastRow>)
  {
    forall i, j :: 0 <= i < j < |rows| ==>
      (rows[i].symbol, rows[i].time) != (rows[j].symbol, rows[j].time)
  }

  /** The schema's constraints and the references the sub-selects keep:
      unique names and keys, every ticker resolving its four dimensions,
      every price and forecast resolving its ticker, every price its date. */
  ghost predicate Valid(db: Db)
  {
    && NoDuplicates(db.currencies) && NoDuplicates(db.exchanges)
    && NoDuplicates(db.kinds) && NoDuplicates(db.sectors)
    && NoDuplicates(TickerSymbols(db))
    && (forall t :: t in db.tickers ==>
          t.currency in db.currencies && t.exchange in db.exchanges
          && t.kind in db.kinds && t.sector in db.sectors)
    && UniqueKeys(db.prices)
    && (forall r :: r in db.prices ==> r.symbol in TickerSymbols(db) && r.bar.time in db.dates)
    && UniqueForecastKeys(db.forecasts)
    && (forall f :: f in db.forecasts ==> f.symbol in TickerSymbols(db))
  }

  lemma EmptyDbValid()
    ensures Valid(EmptyDb)
  {
  }

  // ---------------------------------------------------------------------
  // Price write path (`add_new_ohlc` / `fill_ohlc`)
  // ---------------------------------------------------------------------

  ghost predicate DistinctTimes(bars: seq<Bar>)
  {
    forall i, j :: 0 <= i < j < |bars| ==> bars[i].time != bars[j].time
  }

  function NewRows(sym: Symbol, bars: seq<Bar>): (rows: seq<PriceRow>)
    ensures |rows| == |bars|
    ensures forall i :: 0 <= i < |bars| ==> rows[i] == PriceRow(sym, bars[i])
  {
    seq(|bars|, i requires 0 <= i < |bars| => PriceRow(sym, bars[i]))
  }

  function BarTimes(bars: seq<Bar>): (ts: set<int>)
    ensures forall t :: t in ts <==> exists i :: 0 <= i < |bars| && bars[i].time == t
  {
    set i | 0 <= i < |bars| :: bars[i].time
  }

  lemma KeysAppend(rows: seq<PriceRow>, r: PriceRow)
    ensures Keys(rows + [r]) == Keys(rows) + {Key(r)}
  {
    var rows' := rows + [r];
    assert forall i :: 0 <= i < |rows| ==> rows'[i] == rows[i];
    assert rows'[|rows|] == r;
  }

  lemma NewRowsCons(rows: seq<PriceRow>, sym: Symbol, bars: seq<Bar>)
    requires |bars| > 0
    ensures rows + [PriceRow(sym, bars[0])] + NewRows(sym, bars[1..]) == rows + NewRows(sym, bars)
  {
    assert NewRows(sym, bars) == [PriceRow(sym, bars[0])] + NewRows(sym, bars[1..]);
  }

  lemma DistinctTimesCons(bars: seq<Bar>)
    requires |bars| > 0
    ensures DistinctTimes(bars) <==>
      DistinctTimes(bars[1..]) && forall i :: 1 <= i < |bars| ==> bars[i].time != bars[0].time
  {
    if DistinctTimes(bars[1..]) && forall i :: 1 <= i < |bars| ==> bars[i].time != bars[0].time {
      forall i, j | 0 <= i < j < |bars|
        ensures bars[i].time != bars[j].time
      {
        if i > 0 {
          assert bars[i].time == bars[1..][i - 1].time;
          assert bars[j].time == bars[1..][j - 1].time;
        }
      }
    }
  }

  /** The plain price inserts of one `executemany`, statement by
      statement: a statement fails when the ticker sub-select yields NULL
      (`registered` false) or the (ticker, date) key already exists,
      including a key inserted earlier in the same batch; `None` is that
      failure. */
  function InsertPrices(rows: seq<PriceRow>, registered: bool, sym: Symbol, bars: seq<Bar>)
    : (r: Option<seq<PriceRow>>)
    ensures r.Some? <==>
      (|bars| == 0 || registered) && DistinctTimes(bars)
      && (forall i :: 0 <= i < |bars| ==> (sym, bars[i].time) !in Keys(rows))
    ensures r.Some? ==> r.value == rows + NewRows(sym, bars)
    decreases |bars|
  {
    if |bars| == 0 then Some(rows)
    else if !registered || (sym, bars[0].time) in Keys(rows) then None
    else
      var rows' := rows + [PriceRow(sym, bars[0])];
      KeysAppend(rows, PriceRow(sym, bars[0]));
      NewRowsCons(rows, sym, bars);
      DistinctTimesCons(bars);
      var r := InsertPrices(rows', registered, sym, bars[1..]);
      assert forall i :: 1 <= i < |bars| ==> bars[i] == bars[1..][i - 1];
      r
  }

  /** One `with con:` block: insert-or-ignore every bar's date, then the
      plain price inserts; any failing statement rolls the whole block
      back and the error is logged, never raised. */
  function WriteBars(db: Db, sym: Symbol, bars: seq<Bar>): (r: (Db, Outcome))
    ensures r.1 == Done || r.1 == Failed(Rejected)
    ensures r.1 == Done <==>
      (|bars| == 0 || sym in TickerSymbols(db)) && DistinctTimes(bars)
      && (forall i :: 0 <= i < |bars| ==> (sym, bars[i].time) !in Keys(db.prices))
    ensures r.1 == Done ==>
      r.0 == db.(dates := db.dates + BarTimes(bars), prices := db.prices + NewRows(sym, bars))
    ensures r.1 != Done ==> r.0 == db
  {
    match InsertPrices(db.prices, sym in TickerSymbols(db), sym, bars)
    case None => (db, Failed(Rejected))
    case Some(p) => (db.(dates := db.dates + BarTimes(bars), prices := p), Done)
  }

  /** A committed write keeps every table constraint. */
  lemma WriteBarsValid(db: Db, sym: Symbol, bars: seq<Bar>)
    requires Valid(db)
    ensures Valid(WriteBars(db, sym, bars).0)
  {
    var (db', o) := WriteBars(db, sym, bars);
    if o == Done {
      var added := NewRows(sym, bars);
      assert db'.prices == db.prices + added;
      forall i, j | 0 <= i < j < |db'.prices|
        ensures Key(db'.prices[i]) != Key(db'.prices[j])
      {
        if j >= |db.prices| {
          if i < |db.prices| {
            assert Key(db.prices[i]) in Keys(db.prices);
          }
        }
      }
      forall r | r in db'.prices
        ensures r.symbol in TickerSymbols(db') && r.bar.time in db'.dates
      {
        if r !in db.prices {
          var k :| 0 <= k < |added| && added[k] == r;
        }
      }
    }
  }

  // ---------------------------------------------------------------------
  // Sync cursor
  // ---------------------------------------------------------------------

  /** `max(date)` over the symbol's price rows, or `None` (SQL NULL) when
      it has none. */
  function LastStored(rows: seq<PriceRow>, sym: Symbol): (r: Option<int>)
    ensures r.None? <==> forall i :: 0 <= i < |rows| ==> rows[i].symbol != sym
    ensures r.Some? ==> exists i :: 0 <= i < |rows| && rows[i].symbol == sym && rows[i].bar.time == r.value
    ensures r.Some? ==> forall i :: 0 <= i < |rows| && rows[i].symbol == sym ==> rows[i].bar.time <= r.value
    decreases |rows|
  {
    if |rows| == 0 then None
    else
      var rest := LastStored(rows[1..], sym);
      assert forall i :: 1 <= i < |rows| ==> rows[i] == rows[1..][i - 1];
      if rows[0].symbol != sym then rest
      else match rest
        case None => Some(rows[0].bar.time)
        case Some(t) => Some(if rows[0].bar.time > t then rows[0].bar.time else t)
  }

  /** `DATE(max(date) + 86400, 'unixepoch')`: the calendar day after the
      symbol's latest stored bar, or `None` when it has no bars. */
  function SyncCursor(db: Db, sym: Symbol): Option<int>
  {
    match LastStored(db.prices, sym)
    case None => None
    case Some(t) => Some(DayOf(t + SecondsPerDay))
  }

  /** The cursor lies strictly after every stored bar of the symbol, and
      is absent exactly when there is none: a provider that honours it can
      only return bars the store does not yet hold. */
  lemma CursorPastStored(db: Db, sym: Symbol)
    ensures SyncCursor(db, sym).None? <==> forall r :: r in db.prices ==> r.symbol != sym
    ensures SyncCursor(db, sym).Some? ==>
      forall r :: r in db.prices && r.symbol == sym ==> r.bar.time < Midnight(SyncCursor(db, sym).value)
  {
    var last := LastStored(db.prices, sym);
    if last.Some? {
      var d := DayOf(last.value + SecondsPerDay);
      assert last.value < Midnight(d);
    }
  }

  // ---------------------------------------------------------------------
  // Per-symbol synchronisation
  // ---------------------------------------------------------------------

  /** `DataStore.add_new_ohlc`: compute the cursor, look the symbol up in
      the provider handles (`tickers.tickers[symbol]`, a KeyError when
      missing), request bars since the cursor, write them. Every error is
      caught and logged. */
  function AddNewOhlc(db: Db, handles: seq<Symbol>, sym: Symbol,
                      provider: (Symbol, Request) -> Fetch): (r: (Db, Outcome))
    ensures r.1 == Done ==> sym in handles
    ensures r.1 != Done ==> r.0 == db
    ensures r.0.tickers == db.tickers && r.0.forecasts == db.forecasts
    ensures |db.prices| <= |r.0.prices| && r.0.prices[..|db.prices|] == db.prices
    ensures forall i :: |db.prices| <= i < |r.0.prices| ==> r.0.prices[i].symbol == sym
  {
    if sym !in handles then (db, Failed(NoHandle))
    else
      match provider(sym, Since(SyncCursor(db, sym)))
      case FetchError => (db, Failed(FetchFailed))
      case Fetched(bars) => WriteBars(db, sym, bars)
  }

  lemma AddNewOhlcValid(db: Db, handles: seq<Symbol>, sym: Symbol, provider: (Symbol, Request) -> Fetch)
    requires Valid(db)
    ensures Valid(AddNewOhlc(db, handles, sym, provider).0)
  {
    if sym in handles {
      match provider(sym, Since(SyncCursor(db, sym)))
      case FetchError =>
      case Fetched(bars) => WriteBarsValid(db, sym, bars);
    }
  }

  /** The repository's re-sync scenario: when the symbol is registered and
      has a handle, and the provider answers the cursor request with bars
      of distinct dates at or after the cursor, the sync commits and the
      price table grows by exactly those bars. */
  lemma SyncFromCursorCommits(db: Db, handles: seq<Symbol>, sym: Symbol,
                              provider: (Symbol, Request) -> Fetch, bars: seq<Bar>)
    requires Valid(db)
    requires sym in TickerSymbols(db) && sym in handles
    requires provider(sym, Since(SyncCursor(db, sym))) == Fetched(bars)
    requires DistinctTimes(bars)
    requires SyncCursor(db, sym).Some? ==>
      forall i :: 0 <= i < |bars| ==> bars[i].time >= Midnight(SyncCursor(db, sym).value)
    ensures AddNewOhlc(db, handles, sym, provider).1 == Done
    ensures |AddNewOhlc(db, handles, sym, provider).0.prices| == |db.prices| + |bars|
  {
    CursorPastStored(db, sym);
    assert forall i :: 0 <= i < |bars| ==> (sym, bars[i].time) !in Keys(db.prices);
  }

  /** The legacy module-level `add_new_ohlc`: its handle object covers
      only the first 30 stored symbols, and without `raise_errors` a
      provider error yields an empty frame, so nothing is written and the
      call reports success. */
  function LegacyHandles(db: Db): (h: seq<Symbol>)
    ensures |h| == if |db.tickers| < 30 then |db.tickers| else 30
    ensures h == TickerSymbols(db)[..|h|]
  {
    TakeFirst(TickerSymbols(db), 30)
  }

  function LegacyAddNewOhlc(db: Db, handles: seq<Symbol>, sym: Symbol,
                            provider: (Symbol, Request) -> Fetch): (r: (Db, Outcome))
    ensures sym !in handles ==> r == (db, Failed(NoHandle))
    ensures r.1 != Done ==> r.0 == db
    ensures r.0.tickers == db.tickers && r.0.forecasts == db.forecasts
    ensures provider(sym, Since(SyncCursor(db, sym))) == FetchError && sym in handles ==> r == (db, Done)
  {
    if sym !in handles then (db, Failed(NoHandle))
    else
      match provider(sym, Since(SyncCursor(db, sym)))
      case FetchError => (db, Done)
      case Fetched(bars) => WriteBars(db, sym, bars)
  }

  /** Beyond the first 30 stored symbols the legacy sync never writes. */
  lemma LegacyOnlyFirstThirty(db: Db, sym: Symbol, provider: (Symbol, Request) -> Fetch)
    requires NoDuplicates(TickerSymbols(db))
    requires exists k :: 30 <= k < |db.tickers| && db.tickers[k].symbol == sym
    ensures LegacyAddNewOhlc(db, LegacyHandles(db), sym, provider) == (db, Failed(NoHandle))
  {
    var k :| 30 <= k < |db.tickers| && db.tickers[k].symbol == sym;
    assert forall j :: 0 <= j < |LegacyHandles(db)| ==> LegacyHandles(db)[j] == TickerSymbols(db)[j];
  }

  /** A sequential best-effort batch of `add_new_ohlc` calls: each symbol
      is attempted against the state the previous ones left, and its
      failure is only recorded in the log. */
  function SyncEach(db: Db, handles: seq<Symbol>, symbols: seq<Symbol>,
                    provider: (Symbol, Request) -> Fetch): (r: (Db, seq<Outcome>))
    ensures |r.1| == |symbols|
    ensures r.0.tickers == db.tickers && r.0.forecasts == db.forecasts
    ensures |db.prices| <= |r.0.prices| && r.0.prices[..|db.prices|] == db.prices
    ensures forall i :: |db.prices| <= i < |r.0.prices| ==> r.0.prices[i].symbol in symbols
    decreases |symbols|
  {
    if |symbols| == 0 then (db, [])
    else
      var step := AddNewOhlc(db, handles, symbols[0], provider);
      var rest := SyncEach(step.0, handles, symbols[1..], provider);
      assert rest.0.prices[..|db.prices|] == db.prices by {
        assert rest.0.prices[..|step.0.prices|] == step.0.prices;
      }
      assert forall i :: |step.0.prices| <= i < |rest.0.prices| ==> rest.0.prices[i].symbol in symbols;
      assert forall i :: |db.prices| <= i < |step.0.prices| ==> rest.0.prices[i] == step.0.prices[i];
      (rest.0, [step.1] + rest.1)
  }

  /** Only a symbol with a handle can be synced successfully. */
  lemma {:induction false} SyncEachDoneHandled(db: Db, handles: seq<Symbol>, symbols: seq<Symbol>,
                                               provider: (Symbol, Request) -> Fetch)
    ensures var log := SyncEach(db, handles, symbols, provider).1;
      forall k :: 0 <= k < |symbols| && log[k] == Done ==> symbols[k] in handles
    decreases |symbols|
  {
    if |symbols| > 0 {
      var step := AddNewOhlc(db, handles, symbols[0], provider);
      SyncEachDoneHandled(step.0, handles, symbols[1..], provider);
      var log := SyncEach(db, handles, symbols, provider).1;
      var rest := SyncEach(step.0, handles, symbols[1..], provider).1;
      assert log == [step.1] + rest;
      forall k | 0 < k < |symbols| && log[k] == Done
        ensures symbols[k] in handles
      {
        assert log[k] == rest[k - 1] && symbols[k] == symbols[1..][k - 1];
      }
    }
  }

  lemma {:induction false} SyncEachValid(db: Db, handles: seq<Symbol>, symbols: seq<Symbol>,
                                         provider: (Symbol, Request) -> Fetch)
    requires Valid(db)
    ensures Valid(SyncEach(db, handles, symbols, provider).0)
    decreases |symbols|
  {
    if |symbols| > 0 {
      AddNewOhlcValid(db, handles, symbols[0], provider);
      var db1 := AddNewOhlc(db, handles, symbols[0], provider).0;
      SyncEachValid(db1, handles, symbols[1..], provider);
    }
  }

  /** A batch splits at any point: the second part runs on whatever
      state the first part left, whatever its outcomes were ... */
  lemma {:induction false} SyncEachSplitsState(db: Db, handles: seq<Symbol>, a: seq<Symbol>, b: seq<Symbol>,
                                               provider: (Symbol, Request) -> Fetch)
    ensures SyncEach(db, handles, a + b, provider).0 ==
      SyncEach(SyncEach(db, handles, a, provider).0, handles, b, provider).0
    decreases |a|
  {
    if |a| == 0 {
      assert a + b == b;
    } else {
      assert (a + b)[0] == a[0] && (a + b)[1..] == a[1..] + b;
      var db1 := AddNewOhlc(db, handles, a[0], provider).0;
      SyncEachSplitsState(db1, handles, a[1..], b, provider);
    }
  }

  /** One step of the batch: the first symbol's sync, then the rest. */
  lemma SyncEachCons(db: Db, handles: seq<Symbol>, symbols: seq<Symbol>, provider: (Symbol, Request) -> Fetch)
    requires |symbols| > 0
    ensures var step := AddNewOhlc(db, handles, symbols[0], provider);
      && SyncEach(db, handles, symbols, provider).0 == SyncEach(step.0, handles, symbols[1..], provider).0
      && SyncEach(db, handles, symbols, provider).1 == [step.1] + SyncEach(step.0, handles, symbols[1..], provider).1
  {
  }

  /** ... and the log is the two parts' logs one after the other. */
  lemma {:induction false} SyncEachSplitsLog(db: Db, handles: seq<Symbol>, a: seq<Symbol>, b: seq<Symbol>,
                                             provider: (Symbol, Request) -> Fetch)
    ensures SyncEach(db, handles, a + b, provider).1 ==
      SyncEach(db, handles, a, provider).1 + SyncEach(SyncEach(db, handles, a, provider).0, handles, b, provider).1
    decreases |a|
  {
    if |a| == 0 {
      assert a + b == b;
    } else {
      assert (a + b)[0] == a[0] && (a + b)[1..] == a[1..] + b;
      var step := AddNewOhlc(db, handles, a[0], provider);
      var ra := SyncEach(step.0, handles, a[1..], provider);
      var rb := SyncEach(ra.0, handles, b, provider);
      SyncEachSplitsLog(step.0, handles, a[1..], b, provider);
      assert SyncEach(step.0, handles, a[1..] + b, provider).1 == ra.1 + rb.1;
      SyncEachCons(db, handles, a, provider);
      assert SyncEach(db, handles, a, provider) == (ra.0, [step.1] + ra.1);
      SyncEachCons(db, handles, a + b, provider);
      assert SyncEach(db, handles, a + b, provider).1 == [step.1] + (ra.1 + rb.1);
    }
  }

  /** `fill_ohlc`: every stored ticker, in row order, downloads the fixed
      initial range and writes it in its own transaction. The range
      request does not ask the provider to raise, so a failed download
      arrives as an empty frame: nothing is written and success is logged. */
  function FillOne(db: Db, handles: seq<Symbol>, sym: Symbol,
                   provider: (Symbol, Request) -> Fetch): (r: (Db, Outcome))
    ensures r.1 == Failed(NoHandle) <==> sym !in handles
    ensures sym in handles && provider(sym, Between(FillStartDay, FillEndDay)) == FetchError ==> r == (db, Done)
    ensures r.1 != Done ==> r.0 == db
  {
    if sym !in handles then (db, Failed(NoHandle))
    else
      match provider(sym, Between(FillStartDay, FillEndDay))
      case FetchError => (db, Done)
      case Fetched(bars) => WriteBars(db, sym, bars)
  }

  function FillEach(db: Db, handles: seq<Symbol>, symbols: seq<Symbol>,
                    provider: (Symbol, Request) -> Fetch): (r: (Db, seq<Outcome>))
    ensures |r.1| == |symbols|
    ensures r.0.tickers == db.tickers && r.0.forecasts == db.forecasts
    ensures |db.prices| <= |r.0.prices| && r.0.prices[..|db.prices|] == db.prices
    decreases |symbols|
  {
    if |symbols| == 0 then (db, [])
    else
      var step := FillOne(db, handles, symbols[0], provider);
      var rest := FillEach(step.0, handles, symbols[1..], provider);
      assert rest.0.prices[..|db.prices|] == db.prices by {
        assert rest.0.prices[..|step.0.prices|] == step.0.prices;
      }
      (rest.0, [step.1] + rest.1)
  }

  lemma {:induction false} FillEachValid(db: Db, handles: seq<Symbol>, symbols: seq<Symbol>,
                                         provider: (Symbol, Request) -> Fetch)
    requires Valid(db)
    ensures Valid(FillEach(db, handles, symbols, provider).0)
    decreases |symbols|
  {
    if |symbols| > 0 {
      var step := FillOne(db, handles, symbols[0], provider);
      if symbols[0] in handles {
        match provider(symbols[0], Between(FillStartDay, FillEndDay))
        case FetchError =>
        case Fetched(bars) => WriteBarsValid(db, symbols[0], bars);
      }
      FillEachValid(step.0, handles, symbols[1..], provider);
    }
  }

  function FillOhlc(db: Db, handles: seq<Symbol>, provider: (Symbol, Request) -> Fetch)
    : (r: (Db, seq<Outcome>))
    ensures |r.1| == |db.tickers|
    ensures r.0.tickers == db.tickers && r.0.forecasts == db.forecasts
  {
    FillEach(db, handles, TickerSymbols(db), provider)
  }

  // ---------------------------------------------------------------------
  // Reference data (`insert_ticker_info`)
  // ---------------------------------------------------------------------

  /** `INSERT OR IGNORE` into a table with a UNIQUE name column. */
  function InsertOrIgnore(names: seq<string>, v: string): (r: seq<string>)
    ensures v in r && forall x :: x in names ==> x in r
    ensures forall x :: x in r ==> x == v || x in names
    ensures NoDuplicates(names) ==> NoDuplicates(r)
    ensures v in names ==> r == names
  {
    if v in names then names else names + [v]
  }

  /** One symbol's transaction: four dimension inserts-or-ignores and the
      ticker insert, which fails on a duplicate symbol and rolls the
      dimension inserts back too. A failed metadata request (`None`) is
      logged before anything is written. */
  function InsertTicker(db: Db, info: Option<Meta>): (r: (Db, Outcome))
    ensures r.1 == Done <==> info.Some? && info.value.symbol !in TickerSymbols(db)
    ensures r.1 != Done ==> r.0 == db
    ensures r.1 == Done ==> r.0.tickers == db.tickers + [Ticker(info.value.symbol,
      info.value.shortName, info.value.currency, info.value.exchange, info.value.quoteType,
      info.value.sector)]
    ensures r.0.prices == db.prices && r.0.forecasts == db.forecasts && r.0.dates == db.dates
  {
    match info
    case None => (db, Failed(FetchFailed))
    case Some(m) =>
      if m.symbol in TickerSymbols(db) then (db, Failed(Rejected))
      else
        var t := Ticker(m.symbol, m.shortName, m.currency, m.exchange, m.quoteType, m.sector);
        (db.(currencies := InsertOrIgnore(db.currencies, m.currency),
             exchanges := InsertOrIgnore(db.exchanges, m.exchange),
             kinds := InsertOrIgnore(db.kinds, m.quoteType),
             sectors := InsertOrIgnore(db.sectors, m.sector),
             tickers := db.tickers + [t]), Done)
  }

  lemma InsertTickerValid(db: Db, info: Option<Meta>)
    requires Valid(db)
    ensures Valid(InsertTicker(db, info).0)
  {
    var (db', o) := InsertTicker(db, info);
    if o == Done {
      assert TickerSymbols(db') == TickerSymbols(db) + [info.value.symbol];
      forall r | r in db'.prices
        ensures r.symbol in TickerSymbols(db')
      {
        assert r.symbol in TickerSymbols(db);
      }
    }
  }

  function InsertTickerInfo(db: Db, symbols: seq<Symbol>, meta: Symbol -> Option<Meta>)
    : (r: (Db, seq<Outcome>))
    ensures |r.1| == |symbols|
    ensures r.0.prices == db.prices && r.0.forecasts == db.forecasts && r.0.dates == db.dates
    ensures |db.tickers| <= |r.0.tickers| && r.0.tickers[..|db.tickers|] == db.tickers
    ensures |r.0.tickers| == |db.tickers| + CountDone(r.1)
    decreases |symbols|
  {
    if |symbols| == 0 then (db, [])
    else
      var step := InsertTicker(db, meta(symbols[0]));
      var rest := InsertTickerInfo(step.0, symbols[1..], meta);
      assert rest.0.tickers[..|db.tickers|] == db.tickers by {
        assert rest.0.tickers[..|step.0.tickers|] == step.0.tickers;
      }
      (rest.0, [step.1] + rest.1)
  }

  function CountDone(log: seq<Outcome>): nat
  {
    if |log| == 0 then 0 else (if log[0] == Done then 1 else 0) + CountDone(log[1..])
  }

  lemma {:induction false} CountDoneAtMost(log: seq<Outcome>)
    ensures CountDone(log) <= |log|
  {
    if |log| > 0 {
      CountDoneAtMost(log[1..]);
    }
  }

  /** A log without a success counts none. */
  lemma {:induction false} CountDoneNone(log: seq<Outcome>)
    requires forall i :: 0 <= i < |log| ==> log[i] != Done
    ensures CountDone(log) == 0
  {
    if |log| > 0 {
      assert forall i :: 0 <= i < |log| - 1 ==> log[1..][i] == log[i + 1];
      CountDoneNone(log[1..]);
    }
  }

  lemma {:induction false} InsertTickerInfoValid(db: Db, symbols: seq<Symbol>, meta: Symbol -> Option<Meta>)
    requires Valid(db)
    ensures Valid(InsertTickerInfo(db, symbols, meta).0)
    decreases |symbols|
  {
    if |symbols| > 0 {
      InsertTickerValid(db, meta(symbols[0]));
      InsertTickerInfoValid(InsertTicker(db, meta(symbols[0])).0, symbols[1..], meta);
    }
  }

  lemma InsertTickerAppends(db: Db, m: Meta)
    requires m.symbol !in TickerSymbols(db)
    ensures TickerSymbols(InsertTicker(db, Some(m)).0) == TickerSymbols(db) + [m.symbol]
  {
  }

  /** The repository's scenario: on fresh tables, distinct symbols whose
      metadata all resolve to themselves become exactly that many tickers,
      in order. */
  lemma {:induction false} InsertTickerInfoAllNew(db: Db, symbols: seq<Symbol>, meta: Symbol -> Option<Meta>)
    requires NoDuplicates(symbols)
    requires forall s :: s in symbols ==> meta(s).Some? && meta(s).value.symbol == s
    requires forall s :: s in symbols ==> s !in TickerSymbols(db)
    ensures TickerSymbols(InsertTickerInfo(db, symbols, meta).0) == TickerSymbols(db) + symbols
    decreases |symbols|
  {
    if |symbols| == 0 {
      assert TickerSymbols(db) + symbols == TickerSymbols(db);
    } else {
      var m := meta(symbols[0]).value;
      var db1 := InsertTicker(db, Some(m)).0;
      InsertTickerAppends(db, m);
      NoDuplicatesTail(symbols);
      assert TickerSymbols(db) + symbols == TickerSymbols(db1) + symbols[1..];
      InsertTickerInfoAllNew(db1, symbols[1..], meta);
    }
  }

  // ---------------------------------------------------------------------
  // Forecast table
  // ---------------------------------------------------------------------

  /** `get_forecasts`: among the symbol's forecasts dated at or after the
      cursor, the earliest one, or `None`. */
  function GetForecast(rows: seq<ForecastRow>, sym: Symbol, cursor: int): (r: Option<ForecastRow>)
    ensures r.Some? ==> r.value in rows && r.value.symbol == sym && r.value.time >= cursor
    ensures r.Some? ==> forall f :: f in rows && f.symbol == sym && f.time >= cursor ==> r.value.time <= f.time
    ensures r.None? <==> forall f :: f in rows ==> f.symbol != sym || f.time < cursor
    decreases |rows|
  {
    if |rows| == 0 then None
    else
      var rest := GetForecast(rows[1..], sym, cursor);
      assert forall f :: f in rows <==> f == rows[0] || f in rows[1..];
      var f := rows[0];
      if f.symbol != sym || f.time < cursor then rest
      else match rest
        case None => Some(f)
        case Some(g) => if f.time <= g.time then Some(f) else Some(g)
  }

  /** `clear_forecasts`: an unconditional delete of every forecast row. */
  function ClearForecasts(db: Db): (r: Db)
    ensures r.forecasts == []
    ensures r == db.(forecasts := [])
  {
    db.(forecasts := [])
  }

  /** After clearing, no lookup finds anything. */
  lemma ClearedFindsNothing(db: Db, sym: Symbol, cursor: int)
    ensures GetForecast(ClearForecasts(db).forecasts, sym, cursor) == None
  {
  }

  /** One forecast row in its own transaction: the insert fails (and is
      logged) when the ticker sub-select yields NULL or the (ticker, date)
      key exists. */
  function PersistOne(db: Db, sym: Symbol, t: int, b: ForecastClip.Ohlc): (r: (Db, Outcome))
    ensures r.1 == Done <==>
      sym in TickerSymbols(db) && forall f :: f in db.forecasts ==> f.symbol != sym || f.time != t
    ensures r.1 == Done ==> r.0 == db.(forecasts := db.forecasts + [ForecastRow(sym, t, b)])
    ensures r.1 != Done ==> r.0 == db
  {
    if sym !in TickerSymbols(db) || exists f :: f in db.forecasts && f.symbol == sym && f.time == t
    then (db, Failed(Rejected))
    else (db.(forecasts := db.forecasts + [ForecastRow(sym, t, b)]), Done)
  }

  lemma PersistOneValid(db: Db, sym: Symbol, t: int, b: ForecastClip.Ohlc)
    requires Valid(db)
    ensures Valid(PersistOne(db, sym, t, b).0)
  {
    var (db1, o) := PersistOne(db, sym, t, b);
    if o == Done {
      assert TickerSymbols(db1) == TickerSymbols(db);
      forall i, j | 0 <= i < j < |db1.forecasts|
        ensures (db1.forecasts[i].symbol, db1.forecasts[i].time) != (db1.forecasts[j].symbol, db1.forecasts[j].time)
      {
        if j == |db.forecasts| {
          assert db1.forecasts[i] in db.forecasts;
        }
      }
    }
  }

  /** The forecast rows of one symbol, each in its own transaction; a
      failed row does not stop the later ones. */
  function PersistForecasts(db: Db, sym: Symbol, rows: seq<(int, ForecastClip.Ohlc)>)
    : (r: (Db, seq<Outcome>))
    ensures |r.1| == |rows|
    ensures r.0 == db.(forecasts := r.0.forecasts)
    ensures |r.0.forecasts| == |db.forecasts| + CountDone(r.1)
    ensures r.0.forecasts[..|db.forecasts|] == db.forecasts
    ensures forall i :: |db.forecasts| <= i < |r.0.forecasts| ==>
      r.0.forecasts[i].symbol == sym && (r.0.forecasts[i].time, r.0.forecasts[i].ohlc) in rows
    decreases |rows|
  {
    if |rows| == 0 then (db, [])
    else
      var step := PersistOne(db, sym, rows[0].0, rows[0].1);
      var rest := PersistForecasts(step.0, sym, rows[1..]);
      assert rest.0.forecasts[..|db.forecasts|] == db.forecasts by {
        assert rest.0.forecasts[..|step.0.forecasts|] == step.0.forecasts;
      }
      assert forall i :: |db.forecasts| <= i < |step.0.forecasts| ==> rest.0.forecasts[i] == step.0.forecasts[i];
      assert forall x :: x in rows[1..] ==> x in rows;
      (rest.0, [step.1] + rest.1)
  }

  lemma {:induction false} PersistForecastsValid(db: Db, sym: Symbol, rows: seq<(int, ForecastClip.Ohlc)>)
    requires Valid(db)
    ensures Valid(PersistForecasts(db, sym, rows).0)
    decreases |rows|
  {
    if |rows| > 0 {
      PersistOneValid(db, sym, rows[0].0, rows[0].1);
      PersistForecastsValid(PersistOne(db, sym, rows[0].0, rows[0].1).0, sym, rows[1..]);
    }
  }
}

=== FILE: updates.dfy ===
/** Refreshing stored prices on demand: the whole-catalogue job
    (`update_all.main`), the update-button callback that dispatches on the
    chosen scope, and the callback that styles the button from the
    session's record of what has been refreshed. */
module Updates {
  import opened Common
  import opened Store
  import opened DataStore

  /** `update_all.main`: one `add_new_ohlc` per distinct symbol of the
      loaded snapshot, in order of first appearance; the snapshot itself
      is not reloaded. */
  function UpdateAll(st: State, provider: (Symbol, Request) -> Fetch): (r: (State, seq<Outcome>))
    requires st.snapshot.Some?
    ensures r.0 == st.(db := r.0.db)
    ensures |r.1| == |SnapshotSymbols(st.snapshot.value)|
    ensures r.0.db.tickers == st.db.tickers && r.0.db.forecasts == st.db.forecasts
    ensures |st.db.prices| <= |r.0.db.prices| && r.0.db.prices[..|st.db.prices|] == st.db.prices
    ensures forall i :: |st.db.prices| <= i < |r.0.db.prices| ==>
      exists row :: row in st.snapshot.value && row.symbol == r.0.db.prices[i].symbol
  {
    var symbols := SnapshotSymbols(st.snapshot.value);
    var synced := SyncEach(st.db, st.handles, symbols, provider);
    assert forall s :: s in symbols ==> exists row :: row in st.snapshot.value && row.symbol == s by {
      forall s | s in symbols
        ensures exists row :: row in st.snapshot.value && row.symbol == s
      {
        var k :| 0 <= k < |SymbolColumn(st.snapshot.value)| && SymbolColumn(st.snapshot.value)[k] == s;
        assert st.snapshot.value[k] in st.snapshot.value;
      }
    }
    (st.(db := synced.0), synced.1)
  }

  /** Every symbol of the snapshot is attempted exactly once: the list
      handed to the batch is duplicate-free and holds precisely the
      snapshot's symbols. */
  lemma UpdateAllCoversSnapshot(snap: seq<SnapRow>)
    ensures NoDuplicates(SnapshotSymbols(snap))
    ensures forall s :: s in SnapshotSymbols(snap) <==> exists row :: row in snap && row.symbol == s
  {
    forall s
      ensures s in SnapshotSymbols(snap) <==> exists row :: row in snap && row.symbol == s
    {
      if exists row :: row in snap && row.symbol == s {
        var row :| row in snap && row.symbol == s;
        var k :| 0 <= k < |snap| && snap[k] == row;
        assert SymbolColumn(snap)[k] == s;
      }
    }
  }

  lemma UpdateAllValid(st: State, provider: (Symbol, Request) -> Fetch)
    requires st.snapshot.Some? && Valid(st.db)
    ensures Valid(UpdateAll(st, provider).0.db)
  {
    SyncEachValid(st.db, st.handles, SnapshotSymbols(st.snapshot.value), provider);
  }

  /** The key the update records for a scope: the symbol, the sector, or
      the literal "All" (every scope other than "Ticker" and "Sector"). */
  function ScopeKey(scope: string, symbol: Option<Symbol>, sector: Option<string>): Option<string>
  {
    if scope == "Ticker" then symbol
    else if scope == "Sector" then sector
    else Some("All")
  }

  /** `update_ticker_data`. Without a click the session record comes back
      unchanged; otherwise the chosen scope is refreshed (a missing symbol
      reaches `add_new_ohlc` as `None`, whose handle lookup fails and is
      logged), its key is recorded and the snapshot is reloaded. */
  function UpdateTickerData(st: State, button: Option<int>, scope: string, symbol: Option<Symbol>,
                            sectorSymbols: seq<Symbol>, sector: Option<string>,
                            upToDate: set<Option<string>>, provider: (Symbol, Request) -> Fetch)
    : (r: (State, set<Option<string>>))
    requires scope != "Ticker" && scope != "Sector" ==> st.snapshot.Some?
    ensures button.None? ==> r == (st, upToDate)
    ensures button.Some? ==> r.1 == upToDate + {ScopeKey(scope, symbol, sector)}
    ensures button.Some? ==> Fresh(r.0) && !r.0.signal && r.0.handles == st.handles
    ensures r.0.db.tickers == st.db.tickers && r.0.db.forecasts == st.db.forecasts
    ensures |st.db.prices| <= |r.0.db.prices| && r.0.db.prices[..|st.db.prices|] == st.db.prices
    ensures scope == "Ticker" ==> forall i :: |st.db.prices| <= i < |r.0.db.prices| ==>
      symbol == Some(r.0.db.prices[i].symbol)
    ensures scope == "Sector" ==> forall i :: |st.db.prices| <= i < |r.0.db.prices| ==>
      r.0.db.prices[i].symbol in sectorSymbols
  {
    if button.None? then (st, upToDate)
    else
      var refreshed :=
        if scope == "Ticker" then
          match symbol
          case None => st
          case Some(s) => st.(db := AddNewOhlc(st.db, st.handles, s, provider).0)
        else if scope == "Sector" then
          st.(db := SyncEach(st.db, st.handles, sectorSymbols, provider).0)
        else UpdateAll(st, provider).0;
      (LoadMainTable(refreshed, true), upToDate + {ScopeKey(scope, symbol, sector)})
  }

  lemma UpdateTickerDataValid(st: State, button: Option<int>, scope: string, symbol: Option<Symbol>,
                              sectorSymbols: seq<Symbol>, sector: Option<string>,
                              upToDate: set<Option<string>>, provider: (Symbol, Request) -> Fetch)
    requires scope != "Ticker" && scope != "Sector" ==> st.snapshot.Some?
    requires Valid(st.db)
    ensures Valid(UpdateTickerData(st, button, scope, symbol, sectorSymbols, sector, upToDate, provider).0.db)
  {
    if button.Some? {
      if scope == "Ticker" {
        if symbol.Some? { AddNewOhlcValid(st.db, st.handles, symbol.value, provider); }
      } else if scope == "Sector" {
        SyncEachValid(st.db, st.handles, sectorSymbols, provider);
      } else {
        UpdateAllValid(st, provider);
      }
    }
  }

  /** The disabling condition of `update_button_style`. */
  predicate Refreshed(scope: string, symbol: Option<Symbol>, sector: Option<string>,
                      upToDate: set<Option<string>>)
  {
    (scope == "Ticker" && symbol in upToDate)
    || ((scope == "Ticker" || scope == "Sector") && sector in upToDate)
    || Some("All") in upToDate
  }

  datatype ButtonLook = ButtonLook(caption: string, color: string, disabled: bool)

  /** `update_button_style`: "Up to date" in green and disabled, or
      "Update" in blue and enabled; the three outputs always agree. */
  function UpdateButtonStyle(scope: string, symbol: Option<Symbol>, sector: Option<string>,
                             upToDate: set<Option<string>>): (r: ButtonLook)
    ensures r.disabled <==> r.caption == "Up to date"
    ensures r.disabled <==> r.color == "success"
    ensures !r.disabled ==> r == ButtonLook("Update", "info", false)
  {
    if Refreshed(scope, symbol, sector, upToDate) then ButtonLook("Up to date", "success", true)
    else ButtonLook("Update", "info", false)
  }

  /** The record as the session store `update-state` hands it back: the
      store keeps it as JSON, whose object keys are strings, so a `None`
      key comes back as the string "null". */
  function StoredKeys(keys: set<Option<string>>): (r: set<Option<string>>)
    ensures None !in r
    ensures forall k :: k in r <==> (k in keys && k.Some?) || (k == Some("null") && None in keys)
  {
    set k | k in keys :: if k.None? then Some("null") else k
  }

  /** A click whose scope has a key makes the button, fed from the session
      store, report the scope as up to date, whatever was recorded before.
      A click without a key (ticker scope with no symbol, sector scope
      with no sector) records "null", which no selection asks for: the
      button looks as it did before the click. */
  lemma ClickDisablesButton(st: State, button: Option<int>, scope: string, symbol: Option<Symbol>,
                            sectorSymbols: seq<Symbol>, sector: Option<string>,
                            upToDate: set<Option<string>>, provider: (Symbol, Request) -> Fetch)
    requires scope != "Ticker" && scope != "Sector" ==> st.snapshot.Some?
    requires button.Some?
    ensures var after := StoredKeys(UpdateTickerData(st, button, scope, symbol, sectorSymbols, sector, upToDate, provider).1);
      ScopeKey(scope, symbol, sector).Some? ==> UpdateButtonStyle(scope, symbol, sector, after).disabled
    ensures var after := StoredKeys(UpdateTickerData(st, button, scope, symbol, sectorSymbols, sector, upToDate, provider).1);
      ScopeKey(scope, symbol, sector).None? && sector != Some("null") ==>
        UpdateButtonStyle(scope, symbol, sector, after) == UpdateButtonStyle(scope, symbol, sector, StoredKeys(upToDate))
  {
  }

  /** The repository's no-symbol click, followed through the session
      store: the record reads "null" and the button stays enabled. */
  lemma TickerClickWithoutSymbolStaysEnabled(st: State, provider: (Symbol, Request) -> Fetch)
    ensures StoredKeys(UpdateTickerData(st, Some(1), "Ticker", None, [], None, {}, provider).1) == {Some("null")}
    ensures !UpdateButtonStyle("Ticker", None, None,
      StoredKeys(UpdateTickerData(st, Some(1), "Ticker", None, [], None, {}, provider).1)).disabled
  {
    var after := StoredKeys(UpdateTickerData(st, Some(1), "Ticker", None, [], None, {}, provider).1);
    assert Some("null") in after;
  }

  /** Recording more keys never re-enables the button. */
  lemma RefreshedMonotone(scope: string, symbol: Option<Symbol>, sector: Option<string>,
                          a: set<Option<string>>, b: set<Option<string>>)
    requires a <= b && Refreshed(scope, symbol, sector, a)
    ensures Refreshed(scope, symbol, sector, b)
  {
  }

  /** An all-scope refresh disables the button for every selection, and
      a fresh session enables it for every selection. */
  lemma AllKeyCoversEverything(scope: string, symbol: Option<Symbol>, sector: Option<string>,
                               upToDate: set<Option<string>>)
    ensures Some("All") in upToDate ==> UpdateButtonStyle(scope, symbol, sector, upToDate).disabled
    ensures UpdateButtonStyle(scope, symbol, sector, {}) == ButtonLook("Update", "info", false)
  {
  }

  /** The repository's examples for `update_button_style`. */
  lemma ButtonStyleExamples()
    ensures UpdateButtonStyle("Ticker", Some("AAPL"), None, {Some("AAPL")}).disabled
    ensures UpdateButtonStyle("Ticker", None, Some("Technology"), {Some("Technology")}).disabled
    ensures UpdateButtonStyle("Sector", None, Some("Technology"), {Some("Technology")}).disabled
    ensures UpdateButtonStyle("All", None, None, {Some("All")}).disabled
    ensures !UpdateButtonStyle("Ticker", Some("AAPL"), Some("Technology"), {Some("not empty")}).disabled
  {
  }

  /** The repository's example: a click in ticker scope with no symbol
      selected records the missing symbol and nothing else. */
  lemma TickerScopeWithoutSymbol(st: State, provider: (Symbol, Request) -> Fetch)
    ensures UpdateTickerData(st, Some(1), "Ticker", None, [], None, {}, provider).1 == {None}
    ensures UpdateTickerData(st, Some(1), "Ticker", None, [], None, {}, provider).0.db == st.db
  {
  }
}
